=== FILE: README.md ===
# HIL (HaaS) network isolation: a Dafny model

HIL (formerly HaaS, "Hardware as a Service") hands bare-metal nodes to
projects and isolates them from each other by VLANs. This project models the
parts of it that decide what happens to a switch port and to a request:

- the **Open vSwitch driver** (`hil/ext/switches/ovs.py`):
  - the `str2list` and `str2dict` readers of `ovs-vsctl` output, and `_interface_info`;
  - `modify_port`, which turns a connect or detach request into one committed command or a port revert;
  - `get_port_networks`, which reports the `(channel, vlan)` pairs of each port;
- the **console session of the Juniper driver** (`hil/ext/switches/juniper.py`):
  - the lines `disable_port` and `disable_native` type;
  - the `show int sw` parser `_int_config`;
  - the VLAN report of `get_port_networks`;
- the **NETCONF Juniper driver** (`hil/ext/switches/juniper/juniper.py`):
  - the "set"-format statements it builds;
  - the template `revert_port` chooses;
  - the load-then-commit-or-roll-back sessions;
- the **authorization guards** and the set-once backend register of `haas/auth.py`;
- the **client library** `haas/client.py`:
  - endpoint selection;
  - `object_url`;
  - the request each method sends and the status-code ladder that maps the answer to an exception;
- the **command line** `haas/cli.py`:
  - command registration and usage lines;
  - dispatch in `main`;
  - the argument checks of `serve`, `user_create`, `node_register` and `switch_register`;
  - `object_url`;
  - the basic-authentication choice of `do_request`.

The model keeps each file's own form.

- Pure decisions are functions.
- Objects whose fields the source updates become classes whose methods modify them:
  - `Ovs.OvsSwitch` (its log of commands);
  - `JuniperConsole.JuniperSession` (the lines sent);
  - `JuniperNetconf.JuniperSwitch` (the committed configuration and the session log);
  - `Auth.AuthRegistry` (the module-level backend);
  - `Client.Haas` (the endpoint);
  - `Cli.CommandTable` (`command_dict` and `usage_dict`).
- Loops of the source are methods with loops, each proved equal to a specification function:
  - `object_url`;
  - the loops of `get_port_networks` in both drivers;
  - `_int_config`.

Device I/O is replaced by data.

- The port record `ovs-vsctl` prints becomes a `PortState` input.
- The console's report text becomes an input string.
- The switch's commit check becomes a predicate on the candidate configuration.
- Whatever the drivers send or load is recorded in a log.

Each switch model comes with an independent account of what the commands do to a port:

- `Ovs.Apply`/`Run` for the OVS fragments;
- `JuniperConsole.Step`/`Run` for the console lines;
- `JuniperNetconf.Exec`/`ExecAll` for the statements.

The lemmas state what a driver call achieves in those terms.

Files, one module each:

| file | module |
|---|---|
| `wrappers.dfy` | `Option` and `Result` |
| `pystr.dfy` | the Python 2 string operations the source relies on |
| `urlquote.dfy` | `urllib.quote(s, '')` and `urllib.unquote` |
| `channels.dfy` | the channel names `vlan/native` and `vlan/<n>` |
| `ovs_values.dfy` | value readers of the OVS driver |
| `ovs.dfy` | `modify_port` and its helpers |
| `ovs_networks.dfy` | the OVS `get_port_networks` |
| `juniper_console.dfy` | the console session |
| `juniper_netconf.dfy` | the NETCONF driver |
| `auth.dfy` | the guards and the backend register |
| `client.dfy` | the client library |
| `cli.dfy` | the command line |

## Model

| member | source | states |
|---|---|---|
| Channels.ParseChannel | hil/ext/switches/ovs.py:165-168 | `vlan/native` is recognised exactly; a tagged channel is `vlan/` followed by the longest run of digits at that point, and anything else is no channel |
| Channels.ParseChannelName | hil/ext/switches/ovs.py:159-168 | every role written as a channel name reads back as itself |
| UrlQuote.Quote | haas/client.py:79 | a quoted segment holds no `/`, only always-safe characters and `%`, and is one to three times as long as the input |
| UrlQuote.UnquoteQuote | haas/client.py:79 | unquoting a quoted segment gives the segment back |
| OvsValues.Str2List | hil/ext/switches/ovs.py:90-104 | text not starting with `[` gives `None`; on stripped text, as `_interface_info` passes it, the empty list exactly for `[]`; a parsed list comes from bracketed text and its items are stripped and comma-free |
| OvsValues.ListItems | hil/ext/switches/ovs.py:97-102 | the quoted items read back as a non-empty list of stripped, comma-free items, or raise |
| OvsValues.Str2ListListText | hil/ext/switches/ovs.py:90-104 | `str2list` reads back any non-empty list of plain words as `ovs-vsctl` prints it |
| OvsValues.Str2Dict | hil/ext/switches/ovs.py:106-118 | text not starting with `{` gives `None`; `{}` gives the empty dictionary; a parsed dictionary comes from braced text |
| OvsValues.DictItems | hil/ext/switches/ovs.py:113-115 | the items parse exactly when every one holds exactly one colon, and then every item's stripped key is a name of the result |
| OvsValues.StrippedMapSurvivor | hil/ext/switches/ovs.py:115 | every name of the stripped dictionary comes from a pair that the raw dictionary kept (the last with its raw key) and holds that pair's stripped value, whichever of several colliding raw keys iteration visits last |
| OvsValues.StrippedMapSurvives | hil/ext/switches/ovs.py:115 | a pair that is last with its raw key, and whose stripped name no other raw key shares, gives its stripped value to its name whatever the iteration order |
| OvsValues.RepeatedKey | hil/ext/switches/ovs.py:128 | of two pairs with the same raw key the dictionary keeps the later one |
| OvsValues.Str2DictDictText | hil/ext/switches/ovs.py:106-118 | `str2dict` reads back any non-empty printed dictionary of plain words with distinct keys: exactly its keys, each with its own value |
| OvsValues.InterfaceValue | hil/ext/switches/ovs.py:130-133 | a value starting with `[` or `{` is converted by `str2list(v) or str2dict(v)`, so `[]` becomes `None`; a converted list is never empty; other text is kept; an empty value raises |
| OvsValues.InterfaceInfoNames | hil/ext/switches/ovs.py:124-135 | when `_interface_info` succeeds, every output line has exactly one colon and its stripped name is a key of the result |
| OvsValues.InterfaceInfoKeys | hil/ext/switches/ovs.py:124-135 | conversely, every key of the result is the stripped name of some line |
| OvsValues.InterfaceInfoValue | hil/ext/switches/ovs.py:128-133 | the value of a line that survives whatever the iteration order is its stripped text converted, and when that conversion raises the whole call raises |
| OvsValues.Converted | hil/ext/switches/ovs.py:130-133 | converting the values keeps exactly the names of the stripped dictionary |
| OvsValues.ConvertedValue | hil/ext/switches/ovs.py:130-133 | a name's converted value is its text converted; one value that does not convert makes the call raise |
| OvsValues.ReplacedLineNotConverted | hil/ext/switches/ovs.py:128-133 | a line with an empty value, which raises once converted, does not raise when a later line with the same raw name replaces it |
| Ovs.HasDefault | hil/ext/switches/ovs.py:243 | `'default' in vlans` is a substring test on one name, list membership on a list, and raises on `None` |
| Ovs.AddCommand | hil/ext/switches/ovs.py:230-246 | the command committed for an add is ordered enable, trunk, operation, remove-default; it holds the operation; enable appears exactly when the port is disabled, trunk exactly when it is not in trunk mode, remove-default exactly when the port carries the default VLAN; every fragment names the port; it raises exactly when the vlans field is `None` |
| Ovs.AddReachesTarget | hil/ext/switches/ovs.py:269-285 | running the add command on the port the record describes leaves it enabled, trunked, without the default VLAN, and with the operation applied |
| Ovs.RemoveEffect | hil/ext/switches/ovs.py:249-262 | a removal reverts the port exactly when its vlans field is a single name, and commits the removal otherwise |
| Ovs.RemoveDropsVlan | hil/ext/switches/ovs.py:287-297 | after a removal, by commit or by revert, the port no longer carries that VLAN (or has no native VLAN), and a revert leaves it in its factory state |
| Ovs.AddOutcome | hil/ext/switches/ovs.py:284 | an add completes exactly when the vlans field is set and the switch accepts the command; otherwise nothing is committed and the error is raised |
| Ovs.RemoveOutcome | hil/ext/switches/ovs.py:258-261 | a removal completes exactly when it reverts or the switch accepts it; a refused one raises `VlanAddError` and changes nothing |
| Ovs.Occurrences | hil/ext/switches/ovs.py:156 | the number of ports with the label is zero exactly when the label is absent |
| Ovs.ModifyPortSpec | hil/ext/switches/ovs.py:150-177 | no port, or several, with the label raises; a channel that is neither native nor `vlan/<digits>` raises; a `VlanAddError` is returned, never raised, exactly for a refused tagged add on a port whose vlans field is set; a tagged connect whose network id differs from the channel's VLAN fails its `assert` (`NetworkMismatch`); on the native channel a refused set raises `VlanAddError`; at most one effect, only on success, and it only touches that port |
| Ovs.ModifyPortConnects | hil/ext/switches/ovs.py:159-177 | a completed connect leaves the port enabled, trunked, without the default VLAN, and carrying the network as native or as the tagged VLAN the channel names |
| Ovs.ConnectIsAdd | hil/ext/switches/ovs.py:159-175 | a completed connect is the add of the native or tagged VLAN, and a tagged connect's id equals the channel's |
| Ovs.ModifyPortDetaches | hil/ext/switches/ovs.py:159-171 | a completed detach leaves the port without the native VLAN or without the channel's tagged VLAN |
| Ovs.OvsSwitch.constructor | hil/ext/switches/ovs.py:60-62 | a new switch has its host name, its port labels and an empty log |
| Ovs.OvsSwitch.RevertPort | hil/ext/switches/ovs.py:137-148 | a revert is logged for the port |
| Ovs.OvsSwitch.CommitConfig | hil/ext/switches/ovs.py:246 | a refused command raises and logs nothing; an accepted one is logged |
| Ovs.OvsSwitch.AddToPort | hil/ext/switches/ovs.py:230-247 | the command assembled step by step is `AddCommand`'s, and outcome and log are `AddOutcome`'s |
| Ovs.OvsSwitch.RemoveFromPort | hil/ext/switches/ovs.py:249-262 | outcome and log are `RemoveOutcome`'s |
| Ovs.OvsSwitch.ModifyPort | hil/ext/switches/ovs.py:150-177 | outcome and new log are those of `ModifyPortSpec` |
| OvsNetworks.Filtered | hil/ext/switches/ovs.py:213-217 | an entry survives the filter exactly when its channel is neither `vlan/default` nor `vlan/<native>` |
| OvsNetworks.PortStep | hil/ext/switches/ovs.py:199-227 | one pass of the loop as written: it raises exactly for a native VLAN with a `None` vlans field; in the no-native list branch it appends to the carried output |
| OvsNetworks.GetPortNetworks | hil/ext/switches/ovs.py:179-228 | the loop as written computes `Scan` over the port records in order |
| OvsNetworks.PortPass | hil/ext/switches/ovs.py:200-227 | the loop body computes `PortStep` |
| OvsNetworks.PortNetworks | hil/ext/switches/ovs.py:204-227 | the per-port report: `[]` for `'default'`, never a `vlan/default` entry, every entry either native or `vlan/<v>` for its own `v`, and, for a native VLAN `n` (not itself named `native`), `('vlan/native', n)` first and no `vlan/<n>` entry |
| OvsNetworks.PortNetworksTagged | hil/ext/switches/ovs.py:210-227 | a VLAN of the port is reported as tagged exactly when it is neither `default` nor the native VLAN |
| OvsNetworks.Networks | hil/ext/switches/ovs.py:179-228 | every port is reported from its own record, and the report fails exactly when one port's does |
| OvsNetworks.PortStepAgrees | hil/ext/switches/ovs.py:204-227 | outside the two cases of the findings, one pass as written reports what `PortNetworks` does |
| OvsNetworks.CarriedOutputLeaks | hil/ext/switches/ovs.py:198-227 | the loop as written reports a port's native VLAN under the next port, which the intended report does not |
| OvsNetworks.SingleNameSplitIntoCharacters | hil/ext/switches/ovs.py:218-222 | a single vlans name with a different native VLAN is reported character by character |
| JuniperConsole.RemovesSpan | hil/ext/switches/juniper.py:117 | a `low-high` argument of `remove` names exactly the VLANs from low to high |
| JuniperConsole.DisablePortClears | hil/ext/switches/juniper.py:114-117 | after `disable_port` the dummy VLAN is native and no VLAN from 1 to 4093 is allowed |
| JuniperConsole.DisableNativeClears | hil/ext/switches/juniper.py:119-126 | after `disable_native` the dummy VLAN is native, and neither it nor the disabled VLAN is allowed; every other allowed VLAN stays |
| JuniperConsole.NativeNeedsAllowed | hil/ext/switches/juniper.py:121-123 | without the preceding add, the switch would not make the dummy VLAN native |
| JuniperConsole.JuniperSession.DisablePort | hil/ext/switches/juniper.py:114-117 | the three lines are sent in order |
| JuniperConsole.JuniperSession.DisableNative | hil/ext/switches/juniper.py:119-126 | `disable_vlan`, then the three lines, are sent in order |
| JuniperConsole.SplitLinesOfLines | hil/ext/switches/juniper.py:138 | `splitlines` gives back the lines of newline-terminated text |
| JuniperConsole.KeptLines | hil/ext/switches/juniper.py:138-139 | the kept lines are a prefix of the report's lines that lacks exactly the last three, or every line when there are fewer than three |
| JuniperConsole.SplitOnce | hil/ext/switches/juniper.py:141 | `split(':', 1)` unpacks exactly when the line has a colon, into a colon-free key and the rest |
| JuniperConsole.SplitOnceJoin | hil/ext/switches/juniper.py:141 | a line `key:value` with a colon-free key splits back into key and value |
| JuniperConsole.ConfigEntriesDefined | hil/ext/switches/juniper.py:140-142 | the lines give a dictionary exactly when every line has a colon |
| JuniperConsole.ConfigEntriesMeaning | hil/ext/switches/juniper.py:136-142 | the dictionary holds every line's key, keeps the last line's value, and keeps `'key': 'value'` unless a line has that key |
| JuniperConsole.JuniperSession.IntConfig | hil/ext/switches/juniper.py:128-148 | the loop builds the dictionary of the kept lines; the command and, on success, the newline are sent |
| JuniperConsole.NativeOf | hil/ext/switches/juniper.py:155-166 | a field whose stripped text starts with no digit gives no native VLAN; otherwise `int(dummy_vlan)` is evaluated and raises exactly when it fails, the native VLAN is the value of the leading digits, and it is dropped exactly when it equals the dummy VLAN |
| JuniperConsole.NativeIgnoresJunk | hil/ext/switches/juniper.py:155-162 | a field of digits followed by junk that starts with no digit, such as `100 (Inactive)`, gives the VLAN of those digits when the dummy VLAN is another number |
| JuniperConsole.TokenEntry | hil/ext/switches/juniper.py:170-177 | a token yields an entry exactly when, stripped, it starts with a digit; the entry is `('vlan/<digits>', int(digits))` for the longest run of digits the stripped token starts with |
| JuniperConsole.TokenIgnoresJunk | hil/ext/switches/juniper.py:170-177 | a token of digits followed by junk that starts with no digit names the VLAN of those digits |
| JuniperConsole.RangeReportsEnds | hil/ext/switches/juniper.py:168-177 | a range `low-high` contributes its two ends, not the VLANs between them |
| JuniperConsole.TaggedEntryIsChannel | hil/ext/switches/juniper.py:177 | every reported tagged entry names a channel that reads back as its VLAN |
| JuniperConsole.PortReportShape | hil/ext/switches/juniper.py:153-180 | a port's report needs both fields; all entries but the last are tagged VLANs, and the last is `('vlan/native', n)` exactly when there is a native VLAN other than the dummy one |
| JuniperConsole.JuniperSession.RangeNetworks | hil/ext/switches/juniper.py:169-177 | the inner loop computes the entries of the range's tokens |
| JuniperConsole.JuniperSession.EnabledNetworks | hil/ext/switches/juniper.py:167-177 | the loop over the ranges computes the entries of the enabled field |
| JuniperConsole.JuniperSession.PortNetworks | hil/ext/switches/juniper.py:155-180 | the loop body computes the port's report |
| JuniperConsole.JuniperSession.GetPortNetworks | hil/ext/switches/juniper.py:150-181 | the result holds exactly the configured ports, each with its report, and fails exactly when one port's report fails |
| JuniperNetconf.ParseRender | hil/ext/switches/juniper/juniper.py:125-198 | the statement encoding is injective: the model's one-line, single-blank text of every well-formed statement reads back as that statement |
| JuniperNetconf.ParseBlockLoadText | hil/ext/switches/juniper/juniper.py:194-198 | a block of well-formed statements, rendered by the model one per line, reads back as those statements |
| JuniperNetconf.NativeVlanStatement | hil/ext/switches/juniper/juniper.py:145-159 | a truthy id gives `set interface <port> native-vlan-id <id>`; otherwise the delete form naming the formatted id |
| JuniperNetconf.NativeVlanSets | hil/ext/switches/juniper/juniper.py:151-155 | a truthy id becomes the port's native VLAN |
| JuniperNetconf.NativeVlanNotCleared | hil/ext/switches/juniper/juniper.py:156-159 | without an id, the statement as written leaves a native VLAN with another id in place |
| JuniperNetconf.NativeVlanStatementFixed | hil/ext/switches/juniper/juniper.py:145-159 | with a truthy id, the same statement as the source |
| JuniperNetconf.NativeVlanFixedEffect | hil/ext/switches/juniper/juniper.py:145-150 | the corrected builder sets a truthy id as native and otherwise clears the native VLAN, leaving members and mode alone |
| JuniperNetconf.AddThenRemoveVlan | hil/ext/switches/juniper/juniper.py:173-188 | adding a VLAN makes it a member; removing it afterwards leaves the members as before without it |
| JuniperNetconf.RemoveAllVlans | hil/ext/switches/juniper/juniper.py:190-198 | three statements, all on the port |
| JuniperNetconf.RemoveAllVlansClears | hil/ext/switches/juniper/juniper.py:190-198 | the port is left with no VLAN members, no native VLAN and no interface mode |
| JuniperNetconf.ExecAllOtherPorts | hil/ext/switches/juniper/juniper.py:173-198 | statements about one port leave every other port as it was |
| JuniperNetconf.SetModeEffect | hil/ext/switches/juniper/juniper.py:120-136 | `_set_mode` always asks for trunk mode; for another mode it first clears the port; other ports are untouched; a rejected commit changes nothing |
| JuniperNetconf.TemplateFor | hil/ext/switches/juniper/juniper.py:220-223 | the channelized template exactly when the second-to-last character is `:`; a name too short raises |
| JuniperNetconf.ChannelizedPort | hil/ext/switches/juniper/juniper.py:210-223 | a port `<base>:<lane>` gets the channelized template |
| JuniperNetconf.RevertPortEffect | hil/ext/switches/juniper/juniper.py:214-236 | an accepted revert leaves the port with exactly its template's configuration and other ports as they were; a rejected one changes nothing |
| JuniperNetconf.JuniperSwitch.constructor | hil/ext/switches/juniper/juniper.py:63-69 | a new session starts from the committed configuration with an empty log |
| JuniperNetconf.JuniperSwitch.CommitConfig | hil/ext/switches/juniper/juniper.py:71-80 | commit when the check passes, roll back otherwise |
| JuniperNetconf.JuniperSwitch.SetCommitConfig | hil/ext/switches/juniper/juniper.py:82-99 | the statements are loaded in "set" format before the commit-or-rollback |
| JuniperNetconf.JuniperSwitch.SetMode | hil/ext/switches/juniper/juniper.py:120-136 | the whole new log: for a mode other than `"trunk"`, the remove-all load and its commit or rollback come first; then the trunk statement is loaded and committed exactly when the switch accepts it on the configuration the first session left; the committed state is `SetModeResult` |
| JuniperNetconf.JuniperSwitch.SetNativeVlan | hil/ext/switches/juniper/juniper.py:145-162 | the whole new log: the native-VLAN statement is loaded, then `Commit` exactly when the switch accepts the result, `Rollback` otherwise; the committed state changes only on a commit |
| JuniperNetconf.JuniperSwitch.AddVlanFromTrunk | hil/ext/switches/juniper/juniper.py:173-181 | the whole new log: the add statement is loaded, then `Commit` exactly when the switch accepts the result, `Rollback` otherwise; the committed state changes only on a commit |
| JuniperNetconf.JuniperSwitch.RemoveVlanPort | hil/ext/switches/juniper/juniper.py:183-188 | the whole new log: the delete statement is loaded, then `Commit` exactly when the switch accepts the result, `Rollback` otherwise; the committed state changes only on a commit |
| JuniperNetconf.JuniperSwitch.RemoveAllVlansPort | hil/ext/switches/juniper/juniper.py:190-199 | the whole new log: the three deletes are loaded together, then `Commit` exactly when the switch accepts the result, `Rollback` otherwise; the committed state changes only on a commit |
| JuniperNetconf.JuniperSwitch.RevertPort | hil/ext/switches/juniper/juniper.py:206-242 | the delete of the interface, then the template, then one commit or rollback, in one session; a name shorter than two characters raises before anything is loaded |
| Auth.RequireAdmin | haas/auth.py:57-65 | raises `AuthorizationError` exactly when `have_admin()` is false |
| Auth.RequireProjectAccess | haas/auth.py:67-70 | raises `AuthorizationError` exactly when `have_project_access(project)` is false |
| Auth.AdminDoesNotImplyAccess | haas/auth.py:53-54 | for every backend and project, changing administrator rights leaves `require_project_access` unchanged, and changing the projects leaves `require_admin` unchanged |
| Auth.FirstSetWins | haas/auth.py:73-83 | after any calls of `set_auth_backend`, the register holds the first backend set, and every later call exits |
| Auth.AuthRegistry.constructor | haas/auth.py:8 | the register starts empty |
| Auth.AuthRegistry.SetAuthBackend | haas/auth.py:73-83 | the first call stores the backend; a later one exits and keeps the stored backend |
| Auth.AuthRegistry.GetAuthBackend | haas/auth.py:86-88 | returns the stored backend, `None` before any set |
| Client.Classify | haas/client.py:88-95 | no 2xx status raises; 409, 404 and 5xx map to their exceptions exactly when the method has that branch; everything else is an unknown error |
| Client.SuccessNeverRaises | haas/client.py:257-258 | no method raises on a status in [200, 300) |
| Client.FullLadder | haas/client.py:251-266 | 409 → duplicate name, 404 → incomplete dependency, ≥ 500 → server-side error, otherwise unknown |
| Client.CreateNotFoundIsUnknown | haas/client.py:189-201 | `user_create` and `project_create` answer 404 with an unknown error |
| Client.SimpleCreateServerErrorIsUnknown | haas/client.py:114-127 | `network_create_simple` answers every status from 500 up with an unknown error |
| Client.DeletesKnowOnlyNotFound | haas/client.py:129-149 | the deletes of networks, users and projects tell apart only success and 404 |
| Client.ListProjectsKnowsOnlySuccess | haas/client.py:151-158 | `list_projects` raises an unknown error on every non-2xx status |
| Client.EndpointPrecedence | haas/client.py:54-73 | explicit argument, then `HAAS_ENDPOINT`, then `[client] endpoint`; none only when all are absent |
| Client.SuffixSnoc | haas/client.py:78-79 | one more argument appends one more `/`-led quoted segment |
| Client.SplitSuffix | haas/client.py:75-80 | the appended text splits at `/` into an empty piece, then the quoted arguments |
| Client.UrlRoundTrip | haas/client.py:75-80 | every argument, even one holding `/`, reads back from the URL |
| Client.AppendQuoted | haas/client.py:77-80 | the loop builds the endpoint followed by `'/' + quote(arg, '')` for each argument, in order |
| Client.Haas.constructor | haas/client.py:54-73 | the endpoint is the one chosen by precedence |
| Client.Haas.ObjectUrl | haas/client.py:75-80 | the URL of the arguments on the endpoint; none without an endpoint |
| Client.Haas.Invoke | haas/client.py:82-801 | a method sends its verb, its URL and its body, and raises what its ladder gives for the status |
| Cli.UsageWords | haas/cli.py:55-61 | the name, `<p>` for each parameter in order, then `<v...>` for a varargs parameter |
| Cli.UsageSplits | haas/cli.py:55-61 | a usage line splits back at its blanks into those words |
| Cli.LaterDefinitionWins | haas/cli.py:38-63 | the registered command of a name is its last definition |
| Cli.RegisteredNames | haas/cli.py:54-62 | the registered names are exactly the names defined, each filed under itself |
| Cli.SecondSwitchRegisterWins | haas/cli.py:548-557 | of the two `switch_register` definitions, the second is registered |
| Cli.CommandTable.constructor | haas/cli.py:30-31 | both dictionaries start empty |
| Cli.CommandTable.Cmd | haas/cli.py:38-63 | `@cmd` files the command and its usage line under its name, replacing an earlier one |
| Cli.CommandTable.Route | haas/cli.py:831-843 | `main` computes `Dispatch` |
| Cli.DispatchRegistered | haas/cli.py:45-53 | a registered name runs its last definition when the arguments fit, and prints its usage when they do not |
| Cli.DispatchUnknown | haas/cli.py:839-841 | a missing or unknown command name prints the help of every command |
| PyStr.SignThenBlanks | haas/cli.py:123 | `int()` of a sign, blanks and digits is the signed value of the digits, as Python 2 reads it (`int('+ 80') == 80`) |
| Cli.ServePort | haas/cli.py:120-127 | a port is accepted exactly when it converts to an int in [1, 65535], and is that int; otherwise the exit message |
| Cli.ServeAcceptsExactlyPortRange | haas/cli.py:32-33 | every decimal port number from 1 to 65535 is accepted as itself, and no other |
| Cli.UserCreate | haas/cli.py:158-171 | raises `TypeError` unless `is_admin` is `admin` or `regular`; otherwise a PUT with the password and the boolean `is_admin == 'admin'` |
| Cli.UserUrlOneSegment | haas/cli.py:165 | `/auth/basic/user` reaches the URL as one escaped segment |
| Cli.UserCreateFixed | haas/cli.py:158-171 | the same decision, with the path as separate segments |
| Cli.UserUrlFixed | haas/cli.py:165 | the corrected URL's path is `auth`, `basic`, `user`, then the name |
| Cli.NodeRegister | haas/cli.py:372-400 | a PUT exactly for a known OBM subtype with three arguments; the exact error lines otherwise |
| Cli.NodeRegisterCarriesArgs | haas/cli.py:386-400 | the OBM body carries the subtype and the three arguments, in order |
| Cli.SwitchRegister | haas/cli.py:557-595 | a PUT exactly when the argument count fits the subtype (4 for nexus, 3 for mock and powerconnect55xx); an unknown subtype gives its error line |
| Cli.SwitchRegisterCarriesArgs | haas/cli.py:567-595 | the switch body carries the subtype and all arguments, the dummy VLAN last for nexus |
| Cli.ObjectUrl | haas/cli.py:77-85 | the URL on `HAAS_ENDPOINT` if set, else on `[client] endpoint`, else none |
| Cli.BasicAuth | haas/cli.py:101-105 | basic authentication exactly when both variables are set, with their values |

## Left out

- Device and network I/O:
  - the `ovs-vsctl` shell calls;
  - the telnet login and prompts of the console session;
  - the PyEZ `Device` sessions and their connection errors;
  - the HTTP requests and `r.json` bodies;
  - all printing.

  Port records, console output and the switch's commit check are inputs; what is sent is a log.
- `_set_commands`, `_set_commit_config` and `_clear_set_commands` of the OVS driver are not defined in it. The command fragments are a datatype named by port and VLAN, and a commit is either accepted or refused (`refused` parameter).
- Ovs.Submit: which exception a refused commit raises is not in the source, since `_set_commit_config` is undefined and nothing in ovs.py raises. The model assumes it raises `VlanAddError` on every path, removals included. It bases this on `modify_port` catching `VlanAddError` around `_add_vlan_to_trunk` (hil/ext/switches/ovs.py:174-177). `ConfigCommitError` (hil/ext/switches/ovs.py:45-47) is declared "for commit conflicts" but never used, so it is not modelled. The claims of `Ovs.ModifyPortSpec` and `Ovs.RemoveOutcome` about `VlanAddError` rest on this assumption.
- The OVS callers index `_interface_info`'s dictionary of field names by the port name. The model takes the per-port record (`PortState`) as input instead.
- `disable_vlan`, `_port_configs` and `_DellN3000Session` are not part of this model:
  - `disable_vlan` is inherited from a base class outside the model. It is assumed to drop the VLAN from the allowed set.
  - `_port_configs` gives the input fields of `get_port_networks`.
- Four functions of the NETCONF driver do not parse in Python, so the module cannot be imported as written:
  - `_set_native_vlan` and `_remove_all_vlans_port`, because of their indentation;
  - `_set_commit_config`, whose `except ConnectError` sits inside the `try` body;
  - `_interface_info`, whose `try` has no `except`.
- Every modelled NETCONF operation goes through `_set_commit_config`. The model follows the evident intent of all four: the statements they build, and a `try` around the session whose `ConnectError` handler exits.
- The NETCONF driver reads `jun.cfg.commit_check`, `commit` and `rollback` as attributes without calling them. The model keeps only the intended commit-or-rollback decision.
- JuniperNetconf.Render: the source's format strings carry line breaks and indentation around each `set`/`delete` statement. The model renders one statement per line with single blanks, so the read-back lemmas show the encoding is injective; they do not read the source's own text.
- NETCONF facts that are not modelled:
  - the `ConnectError` exit;
  - `revert_port`'s printing of other exceptions;
  - `_interface_info`/`InterfaceConfigTables`;
  - `_trunk_mode`, `_get_native_vlan`, `_get_port_networks`;
  - the template contents (a loaded template stands for a port with no VLAN and no trunk mode);
  - `_set_port_state`, which names an undefined variable.
- OvsValues.Str2List and OvsValues.Str2Dict take their text stripped, as `_interface_info` passes it (hil/ext/switches/ovs.py:129). On unstripped text they differ from Python: `ast.literal_eval` ignores trailing blanks and comments, so `str2list('[] ')` is `[]` and `str2list('[a] ')` is `['a']`, where the model reports a raise because it tests the last character and `[]` exactly.
- OvsValues.Str2List and OvsValues.Str2Dict stand in for `ast.literal_eval` after quoting.
  - They accept exactly the item texts free of brackets or braces, quotes, backslashes and line breaks.
  - They report other texts as raising.
  - Python's escape handling and implicit string concatenation are not modelled.
- OvsValues.StrippedMap: when raw keys that differ only in blanks strip to the same name, which value survives follows CPython's hash order. The definition keeps the last such pair. Its lemmas promise only that the survivor is the last pair of one of those raw keys, and give its value outright only when no other raw key shares the name.
- OvsValues.Str2DictDictText: the round trip is stated for distinct keys, as `ovs-vsctl` prints them. For repeated keys which value `str2dict` keeps is unspecified, as above.
- Integers are Python's unbounded ints. `int()` is modelled for decimal text only: surrounding whitespace, one optional sign, and the blanks Python 2 skips between the sign and the digits. The whitespace set is that of `str.strip`.
- The reconciliation loop of `serve_networks` (`deferred.apply_networking`) is not part of this model; neither are the database, the schema validation of credentials nor the OBM drivers.
- Client.Haas.ObjectUrl returns `None` without an endpoint, where `url += ...` on `None` raises `TypeError`.
- Client.Haas.Invoke models the ladder and the request; the return of `r.json` by the list and show methods is not modelled.
- Auth:
  - `have_admin` and `have_project_access` are taken as data (`Backend`);
  - `authenticate` is abstract and is not modelled;
  - `sys.exit` is modelled as the exit message of the call.
- Cli.DispatchUnknown:
  - the help output is modelled as the set of command names;
  - the sorted order and the docstrings it prints are not modelled.
- Cli.UserCreate: the `TypeError` turned into a usage message by the `cmd` wrapper is modelled as the error value; the wrapper's broad catch of other `TypeError`s is not modelled.
- Commands of the command line other than the ones listed are not modelled:
  - most are a URL plus a request;
  - `headnode_delete` names an undefined `project`;
  - `node_delete` formats a message with a mismatched argument.
- Cli.ServePort does not model the "Unexpected Error" branch, which only catches exceptions other than the schema error.

## Findings

| source | as written | input that shows it | evidently intended | confidence | as-written member | corrected member |
|---|---|---|---|---|---|---|
| hil/ext/switches/ovs.py:198-227 | `all_output` is reset only in the native branch, so the no-native list branch appends to the previous port's output | port A with vlans `[10, 20]` and native `5`, then port B with vlans `[30]` and no native: B is reported with `('vlan/native', '5')` | every port reported from its own record | medium, not executed | OvsNetworks.CarriedOutputLeaks | OvsNetworks.Networks |
| hil/ext/switches/ovs.py:218-222 | a single vlans name with a different native VLAN is iterated as a string, one character at a time | vlans `'100'`, native `'5'`: entries `vlan/1`, `vlan/0`, `vlan/0` | the single VLAN `vlan/100` next to the native entry | medium, not executed | OvsNetworks.SingleNameSplitIntoCharacters | OvsNetworks.PortNetworksTagged |
| hil/ext/switches/juniper/juniper.py:156-159 | with no network id the statement is `delete interface <port> native-vlan-id None` | native VLAN `100`, `network_id=None`: the native VLAN stays | removing the port's native VLAN | medium, not executed | JuniperNetconf.NativeVlanNotCleared | JuniperNetconf.NativeVlanFixedEffect |
| haas/cli.py:165 | `object_url('/auth/basic/user', username)` quotes the slashes, giving one segment `%2Fauth%2Fbasic%2Fuser` | `user_create alice pw admin` | the path `/auth/basic/user/alice` | low, not executed | Cli.UserUrlOneSegment | Cli.UserUrlFixed |

=== FILE: auth.dfy ===
/**
 * The authorization guards of the API server and the process-wide register
 * that holds the one authentication backend in use.
 *
 * A backend is abstract in the source: `have_admin()` and
 * `have_project_access(project)` answer for the request being served. The
 * model takes those answers as data: whether the request may act as an
 * administrator, and the names of the projects it may act as.
 */
module Auth {
  import opened Wrappers

  datatype Backend = Backend(admin: bool, projects: set<string>)

  /** `haas.errors.AuthorizationError` */
  datatype AuthorizationError = AuthorizationError(message: string)

  const AdminOnly := "This operation is administrator-only."
  const NoProjectAccess := "You do not have access to the required project."
  const SetTwice := "Fatal Error: set_auth_backed() called twice. Make sure you don't have conflicting extensions loaded."

  predicate HaveAdmin(b: Backend) { b.admin }

  predicate HaveProjectAccess(b: Backend, project: string) { project in b.projects }

  /** `AuthBackend.require_admin`: raises exactly when `have_admin()` is false. */
  function RequireAdmin(b: Backend): (r: Result<(), AuthorizationError>)
    ensures r.Err? <==> !HaveAdmin(b)
    ensures r.Err? ==> r.error.message == AdminOnly
  {
    if !b.admin then Err(AuthorizationError(AdminOnly)) else Ok(())
  }

  /** `AuthBackend.require_project_access`: raises exactly when `have_project_access(project)` is false. */
  function RequireProjectAccess(b: Backend, project: string): (r: Result<(), AuthorizationError>)
    ensures r.Err? <==> !HaveProjectAccess(b, project)
    ensures r.Err? ==> r.error.message == NoProjectAccess
  {
    if project !in b.projects then Err(AuthorizationError(NoProjectAccess)) else Ok(())
  }

  /**
   * The two guards are independent: administrator rights neither grant nor
   * deny access to a project, and the projects a request may act as say
   * nothing about administrator rights. A backend that wants administrators
   * to reach every project must grant that itself.
   */
  lemma AdminDoesNotImplyAccess(b: Backend, admin: bool, projects: set<string>, project: string)
    ensures RequireProjectAccess(b.(admin := admin), project) == RequireProjectAccess(b, project)
    ensures RequireAdmin(b.(projects := projects)) == RequireAdmin(b)
  {
  }

  /**
   * One `set_auth_backend(b)` call against the register `reg`: the register
   * afterwards and the message the process exits with, if it does.
   */
  function SetStep(reg: Option<Backend>, b: Backend): (Option<Backend>, Option<string>)
  {
    if reg.Some? then (reg, Some(SetTwice)) else (Some(b), None)
  }

  /** The register after the calls `calls`, in order, starting from the module's initial `None`. */
  function Registered(calls: seq<Backend>): Option<Backend>
  {
    if calls == [] then None else SetStep(Registered(calls[..|calls| - 1]), calls[|calls| - 1]).0
  }

  /** How many of the calls `calls` end the process. */
  function Exits(calls: seq<Backend>): nat
  {
    if calls == [] then 0
    else
      var prior := calls[..|calls| - 1];
      Exits(prior) + (if SetStep(Registered(prior), calls[|calls| - 1]).1.Some? then 1 else 0)
  }

  /** The first backend ever set is the one the register keeps; every later call is fatal. */
  lemma {:induction false} FirstSetWins(calls: seq<Backend>)
    ensures Registered(calls) == (if calls == [] then None else Some(calls[0]))
    ensures Exits(calls) == (if calls == [] then 0 else |calls| - 1)
  {
    if calls != [] {
      var prior := calls[..|calls| - 1];
      FirstSetWins(prior);
      if prior != [] {
        assert prior[0] == calls[0];
      }
    }
  }

  /** The module-level `_auth_backend` of `haas/auth.py`. */
  class AuthRegistry {
    var backend: Option<Backend>

    /** Importing the module: `_auth_backend = None`. */
    constructor()
      ensures backend == None
    {
      backend := None;
    }

    /**
     * `set_auth_backend(b)`: the first call stores `b`; a later call exits the
     * process with `exit` and leaves the stored backend as it was.
     */
    method SetAuthBackend(b: Backend) returns (exit: Option<string>)
      modifies this
      ensures (backend, exit) == SetStep(old(backend), b)
    {
      if backend.Some? {
        exit := Some(SetTwice);
      } else {
        backend := Some(b);
        exit := None;
      }
    }

    /** `get_auth_backend()` */
    method GetAuthBackend() returns (r: Option<Backend>)
      ensures r == backend
    {
      r := backend;
    }
  }
}

=== FILE: channels.dfy ===
/**
 * Channels: the logical name of a port's VLAN role, `vlan/native` for the
 * untagged VLAN or `vlan/<N>` for a tagged one.
 */
module Channels {
  import opened PyStr

  datatype Channel = Native | Tagged(vlan: string) | NotAChannel

  /**
   * How a driver reads a channel: `vlan/native` first, then the regular
   * expression `vlan/(\d+)` matched at the start of the string (so trailing
   * text after the digits is ignored).
   */
  function ParseChannel(channel: string): (c: Channel)
    ensures c == Native <==> channel == "vlan/native"
    ensures c.Tagged? ==> IsNumeral(c.vlan) && "vlan/" + c.vlan <= channel
    ensures c.Tagged? ==> |channel| == 5 + |c.vlan| || !IsDigit(channel[5 + |c.vlan|])
    ensures c.NotAChannel? ==> !("vlan/" <= channel) || channel == "vlan/native" || |channel| == 5 || !IsDigit(channel[5])
  {
    if channel == "vlan/native" then Native
    else if "vlan/" <= channel && |LeadingDigits(channel[5..])| > 0 then
      var d := LeadingDigits(channel[5..]);
      assert channel == "vlan/" + channel[5..];
      Tagged(d)
    else NotAChannel
  }

  /** The channel name HIL writes for a role. */
  function ChannelName(c: Channel): string
    requires !c.NotAChannel?
  {
    match c
    case Native => "vlan/native"
    case Tagged(v) => "vlan/" + v
  }

  /** Every role survives being written as a channel name and read back. */
  lemma ParseChannelName(c: Channel)
    requires c.Native? || (c.Tagged? && IsNumeral(c.vlan))
    ensures ParseChannel(ChannelName(c)) == c
  {
    if c.Tagged? {
      var name := ChannelName(c);
      assert name[5..] == c.vlan;
      assert name != "vlan/native" by {
        assert name[5] != 'n';
      }
      LeadingDigitsOfNumeral(c.vlan);
    }
  }

  lemma {:induction false} LeadingDigitsOfNumeral(d: string)
    requires forall i :: 0 <= i < |d| ==> IsDigit(d[i])
    ensures LeadingDigits(d) == d
  {
    if |d| > 0 {
      LeadingDigitsOfNumeral(d[1..]);
      assert d == [d[0]] + d[1..];
    }
  }
}

=== FILE: cli.dfy ===
/**
 * The decisions of the `haas` command line: which commands are registered and
 * how their usage lines read, how `main` dispatches, the argument checks of
 * `serve`, `user_create`, `node_register` and `switch_register`, the URLs the
 * command line builds and when it attaches basic authentication.
 *
 * Printing, the HTTP requests themselves and the configuration and
 * environment lookups are outside the model: lookups enter as `Option`
 * parameters and a command's effect is the request it would send.
 */
module Cli {
  import opened Wrappers
  import opened PyStr
  import UrlQuote
  import Client

  type Name = Client.Name

  // ---------------------------------------------------------------------------
  // Registration: the `cmd` decorator and `get_usage`
  // ---------------------------------------------------------------------------

  /**
   * A function decorated with `@cmd`: its name, its positional parameters,
   * the name of its `*args` parameter if it has one, and the line where it is
   * defined (which tells apart two definitions of the same name).
   */
  datatype Command = Command(name: string, params: seq<string>, varargs: Option<string>, site: nat)

  /** The words of a usage line: the name, `<p>` per parameter, then `<v...>` for `*v`. */
  function UsageWords(f: Command): (r: seq<string>)
    ensures |r| == 1 + |f.params| + (if f.varargs.Some? then 1 else 0)
    ensures r[0] == f.name
    ensures forall i :: 0 <= i < |f.params| ==> r[i + 1] == "<" + f.params[i] + ">"
    ensures f.varargs.Some? ==> r[|r| - 1] == "<" + f.varargs.value + "...>"
  {
    [f.name]
    + seq(|f.params|, i requires 0 <= i < |f.params| => "<" + f.params[i] + ">")
    + (if f.varargs.Some? then ["<" + f.varargs.value + "...>"] else [])
  }

  /** `get_usage(f)`: the usage words joined by single spaces. */
  function Usage(f: Command): string
  {
    Join(UsageWords(f), ' ')
  }

  /** A Python identifier never holds a space. */
  predicate Identifier(s: string) { ' ' !in s }

  predicate Identifiers(f: Command)
  {
    Identifier(f.name) && (forall i :: 0 <= i < |f.params| ==> Identifier(f.params[i]))
    && (f.varargs.Some? ==> Identifier(f.varargs.value))
  }

  /** A usage line splits back at its spaces into exactly the name and the bracketed parameters. */
  lemma UsageSplits(f: Command)
    requires Identifiers(f)
    ensures Split(Usage(f), ' ') == UsageWords(f)
  {
    var w := UsageWords(f);
    forall i | 0 <= i < |w|
      ensures ' ' !in w[i]
    {
      if 0 < i <= |f.params| {
        assert w[i] == "<" + f.params[i - 1] + ">";
      }
    }
    SplitJoin(w, ' ');
  }

  /** The module dictionaries `command_dict` and `usage_dict` after the definitions `defs`, in order. */
  function Registered(defs: seq<Command>): map<string, Command>
  {
    if defs == [] then map[] else Registered(defs[..|defs| - 1])[defs[|defs| - 1].name := defs[|defs| - 1]]
  }

  /** Registration keeps, for every name defined, the last definition of that name and nothing else. */
  lemma {:induction false} LaterDefinitionWins(defs: seq<Command>, i: nat)
    requires i < |defs|
    requires forall j :: i < j < |defs| ==> defs[j].name != defs[i].name
    ensures defs[i].name in Registered(defs) && Registered(defs)[defs[i].name] == defs[i]
  {
    var last := |defs| - 1;
    if i < last {
      LaterDefinitionWins(defs[..last], i);
    }
  }

  /** The registered names are exactly the names defined. */
  lemma {:induction false} RegisteredNames(defs: seq<Command>)
    ensures Registered(defs).Keys == set j | 0 <= j < |defs| :: defs[j].name
    ensures forall n :: n in Registered(defs) ==> Registered(defs)[n].name == n
  {
    if defs != [] {
      var prior := defs[..|defs| - 1];
      RegisteredNames(prior);
      assert forall j :: 0 <= j < |prior| ==> prior[j] == defs[j];
      var s := set j | 0 <= j < |defs| :: defs[j].name;
      assert s == (set j | 0 <= j < |prior| :: prior[j].name) + {defs[|defs| - 1].name};
    }
  }

  /** The two `switch_register` definitions: the second, at the later line, is the one registered. */
  lemma SecondSwitchRegisterWins(before: seq<Command>, first: Command, second: Command)
    requires first.name == "switch_register" && second.name == "switch_register"
    ensures Registered(before + [first, second])["switch_register"] == second
  {
    var defs := before + [first, second];
    LaterDefinitionWins(defs, |defs| - 1);
  }

  /** The dictionaries that `@cmd` fills as the module is imported. */
  class CommandTable {
    var commands: map<string, Command>
    var usage: map<string, string>

    /** Every registered command is filed under its own name, next to its usage line. */
    predicate Valid()
      reads this
    {
      commands.Keys == usage.Keys
      && forall n :: n in commands ==> commands[n].name == n && usage[n] == Usage(commands[n])
    }

    /** `command_dict = {}` and `usage_dict = {}` */
    constructor()
      ensures commands == map[] && usage == map[] && Valid()
    {
      commands := map[];
      usage := map[];
    }

    /** `@cmd` applied to `f`: a later definition of the same name replaces the earlier one. */
    method Cmd(f: Command)
      requires Valid()
      modifies this
      ensures commands == old(commands)[f.name := f]
      ensures usage == old(usage)[f.name := Usage(f)]
      ensures Valid()
    {
      commands := commands[f.name := f];
      usage := usage[f.name := Usage(f)];
    }

    /** `main()` for the arguments `argv`: the action taken given the registered commands. */
    method Route(argv: seq<string>) returns (a: Action)
      ensures a == Dispatch(commands, argv)
    {
      if |argv| < 2 || argv[1] !in commands {
        a := ShowHelp(commands.Keys);
      } else if Accepts(commands[argv[1]], |argv| - 2) {
        a := Invoke(commands[argv[1]], argv[2..]);
      } else {
        a := ShowUsage(commands[argv[1]]);
      }
    }
  }

  // ---------------------------------------------------------------------------
  // Dispatch in `main`
  // ---------------------------------------------------------------------------

  /**
   * What `main` does: print the help of every registered command, call one
   * command with the remaining arguments, or, when the call does not fit the
   * command's parameters and so raises `TypeError`, print that command's usage.
   */
  datatype Action = ShowHelp(names: set<string>) | Invoke(f: Command, args: seq<string>) | ShowUsage(f: Command)

  /** Python's call rule for positional arguments. */
  predicate Accepts(f: Command, n: nat)
  {
    if f.varargs.Some? then n >= |f.params| else n == |f.params|
  }

  function Dispatch(commands: map<string, Command>, argv: seq<string>): Action
  {
    if |argv| < 2 || argv[1] !in commands then ShowHelp(commands.Keys)
    else if Accepts(commands[argv[1]], |argv| - 2) then Invoke(commands[argv[1]], argv[2..])
    else ShowUsage(commands[argv[1]])
  }

  /**
   * After the definitions `defs`, `main` runs the last definition named
   * `argv[1]` with the other arguments when they fit, prints its usage when
   * they do not, and prints all help when no definition has that name.
   */
  lemma DispatchRegistered(defs: seq<Command>, argv: seq<string>, i: nat)
    requires |argv| >= 2 && i < |defs| && defs[i].name == argv[1]
    requires forall j :: i < j < |defs| ==> defs[j].name != argv[1]
    ensures Accepts(defs[i], |argv| - 2) ==> Dispatch(Registered(defs), argv) == Invoke(defs[i], argv[2..])
    ensures !Accepts(defs[i], |argv| - 2) ==> Dispatch(Registered(defs), argv) == ShowUsage(defs[i])
  {
    LaterDefinitionWins(defs, i);
  }

  /** An unknown command name, or none at all, shows the help of every defined command. */
  lemma DispatchUnknown(defs: seq<Command>, argv: seq<string>)
    requires |argv| < 2 || forall j :: 0 <= j < |defs| ==> defs[j].name != argv[1]
    ensures Dispatch(Registered(defs), argv) == ShowHelp(set j | 0 <= j < |defs| :: defs[j].name)
  {
    RegisteredNames(defs);
  }

  // ---------------------------------------------------------------------------
  // Argument checks of individual commands
  // ---------------------------------------------------------------------------

  const MinPortNumber := 1
  const MaxPortNumber := 65535
  const InvalidPort := "Error: Invaid port. Must be in the range 1-65535."

  /** `serve(port)`: the port number to serve on, or the message the process exits with. */
  function ServePort(port: string): (r: Result<int, string>)
    ensures r.Ok? <==> PyInt(port).Some? && MinPortNumber <= PyInt(port).value <= MaxPortNumber
    ensures r.Ok? ==> r.value == PyInt(port).value
    ensures r.Err? ==> r.error == InvalidPort
  {
    match PyInt(port)
    case Some(n) => if MinPortNumber <= n <= MaxPortNumber then Ok(n) else Err(InvalidPort)
    case None => Err(InvalidPort)
  }

  /** Every port number from 1 to 65535, written in decimal, is accepted as itself; no larger one is. */
  lemma ServeAcceptsExactlyPortRange(n: nat)
    ensures ServePort(NatToString(n)) == if 1 <= n <= 65535 then Ok(n) else Err(InvalidPort)
  {
    PyIntNatToString(n);
  }

  /** The JSON values the command line sends. */
  datatype Json = Str(s: string) | Bool(b: bool) | Obj(fields: map<string, Json>)

  /** A request the command line sends: verb, the arguments of `object_url`, body. */
  datatype Request = Request(verb: Client.Verb, segments: seq<Name>, body: Json)

  /** The first argument `user_create` passes to `object_url`. */
  const AuthUserPath: Name := "/auth/basic/user"
  const IsAdminError := "is_admin must be either 'admin' or 'regular'"

  /**
   * `user_create(username, password, is_admin)`: the request, or the
   * `TypeError` message, which the `cmd` wrapper turns into a usage message.
   */
  function UserCreate(username: Name, password: string, isAdmin: string): (r: Result<Request, string>)
    ensures r.Ok? <==> isAdmin == "admin" || isAdmin == "regular"
    ensures r.Err? ==> r.error == IsAdminError
    ensures r.Ok? ==> r.value.verb == Client.Put && r.value.segments == [AuthUserPath, username]
    ensures r.Ok? ==> r.value.body.Obj? && r.value.body.fields.Keys == {"password", "is_admin"}
    ensures r.Ok? ==> r.value.body.fields["password"] == Str(password)
    ensures r.Ok? ==> r.value.body.fields["is_admin"] == Bool(isAdmin == "admin")
  {
    if isAdmin != "admin" && isAdmin != "regular" then Err(IsAdminError)
    else Ok(Request(Client.Put, [AuthUserPath, username],
                    Obj(map["password" := Str(password), "is_admin" := Bool(isAdmin == "admin")])))
  }

  /**
   * `quote(arg, '')` escapes every `/`, so the first argument of
   * `user_create`'s `object_url` call, written with slashes, becomes a single
   * path segment: the URL's path has two segments, not the four of
   * `/auth/basic/user/<name>`.
   */
  lemma UserUrlOneSegment(endpoint: string, username: Name)
    ensures Client.ArgsOfUrl(endpoint, Client.Url(endpoint, [AuthUserPath, username])) == Some([AuthUserPath, username])
    ensures |Split(Client.Suffix([AuthUserPath, username]), '/')| == 3
  {
    Client.UrlRoundTrip(endpoint, [AuthUserPath, username]);
    Client.SplitSuffix([AuthUserPath, username]);
  }

  /** The path `user_create` evidently means: three fixed segments, then the user name. */
  const AuthUserSegments: seq<Name> := ["auth", "basic", "user"]

  /** `user_create` with the path given as its separate segments. */
  function UserCreateFixed(username: Name, password: string, isAdmin: string): (r: Result<Request, string>)
    ensures r.Ok? <==> UserCreate(username, password, isAdmin).Ok?
    ensures r.Err? ==> r == UserCreate(username, password, isAdmin)
    ensures r.Ok? ==> r.value == UserCreate(username, password, isAdmin).value.(segments := AuthUserSegments + [username])
  {
    match UserCreate(username, password, isAdmin)
    case Ok(q) => Ok(q.(segments := AuthUserSegments + [username]))
    case Err(e) => Err(e)
  }

  /** With separate segments the URL's path is `auth`, `basic`, `user`, then the name: four segments. */
  lemma UserUrlFixed(endpoint: string, username: Name, password: string, isAdmin: string)
    requires UserCreateFixed(username, password, isAdmin).Ok?
    ensures Client.ArgsOfUrl(endpoint, Client.Url(endpoint, UserCreateFixed(username, password, isAdmin).value.segments))
      == Some(["auth", "basic", "user", username])
    ensures |Split(Client.Suffix(UserCreateFixed(username, password, isAdmin).value.segments), '/')| == 5
  {
    var segs := AuthUserSegments + [username];
    assert segs == ["auth", "basic", "user", username];
    Client.UrlRoundTrip(endpoint, segs);
    Client.SplitSuffix(segs);
  }

  const ObmApi := "http://schema.massopencloud.org/haas/v0/obm/"

  /** The OBM subtypes `node_register` knows, in the order it lists them. */
  const ObmTypes: seq<string> := ["ipmi", "mock"]

  /**
   * `node_register(node, subtype, *args)`: a PUT of the OBM description, or
   * the lines written to standard error when the subtype is unknown or the
   * number of arguments is not three (no request is sent then).
   */
  function NodeRegister(node: Name, subtype: string, args: seq<string>): (r: Result<Request, seq<string>>)
    ensures r.Ok? <==> subtype in ObmTypes && |args| == 3
    ensures subtype !in ObmTypes ==>
      r == Err(["ERROR: Wrong OBM subtype supplied\n", "Supported OBM sub-types: ipmi, mock\n"])
    ensures subtype in ObmTypes && |args| != 3 ==>
      r == Err(["ERROR: subtype " + subtype + " requires exactly 3 arguments\n",
                "<hostname> <ipmi-username> <ipmi-password>\n"])
    ensures r.Ok? ==> r.value.verb == Client.Put && r.value.segments == [Client.NodeSegment, node]
  {
    if subtype in ObmTypes then
      if |args| == 3 then
        var obm := map["type" := Str(ObmApi + subtype), "host" := Str(args[0]),
                       "user" := Str(args[1]), "password" := Str(args[2])];
        Ok(Request(Client.Put, [Client.NodeSegment, node], Obj(map["obm" := Obj(obm)])))
      else
        Err(["ERROR: subtype " + subtype + " requires exactly 3 arguments\n",
             "<hostname> <ipmi-username> <ipmi-password>\n"])
    else
      Err(["ERROR: Wrong OBM subtype supplied\n", "Supported OBM sub-types: ipmi, mock\n"])
  }

  /** The value of field `k` of a JSON object when it is a string. */
  function StrField(fields: map<string, Json>, k: string): Option<string>
  {
    if k in fields && fields[k].Str? then Some(fields[k].s) else None
  }

  /** What a server reads from a node registration body: the OBM subtype and host, user, password. */
  function ObmOf(body: Json): Option<(string, seq<string>)>
  {
    if body.Obj? && "obm" in body.fields && body.fields["obm"].Obj? then
      var o := body.fields["obm"].fields;
      var t, h, u, p := StrField(o, "type"), StrField(o, "host"), StrField(o, "user"), StrField(o, "password");
      if t.Some? && h.Some? && u.Some? && p.Some? && ObmApi <= t.value then
        Some((t.value[|ObmApi|..], [h.value, u.value, p.value]))
      else None
    else None
  }

  /** A node registration carries its subtype and its three arguments, in order, recoverably. */
  lemma NodeRegisterCarriesArgs(node: Name, subtype: string, args: seq<string>)
    requires NodeRegister(node, subtype, args).Ok?
    ensures ObmOf(NodeRegister(node, subtype, args).value.body) == Some((subtype, args))
  {
    assert (ObmApi + subtype)[|ObmApi|..] == subtype;
    assert [args[0], args[1], args[2]] == args;
  }

  const SwitchApi := "http://schema.massopencloud.org/haas/v0/switches/"
  const SwitchSegment: Name := "switch"

  /** How many arguments after the subtype `switch_register` wants, if it knows the subtype. */
  function SwitchArity(subtype: string): Option<nat>
  {
    if subtype == "nexus" then Some(4)
    else if subtype == "mock" || subtype == "powerconnect55xx" then Some(3)
    else None
  }

  /**
   * The second `switch_register(switch, subtype, *args)`: a PUT of the switch
   * description, or the lines written to standard error when the subtype is
   * unknown or the argument count is wrong (no request is sent then).
   */
  function SwitchRegister(switch: Name, subtype: string, args: seq<string>): (r: Result<Request, seq<string>>)
    ensures r.Ok? <==> SwitchArity(subtype) == Some(|args|)
    ensures SwitchArity(subtype).None? ==> r == Err(["ERROR: Invalid subtype supplied\n"])
    ensures r.Ok? ==> r.value.verb == Client.Put && r.value.segments == [SwitchSegment, switch]
  {
    if subtype == "nexus" then
      if |args| == 4 then
        Ok(Request(Client.Put, [SwitchSegment, switch],
                   Obj(map["type" := Str(SwitchApi + subtype), "hostname" := Str(args[0]),
                           "username" := Str(args[1]), "password" := Str(args[2]),
                           "dummy_vlan" := Str(args[3])])))
      else
        Err(["ERROR: subtype " + subtype + " requires exactly 4 arguments\n",
             "<hostname> <username> <password> <dummy_vlan_no>\n"])
    else if subtype == "mock" || subtype == "powerconnect55xx" then
      if |args| == 3 then
        Ok(Request(Client.Put, [SwitchSegment, switch],
                   Obj(map["type" := Str(SwitchApi + subtype), "hostname" := Str(args[0]),
                           "username" := Str(args[1]), "password" := Str(args[2])])))
      else
        Err(["ERROR: subtype " + subtype + " requires exactly 3 arguments\n",
             "<hostname> <username> <password>\n"])
    else
      Err(["ERROR: Invalid subtype supplied\n"])
  }

  /** What a server reads from a switch registration body: the subtype and the arguments in order. */
  function SwitchOf(body: Json): Option<(string, seq<string>)>
  {
    if body.Obj? then
      var f := body.fields;
      var t, h, u, p := StrField(f, "type"), StrField(f, "hostname"), StrField(f, "username"), StrField(f, "password");
      if t.Some? && h.Some? && u.Some? && p.Some? && SwitchApi <= t.value then
        var base := [h.value, u.value, p.value];
        var d := StrField(f, "dummy_vlan");
        Some((t.value[|SwitchApi|..], if d.Some? then base + [d.value] else base))
      else None
    else None
  }

  /** A switch registration carries its subtype and all its arguments, the dummy VLAN last for nexus. */
  lemma SwitchRegisterCarriesArgs(switch: Name, subtype: string, args: seq<string>)
    requires SwitchRegister(switch, subtype, args).Ok?
    ensures SwitchOf(SwitchRegister(switch, subtype, args).value.body) == Some((subtype, args))
  {
    assert (SwitchApi + subtype)[|SwitchApi|..] == subtype;
    if subtype == "nexus" {
      assert [args[0], args[1], args[2]] + [args[3]] == args;
    } else {
      assert [args[0], args[1], args[2]] == args;
    }
  }

  // ---------------------------------------------------------------------------
  // URLs and authentication of requests
  // ---------------------------------------------------------------------------

  /**
   * The command line's `object_url(*args)`: the endpoint is `HAAS_ENDPOINT`
   * (`env`) if set, else `[client] endpoint` (`configured`); `None` when
   * neither is present (the configuration lookup then raises).
   */
  method ObjectUrl(env: Option<string>, configured: Option<string>, args: seq<Name>) returns (url: Option<string>)
    ensures env.Some? ==> url == Some(Client.Url(env.value, args))
    ensures env.None? && configured.Some? ==> url == Some(Client.Url(configured.value, args))
    ensures env.None? && configured.None? ==> url.None?
  {
    var base := env;
    if base.None? {
      base := configured;
    }
    if base.None? {
      return None;
    }
    var u := Client.AppendQuoted(base.value, args);
    url := Some(u);
  }

  /** `do_request`: HTTP basic authentication only when both `HAAS_USERNAME` and `HAAS_PASSWORD` are set. */
  function BasicAuth(username: Option<string>, password: Option<string>): (r: Option<(string, string)>)
    ensures r.Some? <==> username.Some? && password.Some?
    ensures r.Some? ==> r.value.0 == username.value && r.value.1 == password.value
  {
    if username.Some? && password.Some? then Some((username.value, password.value)) else None
  }
}

=== FILE: client.dfy ===
/**
 * The HaaS client library: how a `Haas` object finds its endpoint, how it
 * builds the URL of an API call, and how each call turns the HTTP status code
 * of the response into success or one of the client-side exceptions.
 *
 * The HTTP exchange itself is left to the caller of the model: a call is
 * described by the request it sends, and the server's answer enters as a
 * status code.
 */
module Client {
  import opened Wrappers
  import opened PyStr
  import UrlQuote

  /** A path segment or a payload value: a Python 2 byte string. */
  type Name = UrlQuote.ByteString

  /** The exceptions of `haas/error_clientlib.py`, each with the message the client gives it. */
  datatype ClientError =
    | DuplicateName(message: string)
    | IncompleteDependency(message: string)
    | ServersideError(message: string)
    | UnknownError(message: string)

  const NameExists := "FAILURE: Name already exists"
  const DependencyMissing := "FAILURE: does not meet dependency "
  const EntityMissing := "FAILURE: Entity does not exist "
  const ServerFailed := "FAILURE: Server failed to process the request "
  const Unknown := "FAILURE: Contact the HaaS Admin. Unknown error occured !!! "

  /**
   * The branches one method tests after its 2xx test, always in the order
   * 409, 404, >= 500: whether it has a 409 branch, the message of its 404
   * branch if it has one, and whether it has a server-side branch.
   */
  datatype Ladder = Ladder(duplicate: bool, notFound: Option<string>, serverSide: bool)

  /** 409, 404 and 5xx all distinguished: most calls. */
  const Full := Ladder(true, Some(DependencyMissing), true)
  /** `user_create`, `project_create`: no 404 branch. */
  const NoNotFound := Ladder(true, None, true)
  /** `network_create_simple`, `project_add_user`: no 5xx branch. */
  const NoServerSide := Ladder(true, Some(DependencyMissing), false)
  /** `network_delete`, `user_delete`, `project_delete`: 404 only. */
  const DeleteOnly := Ladder(false, Some(EntityMissing), false)
  /** `project_remove_user`: 404 only, with the dependency message. */
  const RemoveUserOnly := Ladder(false, Some(DependencyMissing), false)
  /** `list_projects`: anything but 2xx is unknown. */
  const SuccessOnly := Ladder(false, None, false)

  predicate IsSuccess(status: int) { 200 <= status < 300 }

  /**
   * The `if`/`elif` chain after a request: `None` when the call returns
   * normally, otherwise the exception it raises. Each outcome is described
   * on its own, independently of the order of the tests.
   */
  function Classify(l: Ladder, status: int): (r: Option<ClientError>)
    ensures r.None? <==> IsSuccess(status)
    ensures r == Some(DuplicateName(NameExists)) <==> l.duplicate && status == 409
    ensures (r.Some? && r.value.IncompleteDependency?) <==> l.notFound.Some? && status == 404
    ensures r.Some? && r.value.IncompleteDependency? ==> r.value.message == l.notFound.value
    ensures r == Some(ServersideError(ServerFailed)) <==> l.serverSide && 500 <= status
    ensures r == Some(UnknownError(Unknown)) <==>
      !IsSuccess(status) && !(l.duplicate && status == 409) && !(l.notFound.Some? && status == 404)
      && !(l.serverSide && 500 <= status)
  {
    if IsSuccess(status) then None
    else if l.duplicate && status == 409 then Some(DuplicateName(NameExists))
    else if l.notFound.Some? && status == 404 then Some(IncompleteDependency(l.notFound.value))
    else if l.serverSide && 500 <= status then Some(ServersideError(ServerFailed))
    else Some(UnknownError(Unknown))
  }

  datatype Verb = Put | Post | Delete | Get

  /** One method of the `Haas` class, with its arguments. */
  datatype Call =
    | UserCreate(username: Name, password: Name)
    | NetworkCreate(network: Name, creator: Name, access: Name, netId: Name)
    | NetworkCreateSimple(network: Name, project: Name)
    | NetworkDelete(network: Name)
    | UserDelete(user: Name)
    | ListProjects
    | ProjectAddUser(project: Name, username: Name)
    | ProjectRemoveUser(project: Name, username: Name)
    | ProjectCreate(project: Name)
    | ProjectDelete(project: Name)
    | HeadnodeCreate(headnode: Name, project: Name, baseImg: Name)
    | HeadnodeDelete(headnode: Name)
    | ProjectConnectNode(project: Name, node: Name)
    | ProjectDetachNode(project: Name, node: Name)
    | HeadnodeStart(headnode: Name)
    | HeadnodeStop(headnode: Name)
    | NodeRegister(node: Name, ipmiHost: Name, ipmiUser: Name, ipmiPass: Name)
    | NodeDelete(node: Name)
    | NodePowerCycle(node: Name)
    | NodeRegisterNic(node: Name, nic: Name, macaddr: Name)
    | NodeDeleteNic(node: Name, nic: Name)
    | HeadnodeCreateHnic(headnode: Name, nic: Name)
    | HeadnodeDeleteHnic(headnode: Name, nic: Name)
    | NodeDetachNetwork(node: Name, nic: Name, network: Name)
    | HeadnodeConnectNetwork(headnode: Name, nic: Name, network: Name)
    | HeadnodeDetachNetwork(headnode: Name, hnic: Name)
    | PortRegister(port: Name)
    | PortDelete(port: Name)
    | PortConnectNic(port: Name, node: Name, nic: Name)
    | PortDetachNic(port: Name)
    | ListFreeNodes
    | ListProjectNodes(project: Name)
    | ListProjectNetworks(project: Name)
    | ShowNetwork(network: Name)
    | ShowNode(node: Name)
    | ListProjectHeadnodes(project: Name)
    | ShowHeadnode(headnode: Name)
    | ListHeadnodeImages
    | ShowConsole(node: Name)
    | StartConsole(node: Name)
    | StopConsole(node: Name)

  /** The arguments each method passes to `object_url`. */
  /** The fixed path segments of the API. */
  const AddUserSegment: Name := "add_user"
  const ConnectNetworkSegment: Name := "connect_network"
  const ConnectNicSegment: Name := "connect_nic"
  const ConnectNodeSegment: Name := "connect_node"
  const ConsoleSegment: Name := "console"
  const DetachNetworkSegment: Name := "detach_network"
  const DetachNicSegment: Name := "detach_nic"
  const DetachNodeSegment: Name := "detach_node"
  const FreeNodesSegment: Name := "free_nodes"
  const HeadnodeSegment: Name := "headnode"
  const HeadnodeImagesSegment: Name := "headnode_images"
  const HeadnodesSegment: Name := "headnodes"
  const HnicSegment: Name := "hnic"
  const NetworkSegment: Name := "network"
  const NetworksSegment: Name := "networks"
  const NicSegment: Name := "nic"
  const NodeSegment: Name := "node"
  const NodesSegment: Name := "nodes"
  const PortSegment: Name := "port"
  const PowerCycleSegment: Name := "power_cycle"
  const ProjectSegment: Name := "project"
  const ProjectsSegment: Name := "projects"
  const RemoveUserSegment: Name := "remove_user"
  const StartSegment: Name := "start"
  const StopSegment: Name := "stop"
  const UserSegment: Name := "user"

  function Segments(c: Call): seq<Name>
  {
    match c
    case UserCreate(u, _) => [UserSegment, u]
    case NetworkCreate(n, _, _, _) => [NetworkSegment, n]
    case NetworkCreateSimple(n, _) => [NetworkSegment, n]
    case NetworkDelete(n) => [NetworkSegment, n]
    case UserDelete(u) => [UserSegment, u]
    case ListProjects => [ProjectsSegment]
    case ProjectAddUser(p, _) => [ProjectSegment, p, AddUserSegment]
    case ProjectRemoveUser(p, _) => [ProjectSegment, p, RemoveUserSegment]
    case ProjectCreate(p) => [ProjectSegment, p]
    case ProjectDelete(p) => [ProjectSegment, p]
    case HeadnodeCreate(h, _, _) => [HeadnodeSegment, h]
    case HeadnodeDelete(h) => [HeadnodeSegment, h]
    case ProjectConnectNode(p, _) => [ProjectSegment, p, ConnectNodeSegment]
    case ProjectDetachNode(p, _) => [ProjectSegment, p, DetachNodeSegment]
    case HeadnodeStart(h) => [HeadnodeSegment, h, StartSegment]
    case HeadnodeStop(h) => [HeadnodeSegment, h, StopSegment]
    case NodeRegister(n, _, _, _) => [NodeSegment, n]
    case NodeDelete(n) => [NodeSegment, n]
    case NodePowerCycle(n) => [NodeSegment, n, PowerCycleSegment]
    case NodeRegisterNic(n, nic, _) => [NodeSegment, n, NicSegment, nic]
    case NodeDeleteNic(n, nic) => [NodeSegment, n, NicSegment, nic]
    case HeadnodeCreateHnic(h, nic) => [HeadnodeSegment, h, HnicSegment, nic]
    case HeadnodeDeleteHnic(h, nic) => [HeadnodeSegment, h, HnicSegment, nic]
    case NodeDetachNetwork(n, nic, _) => [NodeSegment, n, NicSegment, nic, DetachNetworkSegment]
    case HeadnodeConnectNetwork(h, nic, _) => [HeadnodeSegment, h, HnicSegment, nic, ConnectNetworkSegment]
    case HeadnodeDetachNetwork(h, hnic) => [HeadnodeSegment, h, HnicSegment, hnic, DetachNetworkSegment]
    case PortRegister(p) => [PortSegment, p]
    case PortDelete(p) => [PortSegment, p]
    case PortConnectNic(p, _, _) => [PortSegment, p, ConnectNicSegment]
    case PortDetachNic(p) => [PortSegment, p, DetachNicSegment]
    case ListFreeNodes => [FreeNodesSegment]
    case ListProjectNodes(p) => [ProjectSegment, p, NodesSegment]
    case ListProjectNetworks(p) => [ProjectSegment, p, NetworksSegment]
    case ShowNetwork(n) => [NetworkSegment, n]
    case ShowNode(n) => [NodeSegment, n]
    case ListProjectHeadnodes(p) => [ProjectSegment, p, HeadnodesSegment]
    case ShowHeadnode(h) => [HeadnodeSegment, h]
    case ListHeadnodeImages => [HeadnodeImagesSegment]
    case ShowConsole(n) => [NodeSegment, n, ConsoleSegment]
    case StartConsole(n) => [NodeSegment, n, ConsoleSegment]
    case StopConsole(n) => [NodeSegment, n, ConsoleSegment]
  }

  function VerbOf(c: Call): Verb
  {
    match c
    case UserCreate(_, _) => Put
    case NetworkCreate(_, _, _, _) => Put
    case NetworkCreateSimple(_, _) => Put
    case NetworkDelete(_) => Delete
    case UserDelete(_) => Delete
    case ListProjects => Get
    case ProjectAddUser(_, _) => Post
    case ProjectRemoveUser(_, _) => Post
    case ProjectCreate(_) => Put
    case ProjectDelete(_) => Delete
    case HeadnodeCreate(_, _, _) => Put
    case HeadnodeDelete(_) => Delete
    case ProjectConnectNode(_, _) => Post
    case ProjectDetachNode(_, _) => Post
    case HeadnodeStart(_) => Post
    case HeadnodeStop(_) => Post
    case NodeRegister(_, _, _, _) => Put
    case NodeDelete(_) => Delete
    case NodePowerCycle(_) => Post
    case NodeRegisterNic(_, _, _) => Put
    case NodeDeleteNic(_, _) => Delete
    case HeadnodeCreateHnic(_, _) => Put
    case HeadnodeDeleteHnic(_, _) => Delete
    case NodeDetachNetwork(_, _, _) => Post
    case HeadnodeConnectNetwork(_, _, _) => Post
    case HeadnodeDetachNetwork(_, _) => Post
    case PortRegister(_) => Put
    case PortDelete(_) => Delete
    case PortConnectNic(_, _, _) => Post
    case PortDetachNic(_) => Post
    case ListFreeNodes => Get
    case ListProjectNodes(_) => Get
    case ListProjectNetworks(_) => Get
    case ShowNetwork(_) => Get
    case ShowNode(_) => Get
    case ListProjectHeadnodes(_) => Get
    case ShowHeadnode(_) => Get
    case ListHeadnodeImages => Get
    case ShowConsole(_) => Get
    case StartConsole(_) => Put
    case StopConsole(_) => Delete
  }

  /** The JSON object a method sends as its body, or `None` when it sends no body. */
  function Payload(c: Call): Option<map<string, string>>
  {
    match c
    case UserCreate(_, pw) => Some(map["password" := pw])
    case NetworkCreate(_, cr, ac, id) => Some(map["creator" := cr, "access" := ac, "net_id" := id])
    case NetworkCreateSimple(_, p) => Some(map["creator" := p, "access" := p, "net_id" := ""])
    case ProjectAddUser(_, u) => Some(map["user" := u])
    case ProjectRemoveUser(_, u) => Some(map["user" := u])
    case HeadnodeCreate(_, p, img) => Some(map["project" := p, "base_img" := img])
    case ProjectConnectNode(_, n) => Some(map["node" := n])
    case ProjectDetachNode(_, n) => Some(map["node" := n])
    case NodeRegister(_, h, u, pw) => Some(map["ipmi_host" := h, "ipmi_user" := u, "ipmi_pass" := pw])
    case NodeRegisterNic(_, _, mac) => Some(map["macaddr" := mac])
    case NodeDetachNetwork(_, _, net) => Some(map["network" := net])
    case HeadnodeConnectNetwork(_, _, net) => Some(map["network" := net])
    case PortConnectNic(_, n, nic) => Some(map["node" := n, "nic" := nic])
    case _ => None
  }

  function LadderOf(c: Call): Ladder
  {
    match c
    case UserCreate(_, _) => NoNotFound
    case ProjectCreate(_) => NoNotFound
    case NetworkCreateSimple(_, _) => NoServerSide
    case ProjectAddUser(_, _) => NoServerSide
    case NetworkDelete(_) => DeleteOnly
    case UserDelete(_) => DeleteOnly
    case ProjectDelete(_) => DeleteOnly
    case ProjectRemoveUser(_, _) => RemoveUserOnly
    case ListProjects => SuccessOnly
    case _ => Full
  }

  /** No method of the client raises on a status code in [200, 300): the 2xx test always comes first. */
  lemma SuccessNeverRaises(c: Call, status: int)
    requires IsSuccess(status)
    ensures Classify(LadderOf(c), status) == None
  {
  }

  /** The full ladder, as `headnode_create` and most other methods have it. */
  lemma FullLadder(c: Call, status: int)
    requires LadderOf(c) == Full && !IsSuccess(status)
    ensures status == 409 ==> Classify(LadderOf(c), status) == Some(DuplicateName(NameExists))
    ensures status == 404 ==> Classify(LadderOf(c), status) == Some(IncompleteDependency(DependencyMissing))
    ensures 500 <= status ==> Classify(LadderOf(c), status) == Some(ServersideError(ServerFailed))
    ensures status != 409 && status != 404 && status < 500 ==>
      Classify(LadderOf(c), status) == Some(UnknownError(Unknown))
  {
  }

  /** `user_create` and `project_create` have no 404 branch: a 404 is an unknown error. */
  lemma CreateNotFoundIsUnknown(c: Call)
    requires c.UserCreate? || c.ProjectCreate?
    ensures Classify(LadderOf(c), 404) == Some(UnknownError(Unknown))
  {
  }

  /** `network_create_simple` has no server-side branch: every status from 500 up is an unknown error. */
  lemma SimpleCreateServerErrorIsUnknown(network: Name, project: Name, status: int)
    requires 500 <= status
    ensures Classify(LadderOf(NetworkCreateSimple(network, project)), status) == Some(UnknownError(Unknown))
  {
  }

  /** The deletes of networks, users and projects tell apart only success and 404. */
  lemma DeletesKnowOnlyNotFound(c: Call, status: int)
    requires c.NetworkDelete? || c.UserDelete? || c.ProjectDelete?
    ensures Classify(LadderOf(c), status) ==
      if IsSuccess(status) then None
      else if status == 404 then Some(IncompleteDependency(EntityMissing))
      else Some(UnknownError(Unknown))
  {
  }

  /** `list_projects` raises an unknown error on every status outside [200, 300). */
  lemma ListProjectsKnowsOnlySuccess(status: int)
    requires !IsSuccess(status)
    ensures Classify(LadderOf(ListProjects), status) == Some(UnknownError(Unknown))
  {
  }

  /**
   * The endpoint chosen by `Haas.__init__`: the explicit argument, then the
   * `HAAS_ENDPOINT` environment variable, then `[client] endpoint` of the
   * configuration; `None` when none of them is present.
   */
  function ChooseEndpoint(explicit: Option<string>, env: Option<string>, configured: Option<string>): Option<string>
  {
    if explicit.Some? then explicit else if env.Some? then env else configured
  }

  /** The chosen endpoint is one of the sources, the first present one, and absent only when all are. */
  lemma EndpointPrecedence(explicit: Option<string>, env: Option<string>, configured: Option<string>)
    ensures ChooseEndpoint(explicit, env, configured).None? <==> explicit.None? && env.None? && configured.None?
    ensures explicit.Some? ==> ChooseEndpoint(explicit, env, configured) == explicit
    ensures explicit.None? && env.Some? ==> ChooseEndpoint(explicit, env, configured) == env
    ensures explicit.None? && env.None? ==> ChooseEndpoint(explicit, env, configured) == configured
  {
  }

  /** What `object_url` appends to the endpoint: `'/' + quote(arg, '')` for each argument, in order. */
  function Suffix(args: seq<Name>): string
  {
    if args == [] then "" else "/" + UrlQuote.Quote(args[0]) + Suffix(args[1..])
  }

  /** The URL `object_url(*args)` builds on `endpoint`. */
  function Url(endpoint: string, args: seq<Name>): string
  {
    endpoint + Suffix(args)
  }

  /** Appending one more argument appends one more quoted segment. */
  lemma {:induction false} SuffixSnoc(args: seq<Name>, a: Name)
    ensures Suffix(args + [a]) == Suffix(args) + "/" + UrlQuote.Quote(a)
  {
    if args != [] {
      assert (args + [a])[1..] == args[1..] + [a];
      SuffixSnoc(args[1..], a);
    } else {
      assert [a][1..] == [];
    }
  }

  function Quoted(args: seq<Name>): seq<string>
  {
    seq(|args|, i requires 0 <= i < |args| => UrlQuote.Quote(args[i]))
  }

  /** Text that starts with the separator splits into an empty piece, then the pieces of the rest. */
  lemma SplitLeadingSeparator(w: string, sep: char)
    ensures Split([sep] + w, sep) == [""] + Split(w, sep)
  {
    assert ([sep] + w)[1..] == w;
  }

  lemma QuotedCons(args: seq<Name>)
    requires args != []
    ensures Quoted(args) == [UrlQuote.Quote(args[0])] + Quoted(args[1..])
  {
  }

  /** One more separator-free word in front of pieces that start empty. */
  lemma SplitWordStep(q: string, t: string, rest: seq<string>)
    requires '/' !in q
    requires Split(t, '/') == [""] + rest
    ensures Split(['/'] + (q + t), '/') == [""] + ([q] + rest)
  {
    var st := Split(t, '/');
    assert st[0] == "" && st[1..] == rest;
    SplitAfterWord(q, t, '/');
    assert q + st[0] == q;
    SplitLeadingSeparator(q + t, '/');
  }

  /** Splitting the appended text at `/` gives an empty piece, then the quoted arguments. */
  lemma {:induction false} SplitSuffix(args: seq<Name>)
    ensures Split(Suffix(args), '/') == [""] + Quoted(args)
  {
    if args != [] {
      var q, t := UrlQuote.Quote(args[0]), Suffix(args[1..]);
      SplitSuffix(args[1..]);
      SplitWordStep(q, t, Quoted(args[1..]));
      assert Suffix(args) == ['/'] + (q + t);
      QuotedCons(args);
    }
  }

  /**
   * Reading the arguments back from a URL built on `endpoint`: strip the
   * endpoint, split the rest at `/` and unquote every piece after the first.
   */
  function ArgsOfUrl(endpoint: string, url: string): Option<seq<string>>
  {
    if endpoint <= url then
      var pieces := Split(url[|endpoint|..], '/');
      if pieces[0] == "" then
        Some(seq(|pieces| - 1, i requires 0 <= i < |pieces| - 1 => UrlQuote.Unquote(pieces[i + 1])))
      else None
    else None
  }

  /** `object_url` loses nothing: every argument, even one holding `/`, can be read back from the URL. */
  lemma UrlRoundTrip(endpoint: string, args: seq<Name>)
    ensures ArgsOfUrl(endpoint, Url(endpoint, args)) == Some(args)
  {
    var url := Url(endpoint, args);
    assert endpoint <= url;
    assert url[|endpoint|..] == Suffix(args);
    SplitSuffix(args);
    var pieces := Split(Suffix(args), '/');
    assert pieces[0] == "";
    UnquoteQuoted(args, pieces);
  }

  /** Unquoting every piece after the leading empty one gives back the quoted arguments. */
  lemma UnquoteQuoted(args: seq<Name>, pieces: seq<string>)
    requires pieces == [""] + Quoted(args)
    ensures seq(|pieces| - 1, i requires 0 <= i < |pieces| - 1 => UrlQuote.Unquote(pieces[i + 1])) == args
  {
    var back := seq(|pieces| - 1, i requires 0 <= i < |pieces| - 1 => UrlQuote.Unquote(pieces[i + 1]));
    forall i | 0 <= i < |args|
      ensures back[i] == args[i]
    {
      assert pieces[i + 1] == UrlQuote.Quote(args[i]);
      UrlQuote.UnquoteQuote(args[i]);
    }
  }

  /** The loop of `object_url`: `url += '/' + urllib.quote(arg, '')` for each argument. */
  method AppendQuoted(base: string, args: seq<Name>) returns (url: string)
    ensures url == Url(base, args)
  {
    url := base;
    for i := 0 to |args|
      invariant url == base + Suffix(args[..i])
    {
      AppendStep(base, args, i);
      url := url + "/" + UrlQuote.Quote(args[i]);
    }
    assert args[..|args|] == args;
  }

  lemma AppendStep(base: string, args: seq<Name>, i: nat)
    requires i < |args|
    ensures base + Suffix(args[..i]) + "/" + UrlQuote.Quote(args[i]) == base + Suffix(args[..i + 1])
  {
    assert args[..i + 1] == args[..i] + [args[i]];
    SuffixSnoc(args[..i], args[i]);
  }

  /** A request as the client sends it. */
  datatype Request = Request(verb: Verb, url: string, body: Option<map<string, string>>)

  /**
   * Invoking a method: `NoEndpoint` when the object has no endpoint (adding
   * a string to `None` raises `TypeError` before any request), otherwise the
   * request sent and the exception raised on the server's status code.
   */
  datatype Exchange = NoEndpoint | Sent(request: Request, error: Option<ClientError>)

  /** The client object of `haas/client.py`. */
  class Haas {
    var endpoint: Option<string>

    /**
     * `Haas(endpoint)` with the process's `HAAS_ENDPOINT` as `env` and the
     * configuration's `[client] endpoint` as `configured`.
     */
    constructor(explicit: Option<string>, env: Option<string>, configured: Option<string>)
      ensures endpoint == ChooseEndpoint(explicit, env, configured)
    {
      if explicit.Some? {
        endpoint := explicit;
      } else if env.Some? {
        endpoint := env;
      } else {
        endpoint := configured;
      }
    }

    /**
     * `object_url(*args)`; `None` when there is no endpoint (the source then
     * raises `TypeError` for any argument).
     */
    method ObjectUrl(args: seq<Name>) returns (url: Option<string>)
      ensures endpoint.None? ==> url.None?
      ensures endpoint.Some? ==> url == Some(Url(endpoint.value, args))
    {
      if endpoint.None? {
        return None;
      }
      var u := AppendQuoted(endpoint.value, args);
      url := Some(u);
    }

    /** One method of the class, against a server that answers with `status`. */
    method Invoke(c: Call, status: int) returns (x: Exchange)
      ensures endpoint.None? <==> x.NoEndpoint?
      ensures x.Sent? ==> x.request == Request(VerbOf(c), Url(endpoint.value, Segments(c)), Payload(c))
      ensures x.Sent? ==> x.error == Classify(LadderOf(c), status)
    {
      var url := ObjectUrl(Segments(c));
      if url.None? {
        x := NoEndpoint;
      } else {
        x := Sent(Request(VerbOf(c), url.value, Payload(c)), Classify(LadderOf(c), status));
      }
    }
  }
}

=== FILE: juniper_console.dfy ===
/**
 * The console session of the Juniper driver that talks to the switch over
 * telnet: the lines it types to take a port off its VLANs, the parser of the
 * `show int sw` report, and the report of the VLANs each port carries.
 *
 * What the console prints is an input; what the session types is recorded,
 * command by command, in the session's `sent` log.
 */
module JuniperConsole {
  import opened Wrappers
  import opened PyStr
  import opened Channels

  /** What the session sends to the switch console. */
  datatype ConsoleCommand =
    | TrunkAdd(vlans: string)          // sw trunk allowed vlan add <vlans>
    | TrunkNative(vlan: string)        // sw trunk native vlan <vlan>
    | TrunkRemove(vlans: string)       // sw trunk allowed vlan remove <vlans>
    | DisableVlan(vlan: string)        // the inherited `disable_vlan`
    | ShowInterface(iface: string)     // show int sw <iface>
    | Newline                          // the line sent to get the prompt back

  /** The text typed for a command (the inherited `disable_vlan` types its own lines). */
  function Text(c: ConsoleCommand): string
    requires !c.DisableVlan?
  {
    match c
    case TrunkAdd(v) => "sw trunk allowed vlan add " + v
    case TrunkNative(v) => "sw trunk native vlan " + v
    case TrunkRemove(v) => "sw trunk allowed vlan remove " + v
    case ShowInterface(i) => "show int sw " + i
    case Newline => "\n"
  }

  /** The highest VLAN number `disable_port` clears. */
  const MaxVlan: nat := 4093

  /** `disable_port` */
  function DisablePortCommands(dummy: string): seq<ConsoleCommand> {
    [TrunkAdd(dummy), TrunkNative(dummy), TrunkRemove("1-4093")]
  }

  /** `disable_native(vlan_id)` */
  function DisableNativeCommands(vlanId: string, dummy: string): seq<ConsoleCommand> {
    [DisableVlan(vlanId), TrunkAdd(dummy), TrunkNative(dummy), TrunkRemove(dummy)]
  }

  /*
   * How the switch takes these commands, for one port: the set of VLANs the
   * trunk allows and its native VLAN. The switch refuses a native VLAN that the
   * trunk does not allow.
   */

  datatype Trunk = Trunk(allowed: set<nat>, native: Option<nat>)

  /** A VLAN number as the switch reads it. */
  function VlanNumber(t: string): (r: Option<nat>)
    ensures r.Some? <==> IsNumeral(t)
  {
    if IsNumeral(t) then Some(DigitsValue(t)) else None
  }

  /** Whether a `remove` argument names VLAN `v`: it is one number or a range `low-high`. */
  predicate Removes(arg: string, v: nat) {
    if IsNumeral(arg) then v == DigitsValue(arg)
    else
      var parts := Split(arg, '-');
      |parts| == 2 && IsNumeral(parts[0]) && IsNumeral(parts[1]) &&
      DigitsValue(parts[0]) <= v <= DigitsValue(parts[1])
  }

  function Step(t: Trunk, c: ConsoleCommand): Trunk {
    match c
    case TrunkAdd(v) => if IsNumeral(v) then t.(allowed := t.allowed + {DigitsValue(v)}) else t
    case TrunkNative(v) =>
      if IsNumeral(v) && DigitsValue(v) in t.allowed then t.(native := Some(DigitsValue(v))) else t
    case TrunkRemove(v) => t.(allowed := set x | x in t.allowed && !Removes(v, x))
    case DisableVlan(v) => if IsNumeral(v) then t.(allowed := t.allowed - {DigitsValue(v)}) else t
    case _ => t
  }

  function Run(t: Trunk, cmds: seq<ConsoleCommand>): Trunk
    decreases |cmds|
  {
    if cmds == [] then t else Run(Step(t, cmds[0]), cmds[1..])
  }

  lemma RunTwo(t: Trunk, a: ConsoleCommand, b: ConsoleCommand)
    ensures Run(t, [a, b]) == Step(Step(t, a), b)
  {
    assert Run(t, [a, b]) == Run(Step(t, a), [b]) by { assert [a, b][1..] == [b]; }
    assert Run(Step(t, a), [b]) == Run(Step(Step(t, a), b), []) by { assert [b][1..] == []; }
  }

  /** A `low-high` argument names exactly the VLANs from `low` to `high`. */
  lemma RemovesSpan(low: string, high: string, v: nat)
    requires IsNumeral(low) && IsNumeral(high)
    ensures Removes(low + "-" + high, v) <==> DigitsValue(low) <= v <= DigitsValue(high)
  {
    var arg := low + "-" + high;
    assert arg[|low|] == '-';
    assert !IsNumeral(arg) by { assert !IsDigit(arg[|low|]); }
    assert arg == low + ['-'] + high;
    SplitTwo(low, high, '-');
  }

  lemma RemovesRange(v: nat)
    ensures Removes("1-4093", v) <==> 1 <= v <= MaxVlan
  {
    var low, high := "1", "4093";
    assert low + "-" + high == "1-4093";
    RemovesSpan(low, high, v);
    assert DigitsValue(low) == 1;
    assert DigitsValue(high) == 4093 by {
      assert high[..3] == "409" && "409"[..2] == "40" && "40"[..1] == "4";
    }
  }

  /**
   * `disable_port` leaves the dummy VLAN native and no VLAN from 1 to 4093
   * allowed on the trunk.
   */
  lemma DisablePortClears(t: Trunk, dummy: string)
    requires IsNumeral(dummy)
    ensures var u := Run(t, DisablePortCommands(dummy));
      u.native == Some(DigitsValue(dummy)) && forall v :: v in u.allowed ==> v == 0 || v > MaxVlan
  {
    var cmds := DisablePortCommands(dummy);
    assert cmds[1..] == [TrunkNative(dummy), TrunkRemove("1-4093")];
    RunTwo(Step(t, cmds[0]), cmds[1], cmds[2]);
    forall v | v in Run(t, cmds).allowed
      ensures v == 0 || v > MaxVlan
    {
      RemovesRange(v);
    }
  }

  /**
   * `disable_native` leaves the dummy VLAN native, neither the dummy VLAN nor the
   * disabled one allowed, and every other allowed VLAN as it was.
   */
  lemma DisableNativeClears(t: Trunk, vlanId: string, dummy: string)
    requires IsNumeral(dummy) && IsNumeral(vlanId)
    ensures var u := Run(t, DisableNativeCommands(vlanId, dummy));
      && u.native == Some(DigitsValue(dummy))
      && u.allowed == t.allowed - {DigitsValue(vlanId), DigitsValue(dummy)}
  {
    var cmds := DisableNativeCommands(vlanId, dummy);
    assert cmds[1..][1..] == [TrunkNative(dummy), TrunkRemove(dummy)];
    RunTwo(Step(Step(t, cmds[0]), cmds[1]), cmds[2], cmds[3]);
  }

  /** Without adding it first, the switch does not make the dummy VLAN native: the reason for the order. */
  lemma NativeNeedsAllowed(t: Trunk, dummy: string)
    requires IsNumeral(dummy) && DigitsValue(dummy) !in t.allowed
    ensures Run(t, [TrunkNative(dummy), TrunkRemove(dummy)]).native == t.native
  {
    RunTwo(t, TrunkNative(dummy), TrunkRemove(dummy));
  }

  /*
   * Reading the `show int sw` report.
   */

  /** The first line of `s` and what follows its line break (`\n`, `\r` or `\r\n`). */
  function FirstLine(s: string): (r: (string, string))
    requires s != []
    ensures |r.1| < |s|
    ensures '\n' !in r.0 && '\r' !in r.0
  {
    if s[0] == '\n' then ("", s[1..])
    else if s[0] == '\r' then ("", if |s| > 1 && s[1] == '\n' then s[2..] else s[1..])
    else if |s| == 1 then (s, "")
    else
      var (line, rest) := FirstLine(s[1..]);
      ([s[0]] + line, rest)
  }

  /** `s.splitlines()`: no trailing empty line for a final line break. */
  function SplitLines(s: string): (r: seq<string>)
    ensures forall i :: 0 <= i < |r| ==> '\n' !in r[i] && '\r' !in r[i]
    ensures s == [] <==> r == []
    decreases |s|
  {
    if s == [] then []
    else
      var (line, rest) := FirstLine(s);
      [line] + SplitLines(rest)
  }

  /** Lines each ended by `\n`. */
  function Lines(ls: seq<string>): string {
    if ls == [] then "" else ls[0] + "\n" + Lines(ls[1..])
  }

  lemma {:induction false} FirstLineOf(l: string, rest: string)
    requires '\n' !in l && '\r' !in l
    ensures FirstLine(l + "\n" + rest) == (l, rest)
  {
    if l != [] {
      FirstLineOf(l[1..], rest);
      assert (l + "\n" + rest)[1..] == l[1..] + "\n" + rest;
      assert [l[0]] + l[1..] == l;
    } else {
      assert l + "\n" + rest == "\n" + rest;
      assert ("\n" + rest)[1..] == rest;
    }
  }

  /** `splitlines` gives back the lines of text whose every line ends with `\n`. */
  lemma {:induction false} SplitLinesOfLines(ls: seq<string>)
    requires forall i :: 0 <= i < |ls| ==> '\n' !in ls[i] && '\r' !in ls[i]
    ensures SplitLines(Lines(ls)) == ls
  {
    if ls != [] {
      FirstLineOf(ls[0], Lines(ls[1..]));
      SplitLinesOfLines(ls[1..]);
      assert [ls[0]] + ls[1..] == ls;
    }
  }

  /** `line.split(':', 1)` unpacked into two names: `None` when the line has no colon. */
  function SplitOnce(line: string): (r: Option<(string, string)>)
    ensures r.None? <==> ':' !in line
    ensures r.Some? ==> ':' !in r.value.0 && line == r.value.0 + ":" + r.value.1
  {
    var parts := Split(line, ':');
    if |parts| < 2 then
      assert Join(parts, ':') == parts[0];
      None
    else
      var rest := Join(parts[1..], ':');
      assert line == parts[0] + [':'] + rest;
      Some((parts[0], rest))
  }

  /** Splitting at the first colon gives back the key and the value it joined. */
  lemma SplitOnceJoin(k: string, v: string)
    requires ':' !in k
    ensures SplitOnce(k + ":" + v) == Some((k, v))
  {
    SplitAfterWord(k, ":" + v, ':');
    var rest := Split(v, ':');
    assert Split(":" + v, ':') == [""] + rest by {
      assert (":" + v)[1..] == v;
    }
    assert k + "" == k;
    var parts := Split(k + ":" + v, ':');
    assert parts == [k] + rest;
    assert parts[1..] == rest;
  }

  /** The dictionary `_int_config` builds from its lines, starting from `{'key': 'value'}`. */
  function ConfigEntries(lines: seq<string>): Option<map<string, string>>
    decreases |lines|
  {
    if lines == [] then Some(map["key" := "value"])
    else
      match ConfigEntries(lines[..|lines| - 1])
      case None => None
      case Some(m) =>
        match SplitOnce(lines[|lines| - 1])
        case None => None
        case Some(kv) => Some(m[kv.0 := kv.1])
  }

  /** The lines give a dictionary exactly when every one of them has a colon. */
  lemma {:induction false} ConfigEntriesDefined(lines: seq<string>)
    ensures ConfigEntries(lines).Some? <==> forall i :: 0 <= i < |lines| ==> ':' in lines[i]
    decreases |lines|
  {
    if lines != [] {
      var n := |lines| - 1;
      ConfigEntriesDefined(lines[..n]);
      assert forall i :: 0 <= i < n ==> lines[..n][i] == lines[i];
    }
  }

  /**
   * The dictionary holds the key of every line, the last line's value for its
   * key, and `'value'` under `'key'` unless a line has that key.
   */
  lemma {:induction false} ConfigEntriesMeaning(lines: seq<string>)
    requires ConfigEntries(lines).Some?
    ensures var m := ConfigEntries(lines).value;
      && (forall i :: 0 <= i < |lines| ==> ':' in lines[i] && SplitOnce(lines[i]).value.0 in m)
      && (lines != [] ==>
            m[SplitOnce(lines[|lines| - 1]).value.0] == SplitOnce(lines[|lines| - 1]).value.1)
      && ((forall i :: 0 <= i < |lines| ==> ':' in lines[i] && SplitOnce(lines[i]).value.0 != "key") ==>
            "key" in m && m["key"] == "value")
    decreases |lines|
  {
    if lines != [] {
      var n := |lines| - 1;
      var front := lines[..n];
      ConfigEntriesMeaning(front);
      assert forall i :: 0 <= i < n ==> front[i] == lines[i];
      var m := ConfigEntries(front).value;
      var kv := SplitOnce(lines[n]).value;
      assert ConfigEntries(lines).value == m[kv.0 := kv.1];
      forall i | 0 <= i < |lines|
        ensures ':' in lines[i] && SplitOnce(lines[i]).value.0 in ConfigEntries(lines).value
      {
        if i < n {
          assert ':' in front[i] && SplitOnce(front[i]).value.0 in m;
        }
      }
    }
  }

  /** The lines of the report `_int_config` reads: `del key_lines[-3:]` drops the last three, or all of fewer. */
  function KeptLines(after: string): (r: seq<string>)
    ensures r <= SplitLines(after)
    ensures |SplitLines(after)| - |r| == if |SplitLines(after)| >= 3 then 3 else |SplitLines(after)|
  {
    var all := SplitLines(after);
    all[..if |all| >= 3 then |all| - 3 else 0]
  }

  /*
   * The VLANs a port carries, from its `show` fields.
   */

  /** A `(channel, network)` pair of the report: `('vlan/<digits>', int(digits))`. */
  type Entry = (string, int)

  predicate TaggedEntry(e: Entry) {
    |e.0| > 5 && e.0[..5] == "vlan/" && IsNumeral(e.0[5..]) && e.1 == DigitsValue(e.0[5..])
  }

  /**
   * A stripped token that starts with digits names the VLAN of those digits,
   * the longest run of them, whatever follows; other tokens are skipped.
   */
  function TokenEntry(token: string): (r: Option<Entry>)
    ensures r.Some? ==> TaggedEntry(r.value)
    ensures r.Some? <==> |Strip(token)| > 0 && IsDigit(Strip(token)[0])
    ensures r.Some? ==> var d := r.value.0[5..];
      d <= Strip(token) && (|d| == |Strip(token)| || !IsDigit(Strip(token)[|d|]))
  {
    var d := LeadingDigits(Strip(token));
    if d == "" then None
    else
      assert ("vlan/" + d)[5..] == d;
      Some(("vlan/" + d, DigitsValue(d)))
  }

  function OptionToSeq(o: Option<Entry>): seq<Entry> {
    if o.Some? then [o.value] else []
  }

  /** The entries of the tokens, in order. */
  function TokenEntries(tokens: seq<string>): (r: seq<Entry>)
    ensures forall e :: e in r ==> TaggedEntry(e)
    ensures |r| <= |tokens|
    decreases |tokens|
  {
    if tokens == [] then []
    else TokenEntries(tokens[..|tokens| - 1]) + OptionToSeq(TokenEntry(tokens[|tokens| - 1]))
  }

  /** The entries of the comma-separated ranges, each split at its dashes. */
  function RangesEntries(ranges: seq<string>): (r: seq<Entry>)
    ensures forall e :: e in r ==> TaggedEntry(e)
    decreases |ranges|
  {
    if ranges == [] then []
    else RangesEntries(ranges[..|ranges| - 1]) + TokenEntries(Split(ranges[|ranges| - 1], '-'))
  }

  lemma TokenEntriesStep(tokens: seq<string>, j: nat)
    requires j < |tokens|
    ensures TokenEntries(tokens[..j + 1]) == TokenEntries(tokens[..j]) + OptionToSeq(TokenEntry(tokens[j]))
  {
    assert tokens[..j + 1][..j] == tokens[..j];
  }

  /** The step of the loop over the tokens, with the digits the token starts with. */
  lemma TokenEntriesNext(tokens: seq<string>, j: nat, d: string)
    requires j < |tokens| && d == LeadingDigits(Strip(tokens[j]))
    ensures TokenEntries(tokens[..j + 1])
      == TokenEntries(tokens[..j]) + if d == "" then [] else [("vlan/" + d, DigitsValue(d))]
  {
    TokenEntriesStep(tokens, j);
  }

  lemma RangesEntriesStep(ranges: seq<string>, i: nat)
    requires i < |ranges|
    ensures RangesEntries(ranges[..i + 1]) == RangesEntries(ranges[..i]) + TokenEntries(Split(ranges[i], '-'))
  {
    assert ranges[..i + 1][..i] == ranges[..i];
  }

  /** The entries of the `Trunking Mode VLANs Enabled` field. */
  function EnabledEntries(field: string): seq<Entry> {
    RangesEntries(Split(field, ','))
  }

  /** Every tagged entry names a channel that reads back as that VLAN. */
  lemma TaggedEntryIsChannel(e: Entry)
    requires TaggedEntry(e)
    ensures ParseChannel(e.0) == Tagged(e.0[5..])
  {
    assert e.0 == "vlan/" + e.0[5..];
    ParseChannelName(Tagged(e.0[5..]));
  }

  /** A range `low-high` is reported by its two ends only. */
  lemma RangeReportsEnds(low: string, high: string)
    requires IsNumeral(low) && IsNumeral(high)
    ensures TokenEntries(Split(low + "-" + high, '-')) ==
      [("vlan/" + low, DigitsValue(low)), ("vlan/" + high, DigitsValue(high))]
  {
    assert Split(low + "-" + high, '-') == [low, high] by {
      assert low + "-" + high == low + ['-'] + high;
      SplitTwo(low, high, '-');
    }
    TwoNumeralTokens(low, high);
  }

  lemma TwoNumeralTokens(low: string, high: string)
    requires IsNumeral(low) && IsNumeral(high)
    ensures TokenEntries([low, high]) == [("vlan/" + low, DigitsValue(low)), ("vlan/" + high, DigitsValue(high))]
  {
    TokenEntriesPair(low, high);
    NumeralToken(low);
    NumeralToken(high);
  }

  lemma TokenEntriesPair(a: string, b: string)
    ensures TokenEntries([a, b]) == OptionToSeq(TokenEntry(a)) + OptionToSeq(TokenEntry(b))
  {
    assert [a, b][..1] == [a];
    assert [a][..0] == [];
  }

  lemma NumeralToken(d: string)
    requires IsNumeral(d)
    ensures TokenEntry(d) == Some(("vlan/" + d, DigitsValue(d)))
  {
    assert Strip(d) == d by {
      assert forall i :: 0 <= i < |d| ==> !IsSpace(d[i]);
    }
    LeadingDigitsOfNumeral(d);
  }

  /**
   * The native VLAN of the `Trunking Mode Native VLAN` field: the number its
   * stripped text starts with, `None` when it starts with no digit or is the
   * dummy VLAN. The outer `None` is the error `int(dummy_vlan)` raises.
   */
  function NativeOf(field: string, dummy: string): (r: Option<Option<int>>)
    ensures r.Some? && r.value.Some? ==> PyInt(dummy) != Some(r.value.value) && r.value.value >= 0
    ensures LeadingDigits(Strip(field)) == "" ==> r == Some(None)
    ensures r.None? <==> LeadingDigits(Strip(field)) != "" && PyInt(dummy).None?
    ensures r.Some? && r.value.Some? ==> r.value.value == DigitsValue(LeadingDigits(Strip(field)))
    ensures LeadingDigits(Strip(field)) != "" && PyInt(dummy).Some? ==>
      (r == Some(None) <==> DigitsValue(LeadingDigits(Strip(field))) == PyInt(dummy).value)
  {
    var d := LeadingDigits(Strip(field));
    if d == "" then Some(None)
    else
      match PyInt(dummy)
      case None => None
      case Some(dv) => if DigitsValue(d) == dv then Some(None) else Some(Some(DigitsValue(d)))
  }

  /** A native field such as `100 (Inactive)` gives the VLAN of its digits, ignoring the junk after them. */
  lemma NativeIgnoresJunk(d: string, junk: string, dummy: string)
    requires IsNumeral(d)
    requires junk == [] || !IsDigit(junk[0])
    requires PyInt(dummy).Some? && PyInt(dummy).value != DigitsValue(d)
    ensures NativeOf(d + junk, dummy) == Some(Some(DigitsValue(d)))
  {
    LeadingDigitsOfStripped(d, junk);
  }

  /** A token such as `20(Inactive)` names the VLAN of its digits. */
  lemma TokenIgnoresJunk(d: string, junk: string)
    requires IsNumeral(d)
    requires junk == [] || !IsDigit(junk[0])
    ensures TokenEntry(d + junk) == Some(("vlan/" + d, DigitsValue(d)))
  {
    LeadingDigitsOfStripped(d, junk);
  }

  const NativeField := "Trunking Mode Native VLAN"
  const EnabledField := "Trunking Mode VLANs Enabled"

  /**
   * The report of one port: its enabled VLANs in order, then `('vlan/native', n)`
   * when it has a native VLAN other than the dummy one. `None` stands for the
   * missing field or the bad dummy VLAN that raise.
   */
  function PortReport(fields: map<string, string>, dummy: string): Option<seq<Entry>> {
    if NativeField !in fields then None
    else
      match NativeOf(fields[NativeField], dummy)
      case None => None
      case Some(native) =>
        if EnabledField !in fields then None
        else
          var tagged := EnabledEntries(fields[EnabledField]);
          if native.Some? then Some(tagged + [("vlan/native", native.value)]) else Some(tagged)
  }

  /**
   * A report needs both fields. Every entry but the last is a tagged VLAN; the
   * last one is `('vlan/native', n)` when the port has a native VLAN `n`, which is
   * never the dummy VLAN, and every entry is a tagged VLAN otherwise.
   */
  lemma PortReportShape(fields: map<string, string>, dummy: string)
    requires PortReport(fields, dummy).Some?
    ensures NativeField in fields && EnabledField in fields
    ensures var r := PortReport(fields, dummy).value;
      var native := NativeOf(fields[NativeField], dummy).value;
      && (forall i :: 0 <= i < |r| - 1 ==> TaggedEntry(r[i]))
      && (native.Some? ==> |r| > 0 && r[|r| - 1] == ("vlan/native", native.value))
      && (native.Some? ==> Some(native.value) != PyInt(dummy))
      && (native.None? ==> forall e :: e in r ==> TaggedEntry(e))
  {
    var native := NativeOf(fields[NativeField], dummy).value;
    var tagged := EnabledEntries(fields[EnabledField]);
    NativeNotTagged(if native.Some? then native.value else 0);
    if native.Some? {
      assert PortReport(fields, dummy).value == tagged + [("vlan/native", native.value)];
      TaggedThenNative(tagged, native.value);
    } else {
      assert PortReport(fields, dummy).value == tagged;
    }
  }

  lemma NativeNotTagged(n: int)
    ensures !TaggedEntry(("vlan/native", n))
  {
    assert ("vlan/native")[5..] == "native" && !IsDigit('n');
  }

  lemma TaggedThenNative(tagged: seq<Entry>, n: int)
    requires forall e :: e in tagged ==> TaggedEntry(e)
    ensures var r := tagged + [("vlan/native", n)]; forall i :: 0 <= i < |r| - 1 ==> TaggedEntry(r[i])
  {
    var r := tagged + [("vlan/native", n)];
    assert forall i :: 0 <= i < |r| - 1 ==> r[i] == tagged[i];
  }

  /** The console session of one switch. */
  class JuniperSession {
    const dummyVlan: string
    var sent: seq<ConsoleCommand>

    constructor (dummyVlan: string)
      ensures this.dummyVlan == dummyVlan && sent == []
    {
      this.dummyVlan := dummyVlan;
      sent := [];
    }

    /** `disable_port` */
    method DisablePort()
      modifies this
      ensures sent == old(sent) + DisablePortCommands(dummyVlan)
    {
      sent := sent + [TrunkAdd(dummyVlan)];
      sent := sent + [TrunkNative(dummyVlan)];
      sent := sent + [TrunkRemove("1-4093")];
    }

    /** `disable_native(vlan_id)` */
    method DisableNative(vlanId: string)
      modifies this
      ensures sent == old(sent) + DisableNativeCommands(vlanId, dummyVlan)
    {
      sent := sent + [DisableVlan(vlanId)];
      sent := sent + [TrunkAdd(dummyVlan)];
      sent := sent + [TrunkNative(dummyVlan)];
      sent := sent + [TrunkRemove(dummyVlan)];
    }

    /**
     * `_int_config(interface)`, given the text the console printed after `Port:`.
     * A line without a colon raises before the closing line is sent.
     */
    method IntConfig(iface: string, after: string) returns (r: Option<map<string, string>>)
      modifies this
      ensures r == ConfigEntries(KeptLines(after))
      ensures sent == old(sent) + [ShowInterface(iface)] + (if r.Some? then [Newline] else [])
    {
      sent := sent + [ShowInterface(iface)];
      var result := map["key" := "value"];
      var keyLines := SplitLines(after);
      keyLines := keyLines[..if |keyLines| >= 3 then |keyLines| - 3 else 0];
      for i := 0 to |keyLines|
        invariant ConfigEntries(keyLines[..i]) == Some(result)
      {
        assert keyLines[..i + 1][..i] == keyLines[..i];
        var kv := SplitOnce(keyLines[i]);
        if kv.None? {
          ConfigEntriesFails(keyLines, i);
          return None;
        }
        result := result[kv.value.0 := kv.value.1];
      }
      assert keyLines[..|keyLines|] == keyLines;
      sent := sent + [Newline];
      r := Some(result);
    }

    /** `get_port_networks`, given the fields `_port_configs` collects for each port. */
    method GetPortNetworks(configs: map<string, map<string, string>>) returns (r: Option<map<string, seq<Entry>>>)
      ensures r.Some? <==> forall k :: k in configs ==> PortReport(configs[k], dummyVlan).Some?
      ensures r.Some? ==> (r.value.Keys == configs.Keys &&
        forall k :: k in configs ==> r.value[k] == PortReport(configs[k], dummyVlan).value)
    {
      var result: map<string, seq<Entry>> := map[];
      var left := configs.Keys;
      while left != {}
        invariant left <= configs.Keys
        invariant result.Keys == configs.Keys - left
        invariant forall k :: k in result ==> PortReport(configs[k], dummyVlan) == Some(result[k])
        decreases left
      {
        var k :| k in left;
        var networks := PortNetworks(configs[k]);
        if networks.None? {
          assert k in configs && PortReport(configs[k], dummyVlan).None?;
          return None;
        }
        result := result[k := networks.value];
        left := left - {k};
      }
      assert result.Keys == configs.Keys;
      return Some(result);
    }

    /** The inner loop of `get_port_networks`, over the ends of one range. */
    method RangeNetworks(range: string) returns (networks: seq<Entry>)
      ensures networks == TokenEntries(Split(range, '-'))
    {
      networks := [];
      var tokens := Split(range, '-');
      for j := 0 to |tokens|
        invariant networks == TokenEntries(tokens[..j])
      {
        var d := LeadingDigits(Strip(tokens[j]));
        TokenEntriesNext(tokens, j, d);
        if d != "" {
          networks := networks + [("vlan/" + d, DigitsValue(d))];
        }
      }
      assert tokens[..|tokens|] == tokens;
    }

    /** The loop of `get_port_networks` over the ranges of the enabled VLANs. */
    method EnabledNetworks(field: string) returns (networks: seq<Entry>)
      ensures networks == EnabledEntries(field)
    {
      networks := [];
      var ranges := Split(field, ',');
      for i := 0 to |ranges|
        invariant networks == RangesEntries(ranges[..i])
      {
        RangesEntriesStep(ranges, i);
        var found := RangeNetworks(ranges[i]);
        networks := networks + found;
      }
      assert ranges[..|ranges|] == ranges;
    }

    /** The body of the loop of `get_port_networks`, for one port. */
    method PortNetworks(fields: map<string, string>) returns (r: Option<seq<Entry>>)
      ensures r == PortReport(fields, dummyVlan)
    {
      if NativeField !in fields {
        return None;
      }
      var native := NativeOf(fields[NativeField], dummyVlan);
      if native.None? {
        return None;
      }
      if EnabledField !in fields {
        return None;
      }
      var networks := EnabledNetworks(fields[EnabledField]);
      if native.value.Some? {
        networks := networks + [("vlan/native", native.value.value)];
      }
      return Some(networks);
    }
  }

  lemma ConfigEntriesFails(lines: seq<string>, i: nat)
    requires i < |lines| && ':' !in lines[i]
    ensures ConfigEntries(lines).None?
  {
    ConfigEntriesDefined(lines);
  }
}

=== FILE: juniper_netconf.dfy ===
/**
 * The NETCONF driver for Juniper QFX switches: the "set"-format configuration
 * statements it builds, and the sessions in which it loads them and then
 * commits or rolls back.
 *
 * The switch is modelled by its committed configuration and by its commit
 * check, a predicate on the candidate configuration; what the driver loads and
 * decides is recorded in the switch's `log`.
 */
module JuniperNetconf {
  import opened Wrappers
  import opened PyStr

  /** One configuration statement the driver loads in "set" format. */
  datatype Statement =
    | SetNativeVlanId(port: string, id: string)      // set interface <port> native-vlan-id <id>
    | DeleteNativeVlanId(port: string, id: string)   // delete interface <port> native-vlan-id <id>
    | AddVlanMember(port: string, vlan: string)      // set interfaces <port> unit 0 family ethernet-switching vlan members <vlan>
    | DeleteVlanMember(port: string, vlan: string)   // delete ... vlan members <vlan>
    | DeleteVlanMembers(port: string)                // delete ... ethernet-switching vlan
    | DeleteInterfaceMode(port: string)              // delete ... ethernet-switching interface-mode
    | DeleteNativeVlan(port: string)                 // delete interfaces <port> native-vlan-id
    | SetTrunkMode(port: string)                     // set ... ethernet-switching interface-mode trunk
    | DeleteInterface(port: string)                  // delete interfaces <port>

  /** The words of a statement, as its format string spells them. */
  function Tokens(s: Statement): seq<string> {
    match s
    case SetNativeVlanId(p, id) => ["set", "interface", p, "native-vlan-id", id]
    case DeleteNativeVlanId(p, id) => ["delete", "interface", p, "native-vlan-id", id]
    case AddVlanMember(p, v) => ["set", "interfaces", p, "unit", "0", "family", "ethernet-switching", "vlan", "members", v]
    case DeleteVlanMember(p, v) => ["delete", "interfaces", p, "unit", "0", "family", "ethernet-switching", "vlan", "members", v]
    case DeleteVlanMembers(p) => ["delete", "interfaces", p, "unit", "0", "family", "ethernet-switching", "vlan"]
    case DeleteInterfaceMode(p) => ["delete", "interfaces", p, "unit", "0", "family", "ethernet-switching", "interface-mode"]
    case DeleteNativeVlan(p) => ["delete", "interfaces", p, "native-vlan-id"]
    case SetTrunkMode(p) => ["set", "interfaces", p, "unit", "0", "family", "ethernet-switching", "interface-mode", "trunk"]
    case DeleteInterface(p) => ["delete", "interfaces", p]
  }

  /** The text of a statement: its words separated by single blanks. */
  function Render(s: Statement): string {
    Join(Tokens(s), ' ')
  }

  /** Reading a statement back from its words; only the words of a statement are read. */
  function FromTokens(t: seq<string>): (r: Option<Statement>)
    ensures r.Some? ==> Tokens(r.value) == t
  {
    if |t| == 3 && t == Tokens(DeleteInterface(t[2])) then Some(DeleteInterface(t[2]))
    else if |t| == 4 && t == Tokens(DeleteNativeVlan(t[2])) then Some(DeleteNativeVlan(t[2]))
    else if |t| == 5 && t == Tokens(SetNativeVlanId(t[2], t[4])) then Some(SetNativeVlanId(t[2], t[4]))
    else if |t| == 5 && t == Tokens(DeleteNativeVlanId(t[2], t[4])) then Some(DeleteNativeVlanId(t[2], t[4]))
    else if |t| == 8 && t == Tokens(DeleteVlanMembers(t[2])) then Some(DeleteVlanMembers(t[2]))
    else if |t| == 8 && t == Tokens(DeleteInterfaceMode(t[2])) then Some(DeleteInterfaceMode(t[2]))
    else if |t| == 9 && t == Tokens(SetTrunkMode(t[2])) then Some(SetTrunkMode(t[2]))
    else if |t| == 10 && t == Tokens(AddVlanMember(t[2], t[9])) then Some(AddVlanMember(t[2], t[9]))
    else if |t| == 10 && t == Tokens(DeleteVlanMember(t[2], t[9])) then Some(DeleteVlanMember(t[2], t[9]))
    else None
  }

  lemma FromTokensTokens(s: Statement)
    ensures FromTokens(Tokens(s)) == Some(s)
  {
  }

  /** Reading one line of a "set"-format configuration. */
  function Parse(line: string): Option<Statement> {
    FromTokens(Split(line, ' '))
  }

  /** A port name or VLAN id as the driver puts it in a statement: no blank and no line break. */
  predicate Word(x: string) {
    ' ' !in x && '\n' !in x
  }

  predicate WellFormed(s: Statement) {
    match s
    case SetNativeVlanId(p, id) => Word(p) && Word(id)
    case DeleteNativeVlanId(p, id) => Word(p) && Word(id)
    case AddVlanMember(p, v) => Word(p) && Word(v)
    case DeleteVlanMember(p, v) => Word(p) && Word(v)
    case _ => Word(s.port)
  }

  /** No word of a well-formed statement holds a blank or a line break. */
  lemma TokensAreWords(s: Statement)
    requires WellFormed(s)
    ensures forall i :: 0 <= i < |Tokens(s)| ==> Word(Tokens(s)[i])
  {
    KeywordsAreWords();
    forall i | 0 <= i < |Tokens(s)|
      ensures Word(Tokens(s)[i])
    {
      var t := Tokens(s);
      assert t[i] in Keywords || (i == 2 && t[i] == s.port) || t[i] == t[|t| - 1];
    }
  }

  /** The fixed words of the statements. */
  const Keywords := ["set", "delete", "interface", "interfaces", "native-vlan-id", "unit", "0",
                     "family", "ethernet-switching", "vlan", "members", "interface-mode", "trunk"]

  lemma KeywordsAreWords()
    ensures forall i :: 0 <= i < |Keywords| ==> Word(Keywords[i])
  {
  }

  /** Every well-formed statement reads back from its text. */
  lemma ParseRender(s: Statement)
    requires WellFormed(s)
    ensures Parse(Render(s)) == Some(s)
  {
    TokensAreWords(s);
    SplitJoin(Tokens(s), ' ');
    FromTokensTokens(s);
  }

  lemma RenderOneLine(s: Statement)
    requires WellFormed(s)
    ensures '\n' !in Render(s)
  {
    TokensAreWords(s);
    JoinKeeps(Tokens(s), ' ', c => c != '\n');
  }

  /** The text loaded for a block of statements: one per line. */
  function LoadText(stmts: seq<Statement>): string {
    Join(Renders(stmts), '\n')
  }

  function Renders(stmts: seq<Statement>): (r: seq<string>)
    ensures |r| == |stmts| && forall i :: 0 <= i < |stmts| ==> r[i] == Render(stmts[i])
  {
    seq(|stmts|, i requires 0 <= i < |stmts| => Render(stmts[i]))
  }

  /** Reading every line of a block; `None` if one of them is not a statement. */
  function ParseLines(lines: seq<string>): (r: Option<seq<Statement>>)
    ensures r.Some? ==> |r.value| == |lines|
    decreases |lines|
  {
    if lines == [] then Some([])
    else
      match ParseLines(lines[..|lines| - 1])
      case None => None
      case Some(front) =>
        match Parse(lines[|lines| - 1])
        case None => None
        case Some(s) => Some(front + [s])
  }

  function ParseBlock(text: string): Option<seq<Statement>> {
    ParseLines(Split(text, '\n'))
  }

  lemma {:induction false} ParseLinesRenders(stmts: seq<Statement>)
    requires forall i :: 0 <= i < |stmts| ==> WellFormed(stmts[i])
    ensures ParseLines(Renders(stmts)) == Some(stmts)
    decreases |stmts|
  {
    if stmts != [] {
      var n := |stmts| - 1;
      var front, last := stmts[..n], stmts[n];
      assert front + [last] == stmts;
      RendersSnoc(front, last);
      ParseLinesRenders(front);
      ParseRender(last);
      ParseLinesSnoc(Renders(front), Render(last), front, last);
    }
  }

  lemma RendersSnoc(front: seq<Statement>, last: Statement)
    ensures Renders(front + [last]) == Renders(front) + [Render(last)]
  {
  }

  lemma ParseLinesSnoc(lines: seq<string>, line: string, front: seq<Statement>, s: Statement)
    requires ParseLines(lines) == Some(front)
    requires Parse(line) == Some(s)
    ensures ParseLines(lines + [line]) == Some(front + [s])
  {
    assert (lines + [line])[..|lines|] == lines;
  }

  /** A non-empty block of well-formed statements reads back from its text. */
  lemma ParseBlockLoadText(stmts: seq<Statement>)
    requires |stmts| > 0
    requires forall i :: 0 <= i < |stmts| ==> WellFormed(stmts[i])
    ensures ParseBlock(LoadText(stmts)) == Some(stmts)
  {
    forall i | 0 <= i < |stmts|
      ensures '\n' !in Renders(stmts)[i]
    {
      RenderOneLine(stmts[i]);
    }
    SplitJoin(Renders(stmts), '\n');
    ParseLinesRenders(stmts);
  }

  /*
   * The statement builders.
   */

  /** Python's truth value of the `network_id` argument. */
  predicate Truthy(networkId: Option<string>) {
    networkId.Some? && networkId.value != ""
  }

  /** `'{}'.format(network_id)`: `None` is written `None`. */
  function FormatId(networkId: Option<string>): (r: string)
    ensures networkId.None? ==> r == "None"
    ensures networkId.Some? ==> r == networkId.value
  {
    match networkId
    case None => "None"
    case Some(id) => id
  }

  /** `_set_native_vlan(port, network_id)`, as written: the delete form names the id it was given. */
  function NativeVlanStatement(port: string, networkId: Option<string>): (r: Statement)
    ensures r.port == port
    ensures Truthy(networkId) <==> r.SetNativeVlanId?
    ensures Truthy(networkId) ==> r.id == networkId.value
    ensures !Truthy(networkId) ==> r == DeleteNativeVlanId(port, FormatId(networkId))
  {
    if Truthy(networkId) then SetNativeVlanId(port, networkId.value)
    else DeleteNativeVlanId(port, FormatId(networkId))
  }

  /** `_set_native_vlan` with the delete form of the port's native VLAN that names no id. */
  function NativeVlanStatementFixed(port: string, networkId: Option<string>): (r: Statement)
    ensures r.port == port
    ensures Truthy(networkId) ==> r == NativeVlanStatement(port, networkId)
  {
    if Truthy(networkId) then SetNativeVlanId(port, networkId.value) else DeleteNativeVlan(port)
  }

  /** `_remove_all_vlans_port(port)` */
  function RemoveAllVlans(port: string): (r: seq<Statement>)
    ensures |r| == 3 && forall i :: 0 <= i < 3 ==> r[i].port == port
  {
    [DeleteVlanMembers(port), DeleteInterfaceMode(port), DeleteNativeVlan(port)]
  }

  /*
   * What the statements do to the configuration of the switch.
   */

  /** The part of a port's configuration the driver touches. */
  datatype PortConf = PortConf(template: Option<string>, trunk: bool, members: set<string>, native: Option<string>)

  type Config = map<string, PortConf>

  /** A port the configuration does not mention. */
  const Unconfigured := PortConf(None, false, {}, None)

  function Conf(cfg: Config, port: string): PortConf {
    if port in cfg then cfg[port] else Unconfigured
  }

  /**
   * A statement's effect on the candidate configuration. Deleting the native
   * VLAN by naming an id removes it only when the port's native VLAN is that id.
   */
  function Exec(cfg: Config, s: Statement): Config {
    var p := s.port;
    var c := Conf(cfg, p);
    match s
    case SetNativeVlanId(_, id) => cfg[p := c.(native := Some(id))]
    case DeleteNativeVlanId(_, id) => if c.native == Some(id) then cfg[p := c.(native := None)] else cfg
    case AddVlanMember(_, v) => cfg[p := c.(members := c.members + {v})]
    case DeleteVlanMember(_, v) => cfg[p := c.(members := c.members - {v})]
    case DeleteVlanMembers(_) => cfg[p := c.(members := {})]
    case DeleteInterfaceMode(_) => cfg[p := c.(trunk := false)]
    case DeleteNativeVlan(_) => cfg[p := c.(native := None)]
    case SetTrunkMode(_) => cfg[p := c.(trunk := true)]
    case DeleteInterface(_) => cfg - {p}
  }

  function ExecAll(cfg: Config, stmts: seq<Statement>): Config
    decreases |stmts|
  {
    if stmts == [] then cfg else ExecAll(Exec(cfg, stmts[0]), stmts[1..])
  }

  lemma ExecAllCons(cfg: Config, s: Statement, rest: seq<Statement>)
    ensures ExecAll(cfg, [s] + rest) == ExecAll(Exec(cfg, s), rest)
  {
    assert ([s] + rest)[1..] == rest;
  }

  lemma ExecAllOne(cfg: Config, s: Statement)
    ensures ExecAll(cfg, [s]) == Exec(cfg, s)
  {
    assert [s][1..] == [];
  }

  /** Statements on one port leave every other port as it was. */
  lemma {:induction false} ExecAllOtherPorts(cfg: Config, stmts: seq<Statement>, port: string, q: string)
    requires forall i :: 0 <= i < |stmts| ==> stmts[i].port == port
    requires q != port
    ensures Conf(ExecAll(cfg, stmts), q) == Conf(cfg, q)
    decreases |stmts|
  {
    if stmts != [] {
      ExecAllOtherPorts(Exec(cfg, stmts[0]), stmts[1..], port, q);
    }
  }

  /** Loading a template for a port: the factory configuration, with no VLAN and not in trunk mode. */
  function LoadTemplate(cfg: Config, path: string, port: string): Config {
    cfg[port := PortConf(Some(path), false, {}, None)]
  }

  /** The committed configuration after a commit check: the candidate if the check passes, else unchanged. */
  function Settle(committed: Config, candidate: Config, accepts: Config -> bool): Config {
    if accepts(candidate) then candidate else committed
  }

  /** `_remove_all_vlans_port` clears the port's VLANs, native VLAN and interface mode. */
  lemma RemoveAllVlansClears(cfg: Config, port: string)
    ensures var c := Conf(ExecAll(cfg, RemoveAllVlans(port)), port);
      c == Conf(cfg, port).(trunk := false, members := {}, native := None)
  {
    var c1 := Exec(cfg, DeleteVlanMembers(port));
    var c2 := Exec(c1, DeleteInterfaceMode(port));
    ExecAllCons(cfg, DeleteVlanMembers(port), [DeleteInterfaceMode(port), DeleteNativeVlan(port)]);
    ExecAllCons(c1, DeleteInterfaceMode(port), [DeleteNativeVlan(port)]);
    ExecAllOne(c2, DeleteNativeVlan(port));
  }

  /** A truthy network id becomes the port's native VLAN. */
  lemma NativeVlanSets(cfg: Config, port: string, networkId: Option<string>)
    requires Truthy(networkId)
    ensures Conf(Exec(cfg, NativeVlanStatement(port, networkId)), port).native == networkId
  {
  }

  /**
   * Without a network id, the statement `_set_native_vlan` builds names the id
   * `None` (or the empty id) and so leaves a native VLAN with any other id in place.
   */
  lemma NativeVlanNotCleared(cfg: Config, port: string, networkId: Option<string>)
    requires !Truthy(networkId)
    requires Conf(cfg, port).native.Some? && Conf(cfg, port).native != Some(FormatId(networkId))
    ensures Conf(Exec(cfg, NativeVlanStatement(port, networkId)), port).native == Conf(cfg, port).native
  {
  }

  /** The fixed builder sets a truthy id as the native VLAN and otherwise clears it. */
  lemma NativeVlanFixedEffect(cfg: Config, port: string, networkId: Option<string>)
    ensures var c := Conf(Exec(cfg, NativeVlanStatementFixed(port, networkId)), port);
      c.native == (if Truthy(networkId) then networkId else None) &&
      c.members == Conf(cfg, port).members && c.trunk == Conf(cfg, port).trunk
  {
  }

  /** Adding a VLAN makes it a member; removing it afterwards leaves the members as they were without it. */
  lemma AddThenRemoveVlan(cfg: Config, port: string, vlan: string)
    ensures vlan in Conf(Exec(cfg, AddVlanMember(port, vlan)), port).members
    ensures Conf(ExecAll(cfg, [AddVlanMember(port, vlan), DeleteVlanMember(port, vlan)]), port).members ==
      Conf(cfg, port).members - {vlan}
  {
    ExecAllCons(cfg, AddVlanMember(port, vlan), [DeleteVlanMember(port, vlan)]);
    ExecAllOne(Exec(cfg, AddVlanMember(port, vlan)), DeleteVlanMember(port, vlan));
  }

  /** The committed configuration after `_set_mode(port, mode)`. */
  function SetModeResult(cfg: Config, port: string, mode: string, accepts: Config -> bool): Config {
    var cleared := if mode != "trunk" then Settle(cfg, ExecAll(cfg, RemoveAllVlans(port)), accepts) else cfg;
    Settle(cleared, ExecAll(cleared, [SetTrunkMode(port)]), accepts)
  }

  /**
   * `_set_mode` always ends by asking for trunk mode; for any other mode it first
   * removes every VLAN of the port. Other ports are untouched.
   */
  lemma SetModeEffect(cfg: Config, port: string, mode: string, accepts: Config -> bool)
    ensures var cleared := if mode != "trunk" then Settle(cfg, ExecAll(cfg, RemoveAllVlans(port)), accepts) else cfg;
      var r := SetModeResult(cfg, port, mode, accepts);
      && (accepts(ExecAll(cleared, [SetTrunkMode(port)])) ==> Conf(r, port).trunk)
      && (!accepts(ExecAll(cleared, [SetTrunkMode(port)])) ==> r == cleared)
      && (mode != "trunk" && accepts(ExecAll(cfg, RemoveAllVlans(port))) ==>
            Conf(r, port).members == {} && Conf(r, port).native.None?)
      && (forall q :: q != port ==> Conf(r, q) == Conf(cfg, q))
  {
    var cleared := if mode != "trunk" then Settle(cfg, ExecAll(cfg, RemoveAllVlans(port)), accepts) else cfg;
    RemoveAllVlansClears(cfg, port);
    ExecAllOne(cleared, SetTrunkMode(port));
    forall q | q != port
      ensures Conf(cleared, q) == Conf(cfg, q)
    {
      ExecAllOtherPorts(cfg, RemoveAllVlans(port), port, q);
    }
  }

  const ChannelizedTemplate := "jinja_templates/revert_channelized_port.j2"
  const NonChannelizedTemplate := "jinja_templates/revert_nonchannelized_port.j2"

  /** The template `revert_port` loads; `None` for a name too short for `port[-2]`. */
  function TemplateFor(port: string): (r: Option<string>)
    ensures r.None? <==> |port| < 2
    ensures r.Some? ==> (r.value == ChannelizedTemplate <==> port[|port| - 2] == ':')
    ensures r.Some? ==> r.value == ChannelizedTemplate || r.value == NonChannelizedTemplate
  {
    if |port| < 2 then None
    else if port[|port| - 2] == ':' then Some(ChannelizedTemplate)
    else Some(NonChannelizedTemplate)
  }

  /** A port split out of a 40G port, named `<base>:<lane>` with a one-character lane, gets the channelized template. */
  lemma ChannelizedPort(base: string, lane: char)
    ensures TemplateFor(base + ":" + [lane]) == Some(ChannelizedTemplate)
  {
    assert (base + ":" + [lane])[|base|] == ':';
  }

  /** The committed configuration after `revert_port(port)` for a port name of two or more characters. */
  function RevertResult(cfg: Config, port: string, accepts: Config -> bool): Config
    requires |port| >= 2
  {
    Settle(cfg, LoadTemplate(ExecAll(cfg, [DeleteInterface(port)]), TemplateFor(port).value, port), accepts)
  }

  /**
   * An accepted revert leaves the port with exactly its template's configuration
   * and the other ports as they were; a rejected one changes nothing.
   */
  lemma RevertPortEffect(cfg: Config, port: string, accepts: Config -> bool)
    requires |port| >= 2
    ensures var candidate := LoadTemplate(ExecAll(cfg, [DeleteInterface(port)]), TemplateFor(port).value, port);
      var r := RevertResult(cfg, port, accepts);
      && (accepts(candidate) ==> Conf(r, port) == PortConf(TemplateFor(port), false, {}, None))
      && (accepts(candidate) ==> forall q :: q != port ==> Conf(r, q) == Conf(cfg, q))
      && (!accepts(candidate) ==> r == cfg)
  {
    ExecAllOne(cfg, DeleteInterface(port));
  }

  /** What the driver does in a session with the switch. */
  datatype Event =
    | LoadSet(stmts: seq<Statement>)          // cfg.load(<text>, format="set")
    | LoadTemplateFile(path: string, port: string)  // cfg.load(template_path=..., format='text')
    | Commit
    | Rollback

  /** The switch as the driver sees it. */
  class JuniperSwitch {
    /** The switch's commit check on a candidate configuration. */
    const accepts: Config -> bool
    var committed: Config
    var log: seq<Event>

    constructor (accepts: Config -> bool, committed: Config)
      ensures this.accepts == accepts && this.committed == committed && log == []
    {
      this.accepts := accepts;
      this.committed := committed;
      log := [];
    }

    /** `_commit_config`: commit the candidate if the commit check passes, else roll back. */
    method CommitConfig(candidate: Config)
      modifies this
      ensures log == old(log) + [if accepts(candidate) then Commit else Rollback]
      ensures committed == Settle(old(committed), candidate, accepts)
    {
      if accepts(candidate) {
        log := log + [Commit];
        committed := candidate;
      } else {
        log := log + [Rollback];
      }
    }

    /** `_set_commit_config`: load the statements in "set" format, then commit or roll back. */
    method SetCommitConfig(stmts: seq<Statement>)
      modifies this
      ensures log == old(log) + [LoadSet(stmts), if accepts(ExecAll(old(committed), stmts)) then Commit else Rollback]
      ensures committed == Settle(old(committed), ExecAll(old(committed), stmts), accepts)
    {
      log := log + [LoadSet(stmts)];
      CommitConfig(ExecAll(committed, stmts));
    }

    /** `_set_mode(port, mode)` */
    method SetMode(port: string, mode: string)
      modifies this
      ensures committed == SetModeResult(old(committed), port, mode, accepts)
      ensures mode == "trunk" ==> |log| == |old(log)| + 2
      ensures mode != "trunk" ==> |log| == |old(log)| + 4 && log[|old(log)|] == LoadSet(RemoveAllVlans(port))
      ensures log[|log| - 2] == LoadSet([SetTrunkMode(port)])
      ensures mode == "trunk" ==>
        log == old(log) + [LoadSet([SetTrunkMode(port)]),
                           if accepts(ExecAll(old(committed), [SetTrunkMode(port)])) then Commit else Rollback]
      ensures mode != "trunk" ==>
        var cleared := Settle(old(committed), ExecAll(old(committed), RemoveAllVlans(port)), accepts);
        log == old(log) + [LoadSet(RemoveAllVlans(port)),
                           if accepts(ExecAll(old(committed), RemoveAllVlans(port))) then Commit else Rollback,
                           LoadSet([SetTrunkMode(port)]),
                           if accepts(ExecAll(cleared, [SetTrunkMode(port)])) then Commit else Rollback]
    {
      if mode != "trunk" {
        RemoveAllVlansPort(port);
      }
      SetCommitConfig([SetTrunkMode(port)]);
    }

    /** `_set_native_vlan(port, network_id)` */
    method SetNativeVlan(port: string, networkId: Option<string>)
      modifies this
      ensures |log| == |old(log)| + 2 && log[|old(log)|] == LoadSet([NativeVlanStatement(port, networkId)])
      ensures log == old(log) + [LoadSet([NativeVlanStatement(port, networkId)]),
                                 if accepts(Exec(old(committed), NativeVlanStatement(port, networkId))) then Commit else Rollback]
      ensures committed == Settle(old(committed), Exec(old(committed), NativeVlanStatement(port, networkId)), accepts)
    {
      var stmts := [NativeVlanStatement(port, networkId)];
      assert stmts[1..] == [];
      SetCommitConfig(stmts);
    }

    /** `_add_vlan_from_trunk(port, vlan_id)` */
    method AddVlanFromTrunk(port: string, vlanId: string)
      modifies this
      ensures |log| == |old(log)| + 2 && log[|old(log)|] == LoadSet([AddVlanMember(port, vlanId)])
      ensures log == old(log) + [LoadSet([AddVlanMember(port, vlanId)]),
                                 if accepts(Exec(old(committed), AddVlanMember(port, vlanId))) then Commit else Rollback]
      ensures committed == Settle(old(committed), Exec(old(committed), AddVlanMember(port, vlanId)), accepts)
    {
      var stmts := [AddVlanMember(port, vlanId)];
      assert stmts[1..] == [];
      SetCommitConfig(stmts);
    }

    /** `_remove_vlan_port(port, vlan_id)` */
    method RemoveVlanPort(port: string, vlanId: string)
      modifies this
      ensures |log| == |old(log)| + 2 && log[|old(log)|] == LoadSet([DeleteVlanMember(port, vlanId)])
      ensures log == old(log) + [LoadSet([DeleteVlanMember(port, vlanId)]),
                                 if accepts(Exec(old(committed), DeleteVlanMember(port, vlanId))) then Commit else Rollback]
      ensures committed == Settle(old(committed), Exec(old(committed), DeleteVlanMember(port, vlanId)), accepts)
    {
      var stmts := [DeleteVlanMember(port, vlanId)];
      assert stmts[1..] == [];
      SetCommitConfig(stmts);
    }

    /** `_remove_all_vlans_port(port)` */
    method RemoveAllVlansPort(port: string)
      modifies this
      ensures |log| == |old(log)| + 2 && log[|old(log)|] == LoadSet(RemoveAllVlans(port))
      ensures log == old(log) + [LoadSet(RemoveAllVlans(port)),
                                 if accepts(ExecAll(old(committed), RemoveAllVlans(port))) then Commit else Rollback]
      ensures committed == Settle(old(committed), ExecAll(old(committed), RemoveAllVlans(port)), accepts)
    {
      SetCommitConfig(RemoveAllVlans(port));
    }

    /**
     * `revert_port(port)`: in one session, delete the port's configuration, load
     * its template, then commit or roll back once. A name shorter than two
     * characters raises before anything is loaded.
     */
    method RevertPort(port: string) returns (raised: bool)
      modifies this
      ensures raised <==> |port| < 2
      ensures raised ==> log == old(log) && committed == old(committed)
      ensures !raised ==>
        var candidate := LoadTemplate(ExecAll(old(committed), [DeleteInterface(port)]), TemplateFor(port).value, port);
        && log == old(log) + [LoadSet([DeleteInterface(port)]), LoadTemplateFile(TemplateFor(port).value, port),
                              if accepts(candidate) then Commit else Rollback]
        && committed == RevertResult(old(committed), port, accepts)
    {
      if |port| < 2 {
        return true;
      }
      var baseConfig := if port[|port| - 2] == ':' then ChannelizedTemplate else NonChannelizedTemplate;
      var rmCurrPortConfig := [DeleteInterface(port)];
      log := log + [LoadSet(rmCurrPortConfig)];
      var candidate := ExecAll(committed, rmCurrPortConfig);
      log := log + [LoadTemplateFile(baseConfig, port)];
      candidate := LoadTemplate(candidate, baseConfig, port);
      if accepts(candidate) {
        log := log + [Commit];
        committed := candidate;
      } else {
        log := log + [Rollback];
      }
      return false;
    }
  }
}

=== FILE: ovs.dfy ===
/**
 * The Open vSwitch driver: how `modify_port` turns a connect or detach request
 * into one committed command (or a port revert), and what `get_port_networks`
 * reports for each port.
 *
 * The driver reads a port's record (`trunk_mode`, `disabled`, `vlans`,
 * `native_vlan`) through `ovs-vsctl`; here that record is a `PortState` given
 * as input, and what the switch is asked to do is recorded in the switch's log.
 */
module Ovs {
  import opened Wrappers
  import opened PyStr
  import opened Channels

  /** The `vlans` field of a port record: one name, a list of names, or `None`. */
  datatype Vlans = Single(name: string) | Several(names: seq<string>) | NoVlans

  datatype PortState = PortState(trunkMode: bool, disabled: bool, vlans: Vlans, nativeVlan: Option<string>)

  datatype OvsError =
    | PortLookup        // `(port,) = filter(...)` finds no port or several with the label
    | InvalidChannel    // the channel is neither `vlan/native` nor `vlan/<digits>...`
    | NetworkMismatch   // `assert network_id == vlan_id`
    | NotIterable       // `'default' in None`, or iterating a `None` vlans field
    | VlanAddError      // the switch refused the committed command

  /** `'default' in vlans`: a substring test on one name, list membership on a list, a TypeError on `None`. */
  function HasDefault(v: Vlans): (r: Result<bool, OvsError>)
    ensures r.Err? <==> v.NoVlans?
    ensures v.Several? ==> r == Ok("default" in v.names)
    ensures v.Single? && "default" <= v.name ==> r == Ok(true)
  {
    match v
    case Single(s) => Ok(Contains(s, "default"))
    case Several(xs) => Ok("default" in xs)
    case NoVlans => Err(NotIterable)
  }

  /** The pieces a committed command is assembled from (the driver's command attributes). */
  datatype Fragment =
    | EnableInterface(port: string)
    | SetTrunkMode(port: string)
    | AddVlan(port: string, vlan: string)
    | RemoveVlan(port: string, vlan: string)
    | SetNativeVlan(port: string, vlan: string)
    | RemoveNativeVlan(port: string, vlan: string)
    | RemoveDefaultVlan(port: string)

  /** Where each kind of fragment sits in an assembled command. */
  function Rank(f: Fragment): nat {
    match f
    case EnableInterface(_) => 0
    case SetTrunkMode(_) => 1
    case RemoveDefaultVlan(_) => 3
    case _ => 2
  }

  predicate Ordered(cmd: seq<Fragment>) {
    forall i, j :: 0 <= i < j < |cmd| ==> Rank(cmd[i]) < Rank(cmd[j])
  }

  predicate IsAdd(op: Fragment) {
    op.AddVlan? || op.SetNativeVlan?
  }

  predicate IsRemove(op: Fragment) {
    op.RemoveVlan? || op.RemoveNativeVlan?
  }

  /**
   * The one command `_set_native_vlan` and `_add_vlan_to_trunk` commit for `op`:
   * the port is enabled first if disabled, put in trunk mode if it is not, and the
   * default VLAN is removed last if the port still carries it.
   */
  function AddCommand(op: Fragment, st: PortState): (r: Result<seq<Fragment>, OvsError>)
    requires IsAdd(op)
    ensures r.Err? <==> st.vlans.NoVlans?
    ensures r.Ok? ==> Ordered(r.value) && op in r.value
    ensures r.Ok? ==> forall f :: f in r.value ==> f.port == op.port
    ensures r.Ok? ==> (EnableInterface(op.port) in r.value <==> st.disabled)
    ensures r.Ok? ==> (SetTrunkMode(op.port) in r.value <==> !st.trunkMode)
    ensures r.Ok? ==> (RemoveDefaultVlan(op.port) in r.value <==> HasDefault(st.vlans) == Ok(true))
  {
    match HasDefault(st.vlans)
    case Err(e) => Err(e)
    case Ok(hasDefault) =>
      var enable := if st.disabled then [EnableInterface(op.port)] else [];
      var trunk := if st.trunkMode then [] else [SetTrunkMode(op.port)];
      var cleanup := if hasDefault then [RemoveDefaultVlan(op.port)] else [];
      AssembledShape(enable, trunk, op, cleanup);
      Ok(enable + trunk + [op] + cleanup)
  }

  /** The facts about an assembled command, one piece at a time. */
  lemma AssembledShape(enable: seq<Fragment>, trunk: seq<Fragment>, op: Fragment, cleanup: seq<Fragment>)
    requires IsAdd(op)
    requires enable == [] || enable == [EnableInterface(op.port)]
    requires trunk == [] || trunk == [SetTrunkMode(op.port)]
    requires cleanup == [] || cleanup == [RemoveDefaultVlan(op.port)]
    ensures var cmd := enable + trunk + [op] + cleanup;
      && Ordered(cmd) && op in cmd
      && (forall f :: f in cmd ==> f.port == op.port)
      && (EnableInterface(op.port) in cmd <==> enable != [])
      && (SetTrunkMode(op.port) in cmd <==> trunk != [])
      && (RemoveDefaultVlan(op.port) in cmd <==> cleanup != [])
  {
    var cmd := enable + trunk + [op] + cleanup;
    forall f | f in cmd
      ensures f in enable || f in trunk || f == op || f in cleanup
    {
    }
    AssembledOrdered(enable, trunk, op, cleanup);
  }

  lemma AssembledOrdered(enable: seq<Fragment>, trunk: seq<Fragment>, op: Fragment, cleanup: seq<Fragment>)
    requires IsAdd(op)
    requires enable == [] || enable == [EnableInterface(op.port)]
    requires trunk == [] || trunk == [SetTrunkMode(op.port)]
    requires cleanup == [] || cleanup == [RemoveDefaultVlan(op.port)]
    ensures Ordered(enable + trunk + [op] + cleanup)
  {
    var cmd := enable + trunk + [op] + cleanup;
    var e, t := |enable|, |enable| + |trunk|;
    forall k | 0 <= k < |cmd|
      ensures Rank(cmd[k]) == if k < e then 0 else if k < t then 1 else if k == t then 2 else 3
    {
      if k < e { assert cmd[k] == enable[k]; }
      else if k < t { assert cmd[k] == trunk[k - e]; }
      else if k == t { assert cmd[k] == op; }
      else { assert cmd[k] == cleanup[k - t - 1]; }
    }
  }

  /** What the switch was asked to do to a port. */
  datatype Effect = Commit(cmd: seq<Fragment>) | Revert(port: string)

  /**
   * `_remove_native_vlan` and `_remove_vlan_from_port`: a port whose vlans field
   * is a single name is reverted to its factory state, any other gets the removal.
   */
  function RemoveEffect(op: Fragment, st: PortState): (e: Effect)
    requires IsRemove(op)
    ensures e.Revert? <==> st.vlans.Single?
    ensures e == Revert(op.port) || e == Commit([op])
  {
    if st.vlans.Single? then Revert(op.port) else Commit([op])
  }

  /** How a driver call ends: normally, by returning an exception object, or by raising one. */
  datatype Outcome = Done | Returned(error: OvsError) | Raised(error: OvsError)

  /** `_set_commit_config`: a refused command changes nothing and raises. */
  function Submit(cmd: seq<Fragment>, refused: bool): (Outcome, seq<Effect>) {
    if refused then (Raised(VlanAddError), []) else (Done, [Commit(cmd)])
  }

  function AddOutcome(op: Fragment, st: PortState, refused: bool): (r: (Outcome, seq<Effect>))
    requires IsAdd(op)
    ensures r.0 == Done <==> !st.vlans.NoVlans? && !refused
    ensures r.0 != Done ==> r.1 == [] && r.0.Raised?
    ensures r.0 == Done ==> r.1 == [Commit(AddCommand(op, st).value)]
  {
    match AddCommand(op, st)
    case Err(e) => (Raised(e), [])
    case Ok(cmd) => Submit(cmd, refused)
  }

  function RemoveOutcome(op: Fragment, st: PortState, refused: bool): (r: (Outcome, seq<Effect>))
    requires IsRemove(op)
    ensures r.0 == Done <==> st.vlans.Single? || !refused
    ensures r.0 != Done ==> r == (Raised(VlanAddError), [])
    ensures r.0 == Done ==> r.1 == [RemoveEffect(op, st)]
  {
    match RemoveEffect(op, st)
    case Revert(p) => (Done, [Revert(p)])
    case Commit(cmd) => Submit(cmd, refused)
  }

  /** How many ports carry the label `name`. */
  function Occurrences(labels: seq<string>, name: string): (n: nat)
    ensures n <= |labels|
    ensures n == 0 <==> name !in labels
  {
    if labels == [] then 0
    else Occurrences(labels[..|labels| - 1], name) + (if labels[|labels| - 1] == name then 1 else 0)
  }

  /**
   * `modify_port(port, channel, network_id)`: the outcome and what the switch is
   * asked to do. `refused` says whether the switch refuses a committed command.
   */
  function ModifyPortSpec(labels: seq<string>, port: string, channel: string, networkId: Option<string>,
                          st: PortState, refused: bool): (r: (Outcome, seq<Effect>))
    ensures Occurrences(labels, port) != 1 ==> r == (Raised(PortLookup), [])
    ensures channel != "vlan/native" && ParseChannel(channel).NotAChannel? && Occurrences(labels, port) == 1 ==>
      r == (Raised(InvalidChannel), [])
    ensures r.0.Returned? ==> r.0.error == VlanAddError && ParseChannel(channel).Tagged? && networkId.Some? && refused
    ensures (Occurrences(labels, port) == 1 && ParseChannel(channel).Tagged? &&
             networkId == Some(ParseChannel(channel).vlan) && !st.vlans.NoVlans? && refused) ==>
      r == (Returned(VlanAddError), [])
    ensures (Occurrences(labels, port) == 1 && ParseChannel(channel).Tagged? &&
             networkId.Some? && networkId.value != ParseChannel(channel).vlan) ==>
      r == (Raised(NetworkMismatch), [])
    ensures ParseChannel(channel).Tagged? && networkId.Some? ==> r.0 != Raised(VlanAddError)
    ensures channel == "vlan/native" && Occurrences(labels, port) == 1 && networkId.Some? ==>
      (r.0 == Raised(VlanAddError) <==> !st.vlans.NoVlans? && refused)
    ensures |r.1| <= 1 && (r.1 != [] ==> r.0 == Done)
    ensures forall e :: e in r.1 ==> e == Revert(port) || (e.Commit? && forall f :: f in e.cmd ==> f.port == port)
  {
    if Occurrences(labels, port) != 1 then (Raised(PortLookup), [])
    else if channel == "vlan/native" then
      match networkId
      case None => RemoveOutcome(RemoveNativeVlan(port, NativeText(st.nativeVlan)), st, refused)
      case Some(n) => AddOutcome(SetNativeVlan(port, n), st, refused)
    else
      match ParseChannel(channel)
      case Tagged(v) =>
        (match networkId
         case None => RemoveOutcome(RemoveVlan(port, v), st, refused)
         case Some(n) =>
           if n != v then (Raised(NetworkMismatch), [])
           else
             var r := AddOutcome(AddVlan(port, v), st, refused);
             if r.0 == Raised(VlanAddError) then (Returned(VlanAddError), r.1) else r)
      case _ => (Raised(InvalidChannel), [])
  }

  /** `str(x)` for the native VLAN field. */
  function NativeText(n: Option<string>): string {
    match n
    case None => "None"
    case Some(s) => s
  }

  /*
   * An independent account of what the fragments do to a port, used to state
   * what a connect or detach achieves.
   */

  datatype PortConfig = PortConfig(enabled: bool, trunk: bool, native: Option<string>, tagged: set<string>, withDefault: bool)

  /** The state `revert_port` leaves a port in: disabled, not trunked, no VLAN but the default one. */
  const Factory := PortConfig(false, false, None, {}, true)

  function Apply(c: PortConfig, f: Fragment): PortConfig {
    match f
    case EnableInterface(_) => c.(enabled := true)
    case SetTrunkMode(_) => c.(trunk := true)
    case AddVlan(_, v) => c.(tagged := c.tagged + {v})
    case RemoveVlan(_, v) => c.(tagged := c.tagged - {v})
    case SetNativeVlan(_, v) => c.(native := Some(v))
    case RemoveNativeVlan(_, v) => if c.native == Some(v) then c.(native := None) else c
    case RemoveDefaultVlan(_) => c.(withDefault := false)
  }

  function Run(c: PortConfig, cmd: seq<Fragment>): PortConfig
    decreases |cmd|
  {
    if cmd == [] then c else Run(Apply(c, cmd[0]), cmd[1..])
  }

  function RunEffects(c: PortConfig, effects: seq<Effect>): PortConfig
    decreases |effects|
  {
    if effects == [] then c
    else
      var next := match effects[0] case Commit(cmd) => Run(c, cmd) case Revert(_) => Factory;
      RunEffects(next, effects[1..])
  }

  /** The port record the driver reads describes `c`. */
  predicate Reports(st: PortState, c: PortConfig) {
    && st.trunkMode == c.trunk
    && st.disabled == !c.enabled
    && st.nativeVlan == c.native
    && (HasDefault(st.vlans) == Ok(true) <==> c.withDefault)
  }

  /** A committed add leaves the port enabled, trunked, without the default VLAN and with the VLAN added. */
  lemma AddReachesTarget(op: Fragment, st: PortState, c: PortConfig)
    requires IsAdd(op) && Reports(st, c) && AddCommand(op, st).Ok?
    ensures Run(c, AddCommand(op, st).value) == Apply(c.(enabled := true, trunk := true, withDefault := false), op)
  {
    AddCommandParts(op, st);
    RunAssembled(c, op);
  }

  /** Running enable, trunk, the operation and the clean-up, each only where the port needs it. */
  lemma RunAssembled(c: PortConfig, op: Fragment)
    requires IsAdd(op)
    ensures var enable := if !c.enabled then [EnableInterface(op.port)] else [];
            var trunk := if c.trunk then [] else [SetTrunkMode(op.port)];
            var cleanup := if c.withDefault then [RemoveDefaultVlan(op.port)] else [];
            Run(c, enable + (trunk + ([op] + cleanup)))
              == Apply(c.(enabled := true, trunk := true, withDefault := false), op)
  {
    var enable := if !c.enabled then [EnableInterface(op.port)] else [];
    var trunk := if c.trunk then [] else [SetTrunkMode(op.port)];
    var cleanup := if c.withDefault then [RemoveDefaultVlan(op.port)] else [];
    RunAppend(c, enable, trunk + ([op] + cleanup));
    var c1 := Run(c, enable);
    RunAtMostOne(c, enable);
    assert c1 == c.(enabled := true);
    RunAppend(c1, trunk, [op] + cleanup);
    var c2 := Run(c1, trunk);
    RunAtMostOne(c1, trunk);
    assert c2 == c.(enabled := true, trunk := true);
    RunAppend(c2, [op], cleanup);
    var c3 := Run(c2, [op]);
    RunAtMostOne(c2, [op]);
    assert c3 == Apply(c2, op);
    RunAtMostOne(c3, cleanup);
    var target := c.(enabled := true, trunk := true, withDefault := false);
    if cleanup == [] {
      assert c2 == target;
    } else {
      assert Run(c3, cleanup) == c3.(withDefault := false);
      ApplyAddClearsDefault(c2, op);
      assert c2.(withDefault := false) == target;
    }
  }

  /** An added VLAN does not touch the default-VLAN flag. */
  lemma ApplyAddClearsDefault(c: PortConfig, op: Fragment)
    requires IsAdd(op)
    ensures Apply(c, op).(withDefault := false) == Apply(c.(withDefault := false), op)
  {
  }

  lemma AddCommandParts(op: Fragment, st: PortState)
    requires IsAdd(op) && AddCommand(op, st).Ok?
    ensures AddCommand(op, st).value
      == (if st.disabled then [EnableInterface(op.port)] else [])
         + ((if st.trunkMode then [] else [SetTrunkMode(op.port)])
            + ([op] + (if HasDefault(st.vlans) == Ok(true) then [RemoveDefaultVlan(op.port)] else [])))
  {
    var enable := if st.disabled then [EnableInterface(op.port)] else [];
    var trunk := if st.trunkMode then [] else [SetTrunkMode(op.port)];
    var cleanup := if HasDefault(st.vlans) == Ok(true) then [RemoveDefaultVlan(op.port)] else [];
    assert AddCommand(op, st).value == enable + trunk + [op] + cleanup;
    assert enable + trunk + [op] + cleanup == enable + (trunk + ([op] + cleanup));
  }

  lemma RunAtMostOne(c: PortConfig, cmd: seq<Fragment>)
    requires |cmd| <= 1
    ensures Run(c, cmd) == if cmd == [] then c else Apply(c, cmd[0])
  {
    if cmd != [] {
      assert Run(c, cmd) == Run(Apply(c, cmd[0]), []);
    }
  }

  lemma {:induction false} RunAppend(c: PortConfig, a: seq<Fragment>, b: seq<Fragment>)
    ensures Run(c, a + b) == Run(Run(c, a), b)
    decreases |a|
  {
    if a == [] {
      assert a + b == b;
    } else {
      assert (a + b)[1..] == a[1..] + b;
      RunAppend(Apply(c, a[0]), a[1..], b);
    }
  }

  /** Removing a VLAN, by a commit or by reverting the port, leaves the port without it. */
  lemma RemoveDropsVlan(op: Fragment, st: PortState, c: PortConfig)
    requires IsRemove(op) && Reports(st, c)
    requires op.RemoveNativeVlan? ==> op.vlan == NativeText(st.nativeVlan)
    ensures var d := RunEffects(c, [RemoveEffect(op, st)]);
      (op.RemoveVlan? ==> op.vlan !in d.tagged) && (op.RemoveNativeVlan? ==> d.native.None?)
    ensures st.vlans.Single? ==> RunEffects(c, [RemoveEffect(op, st)]) == Factory
  {
    var e := RemoveEffect(op, st);
    assert RunEffects(c, [e]) == RunEffects(match e case Commit(cmd) => Run(c, cmd) case Revert(_) => Factory, []);
    if e.Commit? {
      assert Run(c, [op]) == Run(Apply(c, op), []);
    }
  }

  /** A connect request that completes leaves the port carrying the network the way the channel names it. */
  lemma ModifyPortConnects(labels: seq<string>, port: string, channel: string, n: string, st: PortState, refused: bool, c: PortConfig)
    requires Reports(st, c)
    requires ModifyPortSpec(labels, port, channel, Some(n), st, refused).0 == Done
    ensures var d := RunEffects(c, ModifyPortSpec(labels, port, channel, Some(n), st, refused).1);
      d.enabled && d.trunk && !d.withDefault &&
      (if channel == "vlan/native" then d.native == Some(n) else ParseChannel(channel) == Tagged(n) && n in d.tagged)
  {
    var op := if channel == "vlan/native" then SetNativeVlan(port, n) else AddVlan(port, n);
    ConnectIsAdd(labels, port, channel, n, st, refused);
    AddReachesTarget(op, st, c);
    var cmd := AddCommand(op, st).value;
    assert RunEffects(c, [Commit(cmd)]) == RunEffects(Run(c, cmd), []);
  }

  /** A connect request that completes is the add of its VLAN, native or tagged. */
  lemma ConnectIsAdd(labels: seq<string>, port: string, channel: string, n: string, st: PortState, refused: bool)
    requires ModifyPortSpec(labels, port, channel, Some(n), st, refused).0 == Done
    ensures var op := if channel == "vlan/native" then SetNativeVlan(port, n) else AddVlan(port, n);
      ModifyPortSpec(labels, port, channel, Some(n), st, refused) == AddOutcome(op, st, refused)
    ensures channel != "vlan/native" ==> ParseChannel(channel) == Tagged(n)
  {
  }

  /** A detach request that completes leaves the port without the VLAN the channel names. */
  lemma ModifyPortDetaches(labels: seq<string>, port: string, channel: string, st: PortState, refused: bool, c: PortConfig)
    requires Reports(st, c)
    requires ModifyPortSpec(labels, port, channel, None, st, refused).0 == Done
    ensures var d := RunEffects(c, ModifyPortSpec(labels, port, channel, None, st, refused).1);
      if channel == "vlan/native" then d.native.None? else ParseChannel(channel).vlan !in d.tagged
  {
    var op := if channel == "vlan/native" then RemoveNativeVlan(port, NativeText(st.nativeVlan))
              else RemoveVlan(port, ParseChannel(channel).vlan);
    RemoveDropsVlan(op, st, c);
  }

  /** The switch as the driver drives it: the labels of its ports and what it has been asked to do. */
  class OvsSwitch {
    const hostname: string
    const labels: seq<string>
    var log: seq<Effect>

    constructor (hostname: string, labels: seq<string>)
      ensures this.hostname == hostname && this.labels == labels && log == []
    {
      this.hostname := hostname;
      this.labels := labels;
      log := [];
    }

    /** `revert_port`: delete the port and add it again; the shell's status is not reported. */
    method RevertPort(port: string)
      modifies this
      ensures log == old(log) + [Revert(port)]
    {
      log := log + [Revert(port)];
    }

    /** `_set_commit_config` */
    method CommitConfig(cmd: seq<Fragment>, refused: bool) returns (o: Outcome)
      modifies this
      ensures o == Submit(cmd, refused).0 && log == old(log) + Submit(cmd, refused).1
    {
      if refused {
        return Raised(VlanAddError);
      }
      log := log + [Commit(cmd)];
      o := Done;
    }

    /** `_set_native_vlan` and `_add_vlan_to_trunk`, which differ only in the operation they start from. */
    method AddToPort(op: Fragment, st: PortState, refused: bool) returns (o: Outcome)
      requires IsAdd(op)
      modifies this
      ensures o == AddOutcome(op, st, refused).0 && log == old(log) + AddOutcome(op, st, refused).1
    {
      var port := op.port;
      ghost var trunk := if st.trunkMode then [] else [SetTrunkMode(port)];
      ghost var enable := if st.disabled then [EnableInterface(port)] else [];
      var cmd := [op];
      if !st.trunkMode {
        cmd := [SetTrunkMode(port)] + cmd;
      }
      assert cmd == trunk + [op];
      if st.disabled {
        cmd := [EnableInterface(port)] + cmd;
      }
      assert cmd == enable + trunk + [op];
      var hasDefault := HasDefault(st.vlans);
      if hasDefault.Err? {
        return Raised(hasDefault.error);
      }
      ghost var cleanup := if hasDefault.value then [RemoveDefaultVlan(port)] else [];
      if hasDefault.value {
        cmd := cmd + [RemoveDefaultVlan(port)];
      }
      assert cmd == enable + trunk + [op] + cleanup == AddCommand(op, st).value;
      o := CommitConfig(cmd, refused);
    }

    /** `_remove_native_vlan` and `_remove_vlan_from_port` */
    method RemoveFromPort(op: Fragment, st: PortState, refused: bool) returns (o: Outcome)
      requires IsRemove(op)
      modifies this
      ensures o == RemoveOutcome(op, st, refused).0 && log == old(log) + RemoveOutcome(op, st, refused).1
    {
      if st.vlans.Single? {
        RevertPort(op.port);
        o := Done;
      } else {
        o := CommitConfig([op], refused);
      }
    }

    /** `modify_port` */
    method ModifyPort(port: string, channel: string, networkId: Option<string>, st: PortState, refused: bool)
      returns (o: Outcome)
      modifies this
      ensures o == ModifyPortSpec(labels, port, channel, networkId, st, refused).0
      ensures log == old(log) + ModifyPortSpec(labels, port, channel, networkId, st, refused).1
    {
      if Occurrences(labels, port) != 1 {
        return Raised(PortLookup);
      }
      if channel == "vlan/native" {
        if networkId.None? {
          o := RemoveFromPort(RemoveNativeVlan(port, NativeText(st.nativeVlan)), st, refused);
        } else {
          o := AddToPort(SetNativeVlan(port, networkId.value), st, refused);
        }
        return;
      }
      var parsed := ParseChannel(channel);
      if !parsed.Tagged? {
        return Raised(InvalidChannel);
      }
      var vlanId := parsed.vlan;
      if networkId.None? {
        o := RemoveFromPort(RemoveVlan(port, vlanId), st, refused);
      } else {
        if networkId.value != vlanId {
          return Raised(NetworkMismatch);
        }
        o := AddToPort(AddVlan(port, vlanId), st, refused);
        if o == Raised(VlanAddError) {
          o := Returned(VlanAddError);
        }
      }
    }
  }
}

=== FILE: ovs_networks.dfy ===
/**
 * `get_port_networks` of the Open vSwitch driver: for every port, the list of
 * `(channel, network)` pairs it carries, the native VLAN as `vlan/native`.
 *
 * The loop as written shares one `all_output` list across ports; `PortStep`
 * and `GetPortNetworks` model that code, `PortNetworks` and `Networks` the
 * per-port report the method promises.
 */
module OvsNetworks {
  import opened Wrappers
  import opened Ovs

  /** A `(channel, network)` pair of the report. */
  type Entry = (string, string)

  /** `('vlan/' + v, v)` for every `v` of `names`, in order. */
  function VlanEntries(names: seq<string>): (r: seq<Entry>)
    ensures |r| == |names|
    ensures forall i :: 0 <= i < |names| ==> r[i] == ("vlan/" + names[i], names[i])
  {
    seq(|names|, i requires 0 <= i < |names| => ("vlan/" + names[i], names[i]))
  }

  /** Iterating a Python string yields its one-character strings. */
  function Chars(s: string): (r: seq<string>)
    ensures |r| == |s|
    ensures forall i :: 0 <= i < |s| ==> r[i] == [s[i]]
  {
    seq(|s|, i requires 0 <= i < |s| => [s[i]])
  }

  /** `filter(lambda x: x[0] not in ['vlan/default', 'vlan/' + native], entries)` */
  function Filtered(entries: seq<Entry>, native: string): (r: seq<Entry>)
    ensures |r| <= |entries|
    ensures forall e :: e in r <==> e in entries && e.0 != "vlan/default" && e.0 != "vlan/" + native
    decreases |entries|
  {
    if entries == [] then []
    else
      var e := entries[0];
      var rest := Filtered(entries[1..], native);
      assert forall x :: x in entries <==> x == e || x in entries[1..];
      if e.0 != "vlan/default" && e.0 != "vlan/" + native then [e] + rest else rest
  }

  /** The VLAN names of a vlans field, a single name counting as one. */
  function Names(v: Vlans): (r: seq<string>)
    ensures v.Single? ==> r == [v.name]
    ensures v.Several? ==> r == v.names
    ensures v.NoVlans? ==> r == []
  {
    match v
    case Single(s) => [s]
    case Several(xs) => xs
    case NoVlans => []
  }

  /** Channel names built on `vlan/` are equal exactly when what follows is. */
  lemma VlanPrefix(x: string, y: string)
    ensures "vlan/" + x == "vlan/" + y <==> x == y
  {
    if "vlan/" + x == "vlan/" + y {
      assert x == ("vlan/" + x)[5..];
      assert y == ("vlan/" + y)[5..];
    }
  }

  /**
   * One pass of the loop of `get_port_networks` as written: the port's entries
   * and the new value of `all_output`. A port with a list of VLANs and no native
   * VLAN appends to the `all_output` left by earlier ports; a port with a native
   * VLAN and a single VLAN name gets one entry per character of the name.
   */
  function PortStep(st: PortState, carried: seq<Entry>): (r: Result<(seq<Entry>, seq<Entry>), OvsError>)
    ensures r.Err? <==> st.nativeVlan.Some? && st.vlans.NoVlans?
    ensures r.Ok? && st.vlans.Several? && st.nativeVlan.None? ==> r.value.1 == carried + VlanEntries(st.vlans.names)
    ensures r.Ok? && st.nativeVlan.Some? && st.vlans != Single("default") && st.vlans != Single(st.nativeVlan.value) ==>
      |r.value.1| > 0 && r.value.1[0] == ("vlan/native", st.nativeVlan.value)
  {
    var native := st.nativeVlan;
    var vlans := st.vlans;
    if vlans == Single("default") then Ok(([], carried))
    else if (vlans.Single? && native == Some(vlans.name)) || (vlans.NoVlans? && native.None?) then
      Ok(([("vlan/native", NativeText(native))], carried))
    else if native.None? && vlans.Single? then
      Ok(([("vlan/" + vlans.name, vlans.name)], carried))
    else if native.None? && vlans.Several? then
      var all := carried + VlanEntries(vlans.names);
      Ok((Filtered(all, "None"), all))
    else if vlans.NoVlans? then Err(NotIterable)
    else
      var n := NativeText(native);
      var all := [("vlan/native", n)] + VlanEntries(if vlans.Single? then Chars(vlans.name) else vlans.names);
      Ok((Filtered(all, n), all))
  }

  /** The loop of `get_port_networks` as written, from port `states[0]` on. */
  function Scan(states: seq<PortState>, carried: seq<Entry>, done: seq<seq<Entry>>): (r: Result<seq<seq<Entry>>, OvsError>)
    ensures r.Ok? ==> |r.value| == |done| + |states| && r.value[..|done|] == done
    decreases |states|
  {
    if states == [] then Ok(done)
    else
      match PortStep(states[0], carried)
      case Err(e) => Err(e)
      case Ok(step) => Scan(states[1..], step.1, done + [step.0])
  }

  lemma ScanStep(states: seq<PortState>, i: nat, carried: seq<Entry>, done: seq<seq<Entry>>)
    requires i < |states|
    ensures PortStep(states[i], carried).Err? ==>
      Scan(states[i..], carried, done) == Err(PortStep(states[i], carried).error)
    ensures PortStep(states[i], carried).Ok? ==>
      var next := PortStep(states[i], carried).value;
      Scan(states[i..], carried, done) == Scan(states[i + 1..], next.1, done + [next.0])
  {
    assert states[i..][0] == states[i] && states[i..][1..] == states[i + 1..];
  }

  /** `get_port_networks` as written, on the records of the ports in order. */
  method GetPortNetworks(states: seq<PortState>) returns (r: Result<seq<seq<Entry>>, OvsError>)
    ensures r == Scan(states, [], [])
  {
    var response: seq<seq<Entry>> := [];
    var allOutput: seq<Entry> := [];
    for i := 0 to |states|
      invariant Scan(states, [], []) == Scan(states[i..], allOutput, response)
    {
      ScanStep(states, i, allOutput, response);
      var step := PortPass(states[i], allOutput);
      if step.Err? {
        return Err(step.error);
      }
      response := response + [step.value.0];
      allOutput := step.value.1;
    }
    return Ok(response);
  }

  /** The body of the loop of `get_port_networks`, for one port. */
  method PortPass(st: PortState, carried: seq<Entry>) returns (r: Result<(seq<Entry>, seq<Entry>), OvsError>)
    ensures r == PortStep(st, carried)
  {
    var allOutput := carried;
    var native := st.nativeVlan;
    var vlans := st.vlans;
    if vlans == Single("default") {
      return Ok(([], allOutput));
    } else if (vlans.Single? && native == Some(vlans.name)) || (vlans.NoVlans? && native.None?) {
      return Ok(([("vlan/native", NativeText(native))], allOutput));
    } else if native.None? && vlans.Single? {
      return Ok(([("vlan/" + vlans.name, vlans.name)], allOutput));
    } else if native.None? && vlans.Several? {
      var names := vlans.names;
      for j := 0 to |names|
        invariant allOutput == carried + VlanEntries(names[..j])
      {
        assert VlanEntries(names[..j + 1]) == VlanEntries(names[..j]) + [("vlan/" + names[j], names[j])];
        allOutput := allOutput + [("vlan/" + names[j], names[j])];
      }
      assert names[..|names|] == names;
      return Ok((Filtered(allOutput, "None"), allOutput));
    }
    if vlans.NoVlans? {
      return Err(NotIterable);
    }
    var n := NativeText(native);
    var names := if vlans.Single? then Chars(vlans.name) else vlans.names;
    allOutput := [("vlan/native", n)];
    for j := 0 to |names|
      invariant allOutput == [("vlan/native", n)] + VlanEntries(names[..j])
    {
      assert VlanEntries(names[..j + 1]) == VlanEntries(names[..j]) + [("vlan/" + names[j], names[j])];
      allOutput := allOutput + [("vlan/" + names[j], names[j])];
    }
    assert names[..|names|] == names;
    return Ok((Filtered(allOutput, n), allOutput));
  }

  /**
   * The entries of one port, from its own record: nothing for a port on the
   * default VLAN only, the native VLAN first, then every other VLAN of the port.
   */
  function PortNetworks(st: PortState): (r: Result<seq<Entry>, OvsError>)
    ensures r.Err? <==> st.nativeVlan.Some? && st.vlans.NoVlans?
    ensures st.vlans == Single("default") ==> r == Ok([])
    ensures r.Ok? ==> forall e :: e in r.value ==> e.0 != "vlan/default"
    ensures r.Ok? ==> forall e :: e in r.value ==> e.0 == "vlan/native" || e.0 == "vlan/" + e.1
    ensures r.Ok? && st.nativeVlan.Some? && st.nativeVlan.value != "native" && st.vlans != Single("default") ==>
      && |r.value| > 0 && r.value[0] == ("vlan/native", st.nativeVlan.value)
      && forall e :: e in r.value ==> e.0 != "vlan/" + st.nativeVlan.value
  {
    var native := st.nativeVlan;
    var vlans := st.vlans;
    assert "vlan/native" == "vlan/" + "native" && "vlan/default" == "vlan/" + "default";
    if vlans == Single("default") then Ok([])
    else if (vlans.Single? && native == Some(vlans.name)) || (vlans.NoVlans? && native.None?) then
      VlanPrefix("native", NativeText(native));
      Ok([("vlan/native", NativeText(native))])
    else if native.None? && vlans.Single? then
      VlanPrefix(vlans.name, "default");
      Ok(VlanEntries([vlans.name]))
    else if native.None? then
      Ok(Filtered(VlanEntries(vlans.names), "None"))
    else if vlans.NoVlans? then Err(NotIterable)
    else
      var n := native.value;
      var all := [("vlan/native", n)] + VlanEntries(Names(vlans));
      var r := Filtered(all, n);
      assert n != "native" ==> r[0] == all[0] by {
        if n != "native" {
          VlanPrefix("native", n);
          assert all[0] in all;
          assert all[0] in r;
          assert all[1..] == VlanEntries(Names(vlans));
        }
      }
      Ok(r)
  }

  /** A VLAN of a port is reported as a tagged entry exactly when it is neither the default nor the native one. */
  lemma PortNetworksTagged(st: PortState, x: string)
    requires st.vlans.Several? || (st.vlans.Single? && st.nativeVlan.Some? && st.vlans.name != "default")
    requires st.nativeVlan.Some? ==> st.nativeVlan.value != "native"
    requires st.vlans != Single(NativeText(st.nativeVlan))
    ensures PortNetworks(st).Ok?
    ensures ("vlan/" + x, x) in PortNetworks(st).value <==>
      x in Names(st.vlans) && x != "default" && x != NativeText(st.nativeVlan)
  {
    var names := Names(st.vlans);
    var entries := VlanEntries(names);
    var n := NativeText(st.nativeVlan);
    assert x in names <==> ("vlan/" + x, x) in entries by {
      if x in names {
        var i :| 0 <= i < |names| && names[i] == x;
        assert entries[i] == ("vlan/" + x, x);
      }
      if ("vlan/" + x, x) in entries {
        var i :| 0 <= i < |entries| && entries[i] == ("vlan/" + x, x);
        assert names[i] == x;
      }
    }
    assert "vlan/" + x == "vlan/default" <==> x == "default" by {
      if "vlan/" + x == "vlan/default" {
        assert x == ("vlan/" + x)[5..];
      }
    }
    assert "vlan/" + x == "vlan/" + n <==> x == n by {
      if "vlan/" + x == "vlan/" + n {
        assert x == ("vlan/" + x)[5..] == ("vlan/" + n)[5..];
      }
    }
    if st.nativeVlan.Some? {
      var all := [("vlan/native", n)] + entries;
      assert ("vlan/" + x, x) in all <==> ("vlan/" + x, x) == ("vlan/native", n) || ("vlan/" + x, x) in entries;
    }
  }

  /** `get_port_networks` as its documentation describes it: every port reported from its own record. */
  function Networks(states: seq<PortState>): (r: Result<seq<seq<Entry>>, OvsError>)
    ensures r.Ok? <==> forall i :: 0 <= i < |states| ==> PortNetworks(states[i]).Ok?
    ensures r.Ok? ==> |r.value| == |states| && forall i :: 0 <= i < |states| ==> PortNetworks(states[i]) == Ok(r.value[i])
    decreases |states|
  {
    if states == [] then Ok([])
    else
      var last := |states| - 1;
      match Networks(states[..last])
      case Err(e) => Err(e)
      case Ok(front) =>
        assert forall i :: 0 <= i < last ==> states[..last][i] == states[i];
        match PortNetworks(states[last])
        case Err(e) => Err(e)
        case Ok(entries) => Ok(front + [entries])
  }

  /** Apart from the two cases the findings name, one step of the loop as written reports what `PortNetworks` does. */
  lemma PortStepAgrees(st: PortState, carried: seq<Entry>)
    requires !(st.vlans.Single? && st.nativeVlan.Some?)
    requires st.vlans.Several? && st.nativeVlan.None? ==> carried == []
    ensures PortStep(st, carried).Ok? <==> PortNetworks(st).Ok?
    ensures PortStep(st, carried).Ok? ==> PortStep(st, carried).value.0 == PortNetworks(st).value
  {
    if st.vlans.Several? && st.nativeVlan.None? {
      assert carried + VlanEntries(st.vlans.names) == VlanEntries(st.vlans.names);
    }
  }

  /**
   * The shared `all_output`: after a port with a native VLAN `n` and a list of
   * VLANs, a port with a list of VLANs and no native VLAN is reported, by the
   * loop as written, on native VLAN `n` as well; reported from its own record it
   * is not.
   */
  lemma CarriedOutputLeaks(a: PortState, b: PortState)
    requires a.vlans.Several? && a.nativeVlan.Some? && a.nativeVlan.value != "native"
    requires b.vlans.Several? && b.nativeVlan.None? && "native" !in b.vlans.names
    ensures Scan([a, b], [], []).Ok? && ("vlan/native", a.nativeVlan.value) in Scan([a, b], [], []).value[1]
    ensures Networks([a, b]).Ok? && ("vlan/native", a.nativeVlan.value) !in Networks([a, b]).value[1]
  {
    LeakAsWritten(a, b);
    assert Networks([a, b]).Ok? && Networks([a, b]).value[1] == PortNetworks(b).value;
    NoNativeEntry(b);
  }

  lemma LeakAsWritten(a: PortState, b: PortState)
    requires a.vlans.Several? && a.nativeVlan.Some? && a.nativeVlan.value != "native"
    requires b.vlans.Several? && b.nativeVlan.None?
    ensures Scan([a, b], [], []).Ok? && ("vlan/native", a.nativeVlan.value) in Scan([a, b], [], []).value[1]
  {
    var n := a.nativeVlan.value;
    var first := PortStep(a, []).value;
    var second := PortStep(b, first.1).value;
    ScanTwo(a, b);
    assert first.1[0] == ("vlan/native", n);
    assert ("vlan/native", n) in first.1 + VlanEntries(b.vlans.names);
    NativeKept(n);
  }

  lemma NativeKept(n: string)
    ensures "vlan/native" != "vlan/default" && "vlan/native" != "vlan/" + "None"
  {
    assert "vlan/native"[5] != "vlan/default"[5];
    assert ("vlan/" + "None")[5] == 'N';
  }

  /** Two ports whose passes both succeed are reported by the loop as written one after the other. */
  lemma ScanTwo(a: PortState, b: PortState)
    requires PortStep(a, []).Ok? && PortStep(b, PortStep(a, []).value.1).Ok?
    ensures var first := PortStep(a, []).value;
      Scan([a, b], [], []) == Ok([first.0, PortStep(b, first.1).value.0])
  {
    var first := PortStep(a, []).value;
    var second := PortStep(b, first.1).value;
    ScanStep([a, b], 0, [], []);
    ScanStep([a, b], 1, first.1, [first.0]);
    assert [a, b][0..] == [a, b] && [a, b][1..] == [b] && [a, b][2..] == [];
    assert [] + [first.0] + [second.0] == [first.0, second.0];
  }

  /** A port with a list of VLANs, none named `native`, and no native VLAN has no native entry of its own. */
  lemma NoNativeEntry(b: PortState)
    requires b.vlans.Several? && b.nativeVlan.None? && "native" !in b.vlans.names
    ensures PortNetworks(b).Ok? && forall e :: e in PortNetworks(b).value ==> e.0 != "vlan/native"
  {
    var own := VlanEntries(b.vlans.names);
    forall e | e in own
      ensures e.0 != "vlan/native"
    {
      var i :| 0 <= i < |own| && own[i] == e;
      VlanPrefix(b.vlans.names[i], "native");
    }
  }

  /**
   * A port with a native VLAN whose vlans field is one name of two or more
   * characters (other than `default`): the loop as written reports a VLAN named by the name's first
   * character and not the VLAN itself; reported from its own record it is the
   * other way round.
   */
  lemma SingleNameSplitIntoCharacters(st: PortState)
    requires st.vlans.Single? && st.nativeVlan.Some?
    requires var s := st.vlans.name; var n := st.nativeVlan.value;
      |s| >= 2 && s != n && s != "native" && s != "default" && n != "native" && [s[0]] != n
    ensures var s := st.vlans.name;
      && PortStep(st, []).Ok? && ("vlan/" + [s[0]], [s[0]]) in PortStep(st, []).value.0
      && ("vlan/" + s, s) !in PortStep(st, []).value.0
    ensures var s := st.vlans.name;
      && PortNetworks(st).Ok? && ("vlan/" + s, s) in PortNetworks(st).value
      && ("vlan/" + [s[0]], [s[0]]) !in PortNetworks(st).value
  {
    var s := st.vlans.name;
    var n := st.nativeVlan.value;
    var chars := Chars(s);
    var all := [("vlan/native", n)] + VlanEntries(chars);
    assert PortStep(st, []).value.0 == Filtered(all, n);
    assert chars[0] == [s[0]];
    assert ("vlan/" + [s[0]], [s[0]]) in all by {
      assert all[1] == ("vlan/" + chars[0], chars[0]);
    }
    VlanPrefix([s[0]], "default");
    VlanPrefix([s[0]], n);
    assert [s[0]] != "default";
    assert ("vlan/" + s, s) !in all by {
      VlanPrefix(s, "native");
      forall e | e in VlanEntries(chars)
        ensures e.1 != s
      {
        var i :| 0 <= i < |chars| && VlanEntries(chars)[i] == e;
      }
    }
    PortNetworksTagged(st, s);
    PortNetworksTagged(st, [s[0]]);
    assert [s[0]] != s;
  }
}

=== FILE: ovs_values.dfy ===
/**
 * How the Open vSwitch driver reads `ovs-vsctl list port` output: the
 * `str2list` and `str2dict` helpers that turn the printed `[a, b]` and
 * `{k: v}` forms back into collections, and `_interface_info`, which splits
 * the output into `name : value` lines.
 */
module OvsValues {
  import opened Wrappers
  import opened PyStr

  /** What `str2list` / `str2dict` produce: a collection, Python's `None`, or an exception. */
  datatype Literal<T> = Parsed(value: T) | NoMatch | Malformed

  /**
   * Characters that, once the helper has wrapped every item in quotes, stop
   * `ast.literal_eval` from reading the items back as plain strings.
   */
  predicate BreaksList(c: char) {
    c == '[' || c == ']' || c == '\'' || c == '\\' || c == '\n' || c == '\r'
  }

  predicate BreaksDict(c: char) {
    c == '{' || c == '}' || c == '\'' || c == '\\' || c == '\n' || c == '\r'
  }

  /** `[ele.strip() for ele in items]` */
  function StripEach(items: seq<string>): (r: seq<string>)
    ensures |r| == |items|
    ensures forall i :: 0 <= i < |r| ==> r[i] == Strip(items[i])
  {
    seq(|items|, i requires 0 <= i < |items| => Strip(items[i]))
  }

  /**
   * `str2list`: text starting with `[` becomes the list of its comma-separated,
   * stripped items; any other non-empty text gives `None`.
   */
  function Str2List(s: string): (r: Literal<seq<string>>)
    ensures |s| > 0 && s[0] != '[' ==> r == NoMatch
    ensures r == Parsed([]) <==> s == "[]"
    ensures r.Parsed? ==> |s| >= 2 && s[0] == '[' && s[|s| - 1] == ']'
    ensures r.Parsed? ==> forall i :: 0 <= i < |r.value| ==> Strip(r.value[i]) == r.value[i] && ',' !in r.value[i]
  {
    if |s| == 0 || (s[0] == '[' && |s| == 1) then Malformed
    else if s[0] == '[' && s[1] == ']' then
      if s == "[]" then Parsed([]) else Malformed
    else if s[0] == '[' && |s| > 2 then
      if s[|s| - 1] == ']' then ListItems(s[1..|s| - 1]) else Malformed
    else NoMatch
  }

  /** The list `literal_eval` makes of the text between the brackets once every item is quoted. */
  function ListItems(inner: string): (r: Literal<seq<string>>)
    ensures r != NoMatch && r != Parsed([])
    ensures r.Parsed? ==> forall i :: 0 <= i < |r.value| ==> Strip(r.value[i]) == r.value[i] && ',' !in r.value[i]
  {
    if forall i :: 0 <= i < |inner| ==> !BreaksList(inner[i]) then
      var items := Split(inner, ',');
      var r := StripEach(items);
      assert forall i :: 0 <= i < |r| ==> Strip(r[i]) == r[i] && ',' !in r[i] by {
        forall i | 0 <= i < |r|
          ensures Strip(r[i]) == r[i] && ',' !in r[i]
        {
          StripIdempotent(items[i]);
          StripKeeps(items[i], c => c != ',');
        }
      }
      Parsed(r)
    else Malformed
  }

  /**
   * The raw `(key, value)` texts of `key: value` items, each split at its
   * colon; `None` when an item has no colon or several, which Python refuses.
   */
  function RawPairs(items: seq<string>): (r: Option<seq<(string, string)>>)
    ensures r.Some? <==> forall i :: 0 <= i < |items| ==> |Split(items[i], ':')| == 2
    ensures r.Some? ==> |r.value| == |items|
    ensures r.Some? ==> forall i :: 0 <= i < |items| ==> Split(items[i], ':') == [r.value[i].0, r.value[i].1]
  {
    if forall i :: 0 <= i < |items| ==> |Split(items[i], ':')| == 2 then
      Some(seq(|items|, i requires 0 <= i < |items| => (Split(items[i], ':')[0], Split(items[i], ':')[1])))
    else None
  }

  /** Pair `i` is the last one with its raw key: the pair a Python dictionary built from `ps` keeps. */
  predicate LastOfRaw(ps: seq<(string, string)>, i: int)
    requires 0 <= i < |ps|
  {
    forall j :: i < j < |ps| ==> ps[j].0 != ps[i].0
  }

  /**
   * Pair `i` survives normalising the keys whatever the iteration order: it is
   * the last with its raw key, and no pair with another raw key normalises to
   * the same name.
   */
  predicate Survives(ps: seq<(string, string)>, i: int, norm: string -> string)
    requires 0 <= i < |ps|
  {
    LastOfRaw(ps, i) &&
    forall j :: 0 <= j < |ps| && norm(ps[j].0) == norm(ps[i].0) ==> ps[j].0 == ps[i].0
  }

  /**
   * `{norm(k): norm(v) for k, v in d.iteritems()}` where `d` is the dictionary
   * the raw pairs make; the source's `norm` is `str.strip`. Raw keys that
   * differ only in blanks collide once stripped, and which one survives then
   * follows CPython's hash order. This definition keeps the last such pair;
   * the lemmas below promise only that the survivor is one of them.
   */
  function StrippedMap(ps: seq<(string, string)>, norm: string -> string): (m: map<string, string>)
    ensures forall i :: 0 <= i < |ps| ==> norm(ps[i].0) in m
  {
    if ps == [] then map[]
    else
      var n := |ps| - 1;
      var m := StrippedMap(ps[..n], norm);
      assert forall i :: 0 <= i < n ==> ps[..n][i] == ps[i];
      m[norm(ps[n].0) := norm(ps[n].1)]
  }

  /** Every name of the stripped dictionary comes from a pair the raw dictionary kept, with that pair's stripped value. */
  lemma {:induction false} StrippedMapSurvivor(ps: seq<(string, string)>, norm: string -> string, k: string)
    requires k in StrippedMap(ps, norm)
    ensures exists i :: 0 <= i < |ps| && norm(ps[i].0) == k && LastOfRaw(ps, i) && StrippedMap(ps, norm)[k] == norm(ps[i].1)
  {
    var n := |ps| - 1;
    var front := ps[..n];
    assert ps == front + [ps[n]];
    StrippedMapSnoc(front, ps[n], norm);
    if k == norm(ps[n].0) {
      assert LastOfRaw(ps, n);
    } else {
      StrippedMapSurvivor(front, norm, k);
      var i :| 0 <= i < |front| && norm(front[i].0) == k && LastOfRaw(front, i) && StrippedMap(front, norm)[k] == norm(front[i].1);
      LastOfRawSnoc(front, ps[n], i);
    }
  }

  /** A pair last with its raw key stays so when a pair with another raw key follows. */
  lemma LastOfRawSnoc(front: seq<(string, string)>, p: (string, string), i: int)
    requires 0 <= i < |front| && LastOfRaw(front, i) && p.0 != front[i].0
    ensures LastOfRaw(front + [p], i) && (front + [p])[i] == front[i]
  {
  }

  /** A pair that survives whatever the iteration order gives its stripped value to its stripped name. */
  lemma StrippedMapSurvives(ps: seq<(string, string)>, norm: string -> string, i: int)
    requires 0 <= i < |ps| && Survives(ps, i, norm)
    ensures StrippedMap(ps, norm)[norm(ps[i].0)] == norm(ps[i].1)
  {
    StrippedMapSurvivor(ps, norm, norm(ps[i].0));
    var j :| 0 <= j < |ps| && norm(ps[j].0) == norm(ps[i].0) && LastOfRaw(ps, j) && StrippedMap(ps, norm)[norm(ps[i].0)] == norm(ps[j].1);
    assert ps[j].0 == ps[i].0;
    assert j == i;
  }

  /**
   * The items of `str2dict`: each must hold exactly one colon, and the stripped
   * key of every item is a name of the result (the `StrippedMap` lemmas say
   * which value each name holds).
   */
  function DictItems(items: seq<string>): (r: Literal<map<string, string>>)
    ensures r != NoMatch
    ensures r.Parsed? <==> forall i :: 0 <= i < |items| ==> |Split(items[i], ':')| == 2
    ensures r.Parsed? ==> forall i :: 0 <= i < |items| ==> Strip(Split(items[i], ':')[0]) in r.value
  {
    match RawPairs(items)
    case None => Malformed
    case Some(ps) =>
      assert forall i :: 0 <= i < |items| ==> Strip(Split(items[i], ':')[0]) == Strip(ps[i].0);
      Parsed(StrippedMap(ps, Strip))
  }

  /** `str2dict`: the dictionary counterpart of `Str2List`. */
  function Str2Dict(s: string): (r: Literal<map<string, string>>)
    ensures |s| > 0 && s[0] != '{' ==> r == NoMatch
    ensures r == Parsed(map[]) <== s == "{}"
    ensures r.Parsed? ==> |s| >= 2 && s[0] == '{' && s[|s| - 1] == '}'
  {
    if |s| == 0 || (s[0] == '{' && |s| == 1) then Malformed
    else if s[0] == '{' && s[1] == '}' then
      if s == "{}" then Parsed(map[]) else Malformed
    else if s[0] == '{' && |s| > 2 then
      if s[|s| - 1] == '}' then DictBody(s[1..|s| - 1]) else Malformed
    else NoMatch
  }

  /** The dictionary `literal_eval` makes of the text between the braces once every key and value is quoted. */
  function DictBody(inner: string): (r: Literal<map<string, string>>)
    ensures r != NoMatch
  {
    if forall i :: 0 <= i < |inner| ==> !BreaksDict(inner[i]) then DictItems(Split(inner, ',')) else Malformed
  }

  /** A value of the port record once `_interface_info` has converted it. */
  datatype Field = Text(text: string) | List(items: seq<string>) | Dict(entries: map<string, string>) | Null

  /**
   * One value of `_interface_info`: text that starts with `{` or `[` becomes
   * `str2list(v) or str2dict(v)`, so an empty list falls through to `None`;
   * other text is kept; an empty value raises.
   */
  function InterfaceValue(v: string): (r: Option<Field>)
    ensures r.None? <==> v == [] || ((v[0] == '[' || v[0] == '{') && (Str2List(v).Malformed? || Str2Dict(v).Malformed?))
    ensures v == "[]" ==> r == Some(Null)
    ensures r.Some? && r.value.List? ==> r.value.items != []
    ensures |v| > 0 && v[0] != '[' && v[0] != '{' ==> r == Some(Text(v))
  {
    if |v| == 0 then None
    else if v[0] != '[' && v[0] != '{' then Some(Text(v))
    else
      match Str2List(v)
      case Malformed => None
      case Parsed(xs) =>
        if xs != [] then Some(List(xs))
        else (match Str2Dict(v) case Parsed(m) => Some(Dict(m)) case NoMatch => Some(Null) case Malformed => None)
      case NoMatch =>
        match Str2Dict(v)
        case Parsed(m) => Some(Dict(m))
        case NoMatch => Some(Null)
        case Malformed => None
  }

  /**
   * `_interface_info` on the text `ovs-vsctl list port` printed: every line
   * must be `name : value` with exactly one colon; the raw pairs make a
   * dictionary (a later line wins for the same raw name), names and values are
   * then stripped, and only the values that survive are converted by
   * `InterfaceValue`. `None` stands for the exception raised on the way.
   */
  function InterfaceInfo(output: string): Option<map<string, Field>>
  {
    match RawPairs(Split(output, '\n'))
    case None => None
    case Some(ps) => Converted(StrippedMap(ps, Strip))
  }

  /** The loop over the keys: every value that survived converted by `InterfaceValue`; `None` once one raises. */
  function Converted(fields: map<string, string>): (r: Option<map<string, Field>>)
    ensures r.Some? ==> r.value.Keys == fields.Keys
  {
    if forall k :: k in fields ==> InterfaceValue(fields[k]).Some? then
      Some(map k | k in fields :: InterfaceValue(fields[k]).value)
    else None
  }

  /** When the listing parses, every line of it has one colon and its stripped name is a key of the result. */
  lemma InterfaceInfoNames(output: string, line: string)
    requires InterfaceInfo(output).Some? && line in Split(output, '\n')
    ensures |Split(line, ':')| == 2 && Strip(Split(line, ':')[0]) in InterfaceInfo(output).value
  {
    var lines := Split(output, '\n');
    var ps := RawPairs(lines).value;
    var i :| 0 <= i < |lines| && lines[i] == line;
    assert Strip(ps[i].0) in StrippedMap(ps, Strip);
  }

  /** Conversely, every key of the result is the stripped name of some line. */
  lemma InterfaceInfoKeys(output: string, name: string)
    requires InterfaceInfo(output).Some? && name in InterfaceInfo(output).value
    ensures exists line :: line in Split(output, '\n') && |Split(line, ':')| == 2 && Strip(Split(line, ':')[0]) == name
  {
    var lines := Split(output, '\n');
    var ps := RawPairs(lines).value;
    StrippedMapSurvivor(ps, Strip, name);
    var i :| 0 <= i < |ps| && Strip(ps[i].0) == name && LastOfRaw(ps, i) && StrippedMap(ps, Strip)[name] == Strip(ps[i].1);
    assert lines[i] in lines;
  }

  /**
   * The value of a line that survives whatever the iteration order: its stripped
   * text converted, and when that conversion raises the whole call raises.
   * Lines replaced by a later line with the same raw name are never converted.
   */
  lemma InterfaceInfoValue(output: string, i: int)
    requires RawPairs(Split(output, '\n')).Some?
    requires 0 <= i < |Split(output, '\n')| && Survives(RawPairs(Split(output, '\n')).value, i, Strip)
    ensures var ps := RawPairs(Split(output, '\n')).value;
      var v := InterfaceValue(Strip(ps[i].1));
      (v.None? ==> InterfaceInfo(output).None?) &&
      (InterfaceInfo(output).Some? ==> v.Some? && InterfaceInfo(output).value[Strip(ps[i].0)] == v.value)
  {
    var ps := RawPairs(Split(output, '\n')).value;
    StrippedMapSurvives(ps, Strip, i);
    ConvertedValue(StrippedMap(ps, Strip), Strip(ps[i].0));
  }

  /** The converted value of one name, or the exception its conversion raises. */
  lemma ConvertedValue(fields: map<string, string>, k: string)
    requires k in fields
    ensures InterfaceValue(fields[k]).None? ==> Converted(fields).None?
    ensures Converted(fields).Some? ==> Converted(fields).value[k] == InterfaceValue(fields[k]).value
  {
  }

  /**
   * A line with an empty value, which would raise once converted, does not
   * raise when a later line with the same raw name replaces it.
   */
  lemma ReplacedLineNotConverted(name: string, value: string)
    requires ':' !in name && '\n' !in name && ':' !in value && '\n' !in value
    requires value != [] && value[0] != '[' && value[0] != '{' && Strip(value) == value
    ensures InterfaceValue("").None?
    ensures InterfaceInfo(name + ":\n" + name + ":" + value) == Some(map[Strip(name) := Text(value)])
  {
    var output := name + ":\n" + name + ":" + value;
    assert output == (name + ":") + "\n" + (name + ":" + value);
    TwoLines(name + ":", name + ":" + value);
    TwoLinePairs(name, value);
    RepeatedKey(name, "", value, Strip);
    assert InterfaceInfo(output) == Converted(map[Strip(name) := value]);
    ConvertedSingle(Strip(name), value);
  }

  /** The raw pairs of the two lines `name:` and `name:value`. */
  lemma TwoLinePairs(name: string, value: string)
    requires ':' !in name && '\n' !in name && ':' !in value && '\n' !in value
    ensures RawPairs([name + ":", name + ":" + value]) == Some([(name, ""), (name, value)])
  {
    ColonSplit(name, "");
    assert name + ":" + "" == name + ":";
    ColonSplit(name, value);
    RawPairsTwo(name + ":", name + ":" + value, (name, ""), (name, value));
  }

  lemma TwoLines(a: string, b: string)
    requires '\n' !in a && '\n' !in b
    ensures Split(a + "\n" + b, '\n') == [a, b]
  {
    assert a + "\n" + b == a + ['\n'] + b;
    SplitTwo(a, b, '\n');
  }

  lemma ColonSplit(name: string, value: string)
    requires ':' !in name && ':' !in value
    ensures Split(name + ":" + value, ':') == [name, value]
  {
    assert name + ":" + value == name + [':'] + value;
    SplitTwo(name, value, ':');
  }

  lemma RawPairsTwo(a: string, b: string, p: (string, string), q: (string, string))
    requires Split(a, ':') == [p.0, p.1] && Split(b, ':') == [q.0, q.1]
    ensures RawPairs([a, b]) == Some([p, q])
  {
    var items := [a, b];
    assert items[0] == a && items[1] == b;
    var r := RawPairs(items);
    assert r.Some?;
    assert [r.value[0].0, r.value[0].1] == [p.0, p.1];
    assert [r.value[1].0, r.value[1].1] == [q.0, q.1];
    assert r.value == [p, q];
  }

  /** A dictionary of one plain text value converts to that text. */
  lemma ConvertedSingle(k: string, v: string)
    requires v != [] && v[0] != '[' && v[0] != '{'
    ensures Converted(map[k := v]) == Some(map[k := Text(v)])
  {
    assert InterfaceValue(v) == Some(Text(v));
    var c := Converted(map[k := v]);
    assert c.Some?;
    assert c.value == map[k := Text(v)];
  }

  /** Two pairs with the same raw key: the later one is kept. */
  lemma RepeatedKey(k: string, v1: string, v2: string, norm: string -> string)
    ensures StrippedMap([(k, v1), (k, v2)], norm) == map[norm(k) := norm(v2)]
  {
    StrippedMapSnoc([], (k, v1), norm);
    StrippedMapSnoc([(k, v1)], (k, v2), norm);
    assert [] + [(k, v1)] == [(k, v1)];
    assert [(k, v1)] + [(k, v2)] == [(k, v1), (k, v2)];
  }

  /** One more pair overrides its name in the map of the pairs before it. */
  lemma StrippedMapSnoc(ps: seq<(string, string)>, p: (string, string), norm: string -> string)
    ensures StrippedMap(ps + [p], norm) == StrippedMap(ps, norm)[norm(p.0) := norm(p.1)]
  {
    assert (ps + [p])[..|ps|] == ps;
  }

  /** The items of a collection as `ovs-vsctl` prints them: one blank after every comma. */
  function Spaced(xs: seq<string>): (r: seq<string>)
    ensures |r| == |xs|
  {
    seq(|xs|, i requires 0 <= i < |xs| => if i == 0 then xs[i] else " " + xs[i])
  }

  /** `[a, b, c]` */
  function ListText(xs: seq<string>): string {
    "[" + Join(Spaced(xs), ',') + "]"
  }

  /** `key: value` */
  function PairText(p: (string, string)): string {
    p.0 + ": " + p.1
  }

  function PairTexts(ps: seq<(string, string)>): (r: seq<string>)
    ensures |r| == |ps|
    ensures forall i :: 0 <= i < |ps| ==> r[i] == PairText(ps[i])
  {
    seq(|ps|, i requires 0 <= i < |ps| => PairText(ps[i]))
  }

  /** `{k1: v1, k2: v2}` */
  function DictText(ps: seq<(string, string)>): string {
    "{" + Join(Spaced(PairTexts(ps)), ',') + "}"
  }

  /** A word `ovs-vsctl` prints without quoting: stripped, non-empty, free of separators. */
  predicate Plain(x: string) {
    x != "" && Strip(x) == x &&
    forall i :: 0 <= i < |x| ==> !BreaksList(x[i]) && !BreaksDict(x[i]) && x[i] != ',' && x[i] != ':'
  }

  /** Pairwise distinct keys, as in every dictionary `ovs-vsctl` prints. */
  predicate DistinctKeys(ps: seq<(string, string)>) {
    forall i, j :: 0 <= i < j < |ps| ==> ps[i].0 != ps[j].0
  }

  lemma SpacedJoinKeeps(xs: seq<string>, p: char -> bool)
    requires p(' ') && p(',')
    requires forall k, j :: 0 <= k < |xs| && 0 <= j < |xs[k]| ==> p(xs[k][j])
    ensures forall i :: 0 <= i < |Join(Spaced(xs), ',')| ==> p(Join(Spaced(xs), ',')[i])
  {
    var sp := Spaced(xs);
    forall k, j | 0 <= k < |sp| && 0 <= j < |sp[k]|
      ensures p(sp[k][j])
    {
      if k > 0 && j > 0 {
        assert sp[k][j] == xs[k][j - 1];
      }
    }
    JoinKeeps(sp, ',', p);
  }

  /** A blank in front of a word holds no character other than the blank and the word's own. */
  lemma BlankKeeps(x: string, p: char -> bool)
    requires p(' ')
    requires forall j :: 0 <= j < |x| ==> p(x[j])
    ensures forall j :: 0 <= j < |" " + x| ==> p((" " + x)[j])
  {
    forall j | 0 <= j < |" " + x|
      ensures p((" " + x)[j])
    {
      if j > 0 {
        assert (" " + x)[j] == x[j - 1];
      }
    }
  }

  /** Split on commas gives back the spaced items when no item holds a comma. */
  lemma SplitSpaced(xs: seq<string>)
    requires |xs| > 0
    requires forall i :: 0 <= i < |xs| ==> ',' !in xs[i]
    ensures Split(Join(Spaced(xs), ','), ',') == Spaced(xs)
  {
    var sp := Spaced(xs);
    forall i | 0 <= i < |sp|
      ensures ',' !in sp[i]
    {
      if i > 0 {
        BlankKeeps(xs[i], c => c != ',');
      }
    }
    SplitJoin(sp, ',');
  }

  /** Stripping the spaced items gives back the plain ones. */
  lemma StripSpaced(xs: seq<string>)
    requires forall i :: 0 <= i < |xs| ==> Strip(xs[i]) == xs[i]
    ensures StripEach(Spaced(xs)) == xs
  {
    var sp := Spaced(xs);
    forall i | 0 <= i < |xs|
      ensures Strip(sp[i]) == xs[i]
    {
      if i > 0 {
        StripStripped(xs[i]);
      }
    }
  }

  lemma JoinFirst(parts: seq<string>, sep: char)
    requires |parts| > 0 && parts[0] != ""
    ensures |Join(parts, sep)| > 0 && Join(parts, sep)[0] == parts[0][0]
  {
  }

  /** `str2list` reads back the list `ovs-vsctl` printed. */
  lemma Str2ListListText(xs: seq<string>)
    requires forall i :: 0 <= i < |xs| ==> Plain(xs[i])
    ensures Str2List(ListText(xs)) == Parsed(xs)
  {
    if xs != [] {
      var s := ListText(xs);
      var sp := Spaced(xs);
      var j := Join(sp, ',');
      JoinFirst(sp, ',');
      assert s[1..|s| - 1] == j;
      assert s[1] == xs[0][0];
      SpacedJoinKeeps(xs, c => !BreaksList(c));
      assert Str2List(s) == ListItems(j);
      SplitSpaced(xs);
      StripSpaced(xs);
    }
  }

  predicate PlainPairs(ps: seq<(string, string)>) {
    forall i :: 0 <= i < |ps| ==> Plain(ps[i].0) && Plain(ps[i].1)
  }

  /** `str2dict` reads back the dictionary `ovs-vsctl` printed: exactly its keys, each with its own value. */
  lemma Str2DictDictText(ps: seq<(string, string)>)
    requires |ps| > 0 && PlainPairs(ps) && DistinctKeys(ps)
    ensures Str2Dict(DictText(ps)).Parsed?
    ensures Str2Dict(DictText(ps)).value.Keys == set i | 0 <= i < |ps| :: ps[i].0
    ensures forall i :: 0 <= i < |ps| ==> Str2Dict(DictText(ps)).value[ps[i].0] == ps[i].1
  {
    DictTextBody(ps);
    DictBodySpaced(ps);
    DictItemsSpaced(ps);
    StrippedSpacedPairs(ps);
  }

  /** The body of the printed dictionary splits back into its spaced pairs. */
  lemma DictBodySpaced(ps: seq<(string, string)>)
    requires |ps| > 0 && PlainPairs(ps)
    ensures DictBody(Join(Spaced(PairTexts(ps)), ',')) == DictItems(Spaced(PairTexts(ps)))
  {
    var texts := PairTexts(ps);
    var j := Join(Spaced(texts), ',');
    JoinedPairsKeep(ps);
    PairTextsKeep(ps);
    forall i | 0 <= i < |texts|
      ensures ',' !in texts[i]
    {
      assert texts[i] == PairText(ps[i]);
    }
    SplitSpaced(texts);
  }

  lemma JoinedPairsKeep(ps: seq<(string, string)>)
    requires PlainPairs(ps)
    ensures forall i :: 0 <= i < |Join(Spaced(PairTexts(ps)), ',')| ==> !BreaksDict(Join(Spaced(PairTexts(ps)), ',')[i])
  {
    PairTextsKeep(ps);
    SpacedJoinKeeps(PairTexts(ps), c => !BreaksDict(c));
  }

  /** The printed dictionary is read as its body between the braces. */
  lemma DictTextBody(ps: seq<(string, string)>)
    requires |ps| > 0 && PlainPairs(ps)
    ensures Str2Dict(DictText(ps)) == DictBody(Join(Spaced(PairTexts(ps)), ','))
  {
    var texts := PairTexts(ps);
    var s := DictText(ps);
    var sp := Spaced(texts);
    var j := Join(sp, ',');
    assert Plain(ps[0].0);
    assert texts[0] == ps[0].0 + ": " + ps[0].1;
    JoinFirst(sp, ',');
    assert s[1..|s| - 1] == j;
    assert s[1] == ps[0].0[0];
  }

  /** The `key: value` texts hold no brace, quote or comma. */
  lemma PairTextsKeep(ps: seq<(string, string)>)
    requires PlainPairs(ps)
    ensures forall k, n :: 0 <= k < |ps| && 0 <= n < |PairText(ps[k])| ==> !BreaksDict(PairText(ps[k])[n]) && PairText(ps[k])[n] != ','
  {
    forall k | 0 <= k < |ps|
      ensures forall n :: 0 <= n < |PairText(ps[k])| ==> !BreaksDict(PairText(ps[k])[n]) && PairText(ps[k])[n] != ','
    {
      PairTextKeeps(ps[k]);
    }
  }

  lemma PairTextKeeps(p: (string, string))
    requires Plain(p.0) && Plain(p.1)
    ensures forall n :: 0 <= n < |PairText(p)| ==> !BreaksDict(PairText(p)[n]) && PairText(p)[n] != ','
  {
    var (k, v) := p;
    var t := PairText(p);
    forall n | 0 <= n < |t|
      ensures !BreaksDict(t[n]) && t[n] != ','
    {
      if n < |k| {
        assert t[n] == k[n];
      } else if n >= |k| + 2 {
        assert t[n] == v[n - |k| - 2];
      }
    }
  }

  /** One printed pair splits at its colon into the key and the blank-led value. */
  lemma SplitPair(k: string, v: string, lead: bool)
    requires Plain(k) && Plain(v)
    ensures var t := if lead then " " + PairText((k, v)) else PairText((k, v));
      Split(t, ':') == [if lead then " " + k else k, " " + v]
  {
    var t := if lead then " " + PairText((k, v)) else PairText((k, v));
    var a, b := if lead then " " + k else k, " " + v;
    assert t == a + [':'] + b;
    BlankKeeps(k, c => c != ':');
    BlankKeeps(v, c => c != ':');
    assert ':' !in a && ':' !in b;
    SplitTwo(a, b, ':');
  }

  /** The raw pairs of the printed items: every key but the first, and every value, led by a blank. */
  function SpacedPairs(ps: seq<(string, string)>): (qs: seq<(string, string)>)
    ensures |qs| == |ps|
  {
    seq(|ps|, i requires 0 <= i < |ps| => (if i == 0 then ps[i].0 else " " + ps[i].0, " " + ps[i].1))
  }

  /** The printed items split into the spaced raw pairs. */
  lemma DictItemsSpaced(ps: seq<(string, string)>)
    requires PlainPairs(ps)
    ensures DictItems(Spaced(PairTexts(ps))) == Parsed(StrippedMap(SpacedPairs(ps), Strip))
  {
    var texts := PairTexts(ps);
    var sp := Spaced(texts);
    var qs := SpacedPairs(ps);
    forall i | 0 <= i < |ps|
      ensures Split(sp[i], ':') == [qs[i].0, qs[i].1]
    {
      assert texts[i] == PairText((ps[i].0, ps[i].1));
      SplitPair(ps[i].0, ps[i].1, i > 0);
    }
    var r := RawPairs(sp);
    assert r.Some?;
    assert forall i :: 0 <= i < |ps| ==> r.value[i] == qs[i];
    assert r.value == qs;
  }

  /** Stripping the spaced raw pairs gives the printed pairs back. */
  lemma SpacedPairsStrip(ps: seq<(string, string)>)
    requires PlainPairs(ps)
    ensures forall i :: 0 <= i < |ps| ==> Strip(SpacedPairs(ps)[i].0) == ps[i].0 && Strip(SpacedPairs(ps)[i].1) == ps[i].1
  {
    forall i | 0 <= i < |ps|
      ensures Strip(SpacedPairs(ps)[i].0) == ps[i].0 && Strip(SpacedPairs(ps)[i].1) == ps[i].1
    {
      assert Plain(ps[i].0) && Plain(ps[i].1);
      SpacedPairStrip(ps[i], SpacedPairs(ps)[i]);
    }
  }

  lemma SpacedPairStrip(p: (string, string), q: (string, string))
    requires Strip(p.0) == p.0 && Strip(p.1) == p.1
    requires q.0 in {p.0, " " + p.0} && q.1 == " " + p.1
    ensures Strip(q.0) == p.0 && Strip(q.1) == p.1
  {
    StripStripped(p.0);
    StripStripped(p.1);
  }

  /**
   * When the raw pairs normalise to pairs with distinct keys, every raw pair
   * survives and the normalised map holds exactly those pairs.
   */
  lemma NormalisedMap(qs: seq<(string, string)>, ps: seq<(string, string)>, norm: string -> string)
    requires |qs| == |ps| && DistinctKeys(ps)
    requires forall j :: 0 <= j < |qs| ==> norm(qs[j].0) == ps[j].0 && norm(qs[j].1) == ps[j].1
    ensures StrippedMap(qs, norm).Keys == set i | 0 <= i < |ps| :: ps[i].0
    ensures forall i :: 0 <= i < |ps| ==> StrippedMap(qs, norm)[ps[i].0] == ps[i].1
  {
    var m := StrippedMap(qs, norm);
    forall i | 0 <= i < |ps|
      ensures m[ps[i].0] == ps[i].1
    {
      NormalisedSurvives(qs, ps, norm, i);
      StrippedMapSurvives(qs, norm, i);
    }
    forall k | k in m
      ensures k in set i | 0 <= i < |ps| :: ps[i].0
    {
      StrippedMapSurvivor(qs, norm, k);
    }
  }

  lemma NormalisedSurvives(qs: seq<(string, string)>, ps: seq<(string, string)>, norm: string -> string, i: int)
    requires |qs| == |ps| && DistinctKeys(ps) && 0 <= i < |qs|
    requires forall j :: 0 <= j < |qs| ==> norm(qs[j].0) == ps[j].0
    ensures Survives(qs, i, norm)
  {
    forall j | 0 <= j < |qs| && j != i
      ensures norm(qs[j].0) != norm(qs[i].0)
    {
      if j < i {
        assert ps[j].0 != ps[i].0;
      } else {
        assert ps[i].0 != ps[j].0;
      }
    }
    SurvivesWhenNamesDistinct(qs, norm, i);
  }

  /** A pair whose name no other pair shares survives. */
  lemma SurvivesWhenNamesDistinct(ps: seq<(string, string)>, norm: string -> string, i: int)
    requires 0 <= i < |ps|
    requires forall j :: 0 <= j < |ps| && j != i ==> norm(ps[j].0) != norm(ps[i].0)
    ensures Survives(ps, i, norm)
  {
  }

  /** With distinct plain keys the stripped map holds exactly the printed pairs. */
  lemma StrippedSpacedPairs(ps: seq<(string, string)>)
    requires PlainPairs(ps) && DistinctKeys(ps)
    ensures StrippedMap(SpacedPairs(ps), Strip).Keys == set i | 0 <= i < |ps| :: ps[i].0
    ensures forall i :: 0 <= i < |ps| ==> StrippedMap(SpacedPairs(ps), Strip)[ps[i].0] == ps[i].1
  {
    SpacedPairsStrip(ps);
    NormalisedMap(SpacedPairs(ps), ps, Strip);
  }
}

=== FILE: pystr.dfy ===
/**
 * The Python 2 string primitives that the drivers and the command line rely on:
 * `str.strip()`, `str.split(sep)`, `sep.join(parts)`, the `in` test on strings,
 * a regular expression `(\d+)` matched at the start of a string, `int()` on a
 * string and `str()` on a natural number.
 */
module PyStr {
  import opened Wrappers

  /** The characters Python 2's `str.strip()` and `int()` skip as whitespace. */
  predicate IsSpace(c: char) {
    c == ' ' || c == '\t' || c == '\n' || c == '\r' || c == '\U{B}' || c == '\U{C}'
  }

  /** `\d` on a Python 2 byte string: the ASCII digits only. */
  predicate IsDigit(c: char) {
    '0' <= c <= '9'
  }

  predicate IsNumeral(d: string) {
    |d| > 0 && forall i :: 0 <= i < |d| ==> IsDigit(d[i])
  }

  /** `s.lstrip()` */
  function LStrip(s: string): (r: string)
    ensures |r| <= |s| && r == s[|s| - |r|..]
    ensures r == [] || !IsSpace(r[0])
    ensures forall i :: 0 <= i < |s| - |r| ==> IsSpace(s[i])
  {
    if |s| > 0 && IsSpace(s[0]) then LStrip(s[1..]) else s
  }

  /** `s.rstrip()` */
  function RStrip(s: string): (r: string)
    ensures |r| <= |s| && r == s[..|r|]
    ensures r == [] || !IsSpace(r[|r| - 1])
    ensures forall i :: |r| <= i < |s| ==> IsSpace(s[i])
  {
    if |s| > 0 && IsSpace(s[|s| - 1]) then RStrip(s[..|s| - 1]) else s
  }

  /** `s.strip()`: the longest infix of `s` that neither starts nor ends with whitespace. */
  function Strip(s: string): (r: string)
    ensures |r| <= |s|
    ensures r == [] || (!IsSpace(r[0]) && !IsSpace(r[|r| - 1]))
    ensures (forall i :: 0 <= i < |s| ==> !IsSpace(s[i])) ==> r == s
    ensures (forall i :: 0 <= i < |s| ==> IsSpace(s[i])) ==> r == []
  {
    RStrip(LStrip(s))
  }

  /** Stripping only removes characters: a property of every character of `s` holds of every character of `s.strip()`. */
  lemma StripKeeps(s: string, p: char -> bool)
    requires forall i :: 0 <= i < |s| ==> p(s[i])
    ensures forall i :: 0 <= i < |Strip(s)| ==> p(Strip(s)[i])
  {
    SliceKeeps(s, |s| - |LStrip(s)|, |s|, p);
    SliceKeeps(LStrip(s), 0, |Strip(s)|, p);
  }

  lemma SliceKeeps(s: string, lo: nat, hi: nat, p: char -> bool)
    requires lo <= hi <= |s|
    requires forall i :: 0 <= i < |s| ==> p(s[i])
    ensures forall i :: 0 <= i < hi - lo ==> p(s[lo..hi][i])
  {
    forall i | 0 <= i < hi - lo
      ensures p(s[lo..hi][i])
    {
      assert s[lo..hi][i] == s[lo + i];
    }
  }

  /** Stripping twice is stripping once. */
  lemma StripIdempotent(s: string)
    ensures Strip(Strip(s)) == Strip(s)
  {
    var r := Strip(s);
    if r != [] {
      assert LStrip(r) == r;
      assert RStrip(r) == r;
    }
  }

  /** One blank in front of an already stripped word disappears again under `strip()`. */
  lemma StripStripped(w: string)
    requires Strip(w) == w
    ensures Strip(" " + w) == w
  {
    assert (" " + w)[1..] == w;
  }

  /** `sep.join(parts)` */
  function Join(parts: seq<string>, sep: char): (r: string)
  {
    if |parts| == 0 then ""
    else if |parts| == 1 then parts[0]
    else parts[0] + [sep] + Join(parts[1..], sep)
  }

  /** Every character of `sep.join(parts)` is the separator or a character of one of the parts. */
  lemma {:induction false} JoinKeeps(parts: seq<string>, sep: char, p: char -> bool)
    requires p(sep)
    requires forall k, j :: 0 <= k < |parts| && 0 <= j < |parts[k]| ==> p(parts[k][j])
    ensures forall i :: 0 <= i < |Join(parts, sep)| ==> p(Join(parts, sep)[i])
  {
    if |parts| > 1 {
      JoinKeeps(parts[1..], sep, p);
      var t := Join(parts[1..], sep);
      forall i | 0 <= i < |parts[0] + [sep] + t|
        ensures p((parts[0] + [sep] + t)[i])
      {
        if i < |parts[0]| {
        } else if i > |parts[0]| {
          assert (parts[0] + [sep] + t)[i] == t[i - |parts[0]| - 1];
        }
      }
    }
  }

  /**
   * `s.split(sep)` with a one-character separator: never empty, no piece holds
   * the separator, and joining the pieces gives `s` back.
   */
  function Split(s: string, sep: char): (r: seq<string>)
    ensures |r| >= 1
    ensures forall i :: 0 <= i < |r| ==> sep !in r[i]
    ensures Join(r, sep) == s
  {
    if |s| == 0 then [""]
    else
      var rest := Split(s[1..], sep);
      if s[0] == sep then
        assert ([""] + rest)[1..] == rest;
        [""] + rest
      else
        var r := [[s[0]] + rest[0]] + rest[1..];
        assert r[1..] == rest[1..];
        assert s == [s[0]] + s[1..];
        r
  }

  /** Splitting text that starts with a separator-free word keeps that word in the first piece. */
  lemma {:induction false} SplitAfterWord(w: string, t: string, sep: char)
    requires sep !in w
    ensures Split(w + t, sep) == [w + Split(t, sep)[0]] + Split(t, sep)[1..]
  {
    if w == [] {
      var r := Split(t, sep);
      assert w + t == t && w + r[0] == r[0];
      assert [r[0]] + r[1..] == r;
    } else {
      var x := Split(t, sep);
      var rest := Split(w[1..] + t, sep);
      SplitAfterWord(w[1..], t, sep);
      assert rest[0] == w[1..] + x[0] && rest[1..] == x[1..];
      assert (w + t)[0] == w[0] && (w + t)[1..] == w[1..] + t;
      assert Split(w + t, sep) == [[w[0]] + rest[0]] + rest[1..];
      assert [w[0]] + (w[1..] + x[0]) == w + x[0];
    }
  }

  /** Splitting undoes joining when no part holds the separator. */
  lemma {:induction false} SplitJoin(parts: seq<string>, sep: char)
    requires |parts| >= 1
    requires forall i :: 0 <= i < |parts| ==> sep !in parts[i]
    ensures Split(Join(parts, sep), sep) == parts
  {
    SplitAfterWord(parts[0], [], sep);
    assert parts[0] + [] == parts[0];
    if |parts| > 1 {
      var t := Join(parts[1..], sep);
      SplitJoin(parts[1..], sep);
      assert parts[0] + [sep] + t == parts[0] + ([sep] + t);
      SplitAfterWord(parts[0], [sep] + t, sep);
      assert ([sep] + t)[1..] == t;
      assert parts == [parts[0]] + parts[1..];
    }
  }

  /** Two separator-free words joined by one separator split back into the two words. */
  lemma SplitTwo(a: string, b: string, sep: char)
    requires sep !in a && sep !in b
    ensures Split(a + [sep] + b, sep) == [a, b]
  {
    assert Join([a, b], sep) == a + [sep] + b;
    SplitJoin([a, b], sep);
  }

  /** Python's `needle in hay` on two strings: a substring test. */
  predicate Contains(hay: string, needle: string)
  {
    needle <= hay || (|hay| > 0 && Contains(hay[1..], needle))
  }

  /** `needle in hay` holds exactly when `needle` occurs at some offset of `hay`. */
  lemma {:induction false} ContainsIff(hay: string, needle: string)
    ensures Contains(hay, needle) <==> exists i :: 0 <= i <= |hay| && needle <= hay[i..]
  {
    if needle <= hay {
      assert hay[0..] == hay;
    } else if |hay| > 0 {
      ContainsIff(hay[1..], needle);
      if Contains(hay, needle) {
        var i :| 0 <= i <= |hay[1..]| && needle <= hay[1..][i..];
        assert hay[1..][i..] == hay[i + 1..];
      }
      if exists i :: 0 <= i <= |hay| && needle <= hay[i..] {
        var i :| 0 <= i <= |hay| && needle <= hay[i..];
        assert i != 0;
        assert hay[1..][i - 1..] == hay[i..];
      }
    }
  }

  /** The text matched by the regular expression `(\d+)` at the start of `s` ("" when it does not match). */
  function LeadingDigits(s: string): (r: string)
    ensures r <= s
    ensures forall i :: 0 <= i < |r| ==> IsDigit(r[i])
    ensures |r| == |s| || !IsDigit(s[|r|])
  {
    if |s| > 0 && IsDigit(s[0]) then [s[0]] + LeadingDigits(s[1..]) else ""
  }

  /** `(\d+)` matches exactly the digits in front of text that does not start with a digit. */
  lemma {:induction false} LeadingDigitsBefore(d: string, rest: string)
    requires forall i :: 0 <= i < |d| ==> IsDigit(d[i])
    requires rest == [] || !IsDigit(rest[0])
    ensures LeadingDigits(d + rest) == d
  {
    if |d| > 0 {
      assert (d + rest)[1..] == d[1..] + rest;
      LeadingDigitsBefore(d[1..], rest);
      assert d == [d[0]] + d[1..];
    }
  }

  /** Stripping a numeral followed by junk that starts with no digit leaves the numeral as its leading digits. */
  lemma {:induction false} LeadingDigitsOfStripped(d: string, junk: string)
    requires IsNumeral(d)
    requires junk == [] || !IsDigit(junk[0])
    ensures LeadingDigits(Strip(d + junk)) == d
  {
    var t := StripKeepsNumeral(d, junk);
    LeadingDigitsBefore(d, t);
  }

  /** `(d + junk).strip()` is `d` followed by a prefix of `junk`. */
  lemma {:induction false} StripKeepsNumeral(d: string, junk: string) returns (t: string)
    requires IsNumeral(d)
    ensures Strip(d + junk) == d + t && t <= junk
  {
    var x := d + junk;
    assert !IsSpace(x[0]) && !IsSpace(x[|d| - 1]);
    RStripKeeps(LStrip(x), |d|);
    t := RStrip(x)[|d|..];
  }

  /** `rstrip` keeps every character up to the last non-blank one. */
  lemma RStripKeeps(x: string, n: nat)
    requires 0 < n <= |x| && !IsSpace(x[n - 1])
    ensures |RStrip(x)| >= n
  {
  }

  /** `int(d)` for a string of decimal digits. */
  function DigitsValue(d: string): nat
    requires forall i :: 0 <= i < |d| ==> IsDigit(d[i])
  {
    if |d| == 0 then 0
    else
      var c := d[|d| - 1];
      assert IsDigit(c);
      DigitsValue(d[..|d| - 1]) * 10 + (c as int - '0' as int)
  }

  function DigitChar(n: nat): (c: char)
    requires n < 10
    ensures IsDigit(c) && c as int - '0' as int == n
  {
    ('0' as int + n) as char
  }

  /** `str(n)` for a natural number: decimal digits without leading zeros, whose value is `n`. */
  function NatToString(n: nat): (r: string)
    ensures IsNumeral(r)
    ensures r[0] != '0' || r == "0"
    ensures DigitsValue(r) == n
  {
    if n < 10 then [DigitChar(n)]
    else
      var p := NatToString(n / 10);
      var r := p + [DigitChar(n % 10)];
      assert r[..|r| - 1] == p;
      r
  }

  /**
   * `int(s)` in base 10 as Python 2 reads it: surrounding whitespace, one
   * optional sign, whitespace again (the C `strtoul` behind `int` skips it
   * after the sign), then at least one digit.
   */
  function PyInt(s: string): (r: Option<int>)
  {
    SignedInt(Strip(s))
  }

  /** `int` of stripped text: a sign followed by blanks and a numeral, or a numeral alone. */
  function SignedInt(t: string): (r: Option<int>)
  {
    if |t| > 0 && (t[0] == '+' || t[0] == '-') then
      match Unsigned(LStrip(t[1..]))
      case None => None
      case Some(v) => Some(if t[0] == '-' then -v else v)
    else Unsigned(t)
  }

  function Unsigned(u: string): (r: Option<int>)
    ensures r.Some? <==> IsNumeral(u)
  {
    if IsNumeral(u) then Some(DigitsValue(u)) else None
  }

  /** `int(sign + blanks + digits)`: the blanks after the sign are skipped, so `int('- 5') == -5`. */
  lemma {:induction false} SignThenBlanks(sign: char, pad: string, d: string)
    requires sign == '+' || sign == '-'
    requires forall i :: 0 <= i < |pad| ==> IsSpace(pad[i])
    requires IsNumeral(d)
    ensures var v: int := DigitsValue(d); PyInt([sign] + pad + d) == Some(if sign == '-' then -v else v)
  {
    var s := [sign] + pad + d;
    assert s[0] == sign && s[|s| - 1] == d[|d| - 1];
    StripUnpadded(s);
    SignedBlanks(sign, pad, d);
  }

  lemma {:induction false} SignedBlanks(sign: char, pad: string, d: string)
    requires sign == '+' || sign == '-'
    requires forall i :: 0 <= i < |pad| ==> IsSpace(pad[i])
    requires IsNumeral(d)
    ensures var v: int := DigitsValue(d); SignedInt([sign] + pad + d) == Some(if sign == '-' then -v else v)
  {
    var s := [sign] + pad + d;
    assert s[1..] == pad + d;
    LStripBlanks(pad, d);
  }

  /** Text that neither starts nor ends with whitespace is its own `strip()`. */
  lemma StripUnpadded(s: string)
    requires |s| > 0 && !IsSpace(s[0]) && !IsSpace(s[|s| - 1])
    ensures Strip(s) == s
  {
    assert LStrip(s) == s;
  }

  lemma {:induction false} LStripBlanks(pad: string, d: string)
    requires forall i :: 0 <= i < |pad| ==> IsSpace(pad[i])
    requires d == [] || !IsSpace(d[0])
    ensures LStrip(pad + d) == d
  {
    if pad != [] {
      assert (pad + d)[1..] == pad[1..] + d;
      LStripBlanks(pad[1..], d);
    }
  }

  /** `int(str(n)) == n` */
  lemma PyIntNatToString(n: nat)
    ensures PyInt(NatToString(n)) == Some(n)
  {
    var s := NatToString(n);
    assert forall i :: 0 <= i < |s| ==> !IsSpace(s[i]);
    assert Strip(s) == s && IsDigit(s[0]);
    assert SignedInt(s) == Unsigned(s);
  }
}

=== FILE: urlquote.dfy ===
/**
 * Python 2's `urllib.quote(arg, '')`, which both the client library and the
 * command line apply to every path segment they append to the endpoint, and
 * its inverse `urllib.unquote`.
 */
module UrlQuote {

  /** A Python 2 byte string: every character is below 256. */
  type ByteString = s: string | forall i :: 0 <= i < |s| ==> s[i] as int < 256

  /** The characters `urllib.quote` never escapes: ASCII letters, digits and `_.-`. */
  predicate AlwaysSafe(c: char) {
    ('A' <= c <= 'Z') || ('a' <= c <= 'z') || ('0' <= c <= '9') || c == '_' || c == '.' || c == '-'
  }

  predicate IsHex(c: char) {
    ('0' <= c <= '9') || ('A' <= c <= 'F') || ('a' <= c <= 'f')
  }

  /** The upper-case hexadecimal digit `%02X` writes for `n`. */
  function HexDigit(n: nat): (c: char)
    requires n < 16
    ensures IsHex(c) && AlwaysSafe(c)
  {
    if n < 10 then ('0' as int + n) as char else ('A' as int + n - 10) as char
  }

  function HexValue(c: char): (v: nat)
    requires IsHex(c)
    ensures v < 16
  {
    if '0' <= c <= '9' then c as int - '0' as int
    else if 'A' <= c <= 'F' then c as int - 'A' as int + 10
    else c as int - 'a' as int + 10
  }

  /** One character of `urllib.quote(s, '')`: kept when always safe, otherwise `%XX`. */
  function QuoteChar(c: char): (r: string)
    requires c as int < 256
  {
    if AlwaysSafe(c) then [c] else ['%', HexDigit(c as int / 16), HexDigit(c as int % 16)]
  }

  /**
   * `urllib.quote(s, '')`. With an empty `safe` argument not even `/` is kept,
   * so a quoted segment never introduces a path separator.
   */
  function Quote(s: ByteString): (r: string)
    ensures '/' !in r
    ensures forall i :: 0 <= i < |r| ==> AlwaysSafe(r[i]) || r[i] == '%'
    ensures |s| <= |r| <= 3 * |s|
  {
    if s == [] then "" else QuoteChar(s[0]) + Quote(s[1..])
  }

  /** `urllib.unquote(s)`: every `%` followed by two hexadecimal digits is decoded. */
  function Unquote(s: string): string
  {
    if |s| >= 3 && s[0] == '%' && IsHex(s[1]) && IsHex(s[2]) then
      [(HexValue(s[1]) * 16 + HexValue(s[2])) as char] + Unquote(s[3..])
    else if s == [] then ""
    else [s[0]] + Unquote(s[1..])
  }

  lemma HexRoundTrip(n: nat)
    requires n < 16
    ensures HexValue(HexDigit(n)) == n
  {
  }

  /** Unquoting a quoted segment gives the segment back. */
  lemma {:induction false} UnquoteQuote(s: ByteString)
    ensures Unquote(Quote(s)) == s
  {
    if s != [] {
      var c, rest := s[0], s[1..];
      UnquoteQuote(rest);
      UnquoteQuoteChar(c, Quote(rest));
      assert s == [c] + rest;
    }
  }

  /** Unquoting reads one quoted character back from the front of the text. */
  lemma UnquoteQuoteChar(c: char, t: string)
    requires c as int < 256
    ensures Unquote(QuoteChar(c) + t) == [c] + Unquote(t)
  {
    var q := QuoteChar(c) + t;
    if AlwaysSafe(c) {
      assert q[1..] == t;
    } else {
      HexRoundTrip(c as int / 16);
      HexRoundTrip(c as int % 16);
      assert q[3..] == t;
    }
  }
}

=== FILE: wrappers.dfy ===
/** Failure-carrying values shared by every module of the model. */
module Wrappers {

  /** Python's `None` or a present value. */
  datatype Option<T> = None | Some(value: T)

  /** A returned value, or the exception that the Python code raises instead. */
  datatype Result<T, E> = Ok(value: T) | Err(error: E)
}
